=== FILE: README.md ===
# A verified model of the research agent's deterministic core

The agent answers a question by searching two sources: a document wiki (Confluence, searched with CQL) and a team chat (Rocket.Chat). A language model plans every step.

This project models in Dafny everything the agent does between the model, embedding and HTTP calls. Those calls become oracle parameters: function-typed inputs with no behaviour of their own. A call that raises is a `Result.Err`, or an `Option.None` where the source catches it. `asyncio.gather` is read as an order-preserving map, which fails with the first failing call (`Wrappers.AllOk`).

The model covers:

- the reducers that merge two copies of the session state (`State`);
- the main graph: input verification and its routing, the main loop's counter and tool history, the loop edge with its iteration bound, aggregation, and the final validation decision table (`MainGraph`);
- the retry policy of the structured model call `run_llm` (`AgentFunctions`);
- keyword deduplication against the search history, shared by both sources (`Keywords`);
- the wiki plan/act steps: query history, CQL string, page history (`ConfluenceGraph`);
- the wiki tool: download guard, ranking by embedding distance, top 8, summary acceptance (`ConfluenceTool`);
- the wiki client: result parsing, the paginated search loop, and whitespace normalisation of page text (`ConfluenceClient`);
- the chat plan/act steps: room narrowing, keyword history, ranking text, top 3, summary filtering (`RocketGraph`);
- the chat search tool and its regex search string (`RocketTool`);
- the chat client: room links, thread expansion with de-duplication, dropping rooms without hits, the paginated listing loop and the room catalog (`RocketClient`);
- the window arithmetic of the relevance score and its minimum over windows (`Embedding`);
- stable sorting by distance and top-k selection (`Ranking`).

Helpers live in `Wrappers` (Option, Result, truthiness, gather) and `Seqs` (filter, flatten, join, Python `range`). The prompt schemas (`Prompts`) and the two response kinds (`MainOutput`) are plain datatypes.

## Model

| member | source | states |
|---|---|---|
| State.ListReducer | dev/src/shared/state.py:13-25 | returns one of its arguments unchanged, of the larger length; an empty side yields the other side, and a tie between non-empty lists goes to `b` |
| State.ListReducerIdempotent | dev/src/shared/state.py:13-25 | merging a list with itself gives that list |
| State.ListReducerAssociative | dev/src/shared/state.py:13-25 | the grouping of successive merges does not matter |
| State.NoneReducer | dev/src/shared/state.py:28-30 | a present later value overrides, a missing one keeps the earlier value; the result is present iff either side is |
| State.NoneReducerLaws | dev/src/shared/state.py:28-30 | None is a two-sided identity; the merge is idempotent and associative |
| State.LargerInt | dev/src/shared/state.py:33-35 | on the iteration counter the reducer is the maximum of both sides |
| State.LargerIntLaws | dev/src/shared/state.py:33-35 | on integers the reducer is idempotent, commutative and associative |
| State.LargerOps | dev/src/shared/state.py:95 | on the tool-set history the reducer returns one of its two arguments |
| State.LargerOpsPrefix | dev/src/shared/state.py:33-35 | when one operations history extends the other, the longer one wins in either argument order |
| State.ListGreaterPrefix | dev/src/shared/state.py:35 | under Python's list comparison a proper extension is greater and a prefix never is |
| State.LargerOpsIdempotent | dev/src/shared/state.py:33-35 | merging an operations history with itself gives that history |
| State.LargerOpsNotCommutative | dev/src/shared/state.py:95 | two unrelated one-pass histories each win when passed second, so the merge of operations is not commutative |
| State.RocketReducer | dev/src/shared/state.py:54-63 | a missing side yields the other; with both present each of rooms, search patterns and results is the list reducer applied to that field of the two sides, so it has the length of the longer one; with neither present the merge raises |
| State.RocketReducerLaws | dev/src/shared/state.py:49-63 | the initial chat state is a two-sided identity, and merging a state with itself changes nothing |
| State.ConfluenceReducer | dev/src/shared/state.py:80-88 | a missing side yields the other; with both present the query history and the page history are each the list reducer applied to that field of the two sides; with neither present the merge raises |
| State.ConfluenceReducerLaws | dev/src/shared/state.py:75-88 | the initial wiki state is a two-sided identity, and the merge is idempotent |
| State.ConfluenceReducerKeepsBound | dev/src/shared/state.py:80-88 | if both sides have no more page lists than queries, so has their merge |
| State.MergeGraph | dev/src/shared/state.py:91-97 | the counter is the maximum of both sides; a present later reason or response overrides the earlier one; the operations history is one of the two sides; each chat and wiki list is one of the two sides and as long as the longer; no more page lists than queries is kept |
| State.Initialize | dev/src/shared/state.py:99-110 | the initial graph state (counter 0, nothing decided, no operations, empty sub-states) is a two-sided identity of the merge for every state with a non-negative counter |
| State.MergeGraphIdempotent | dev/src/shared/state.py:91-97 | merging a graph state with itself changes nothing |
| AgentFunctions.Attempt | dev/src/util/agent_functions.py:63-86 | from attempt k on: the i-th request is the one for attempt k+i, every attempt but the last hit the length limit, and the last call decides the outcome |
| AgentFunctions.RunLlm | dev/src/util/agent_functions.py:54-86 | one to three calls; the first sends the bare prompt, later ones the short-reply instruction plus the same prompt; only length failures are retried; a third length failure is re-raised |
| AgentFunctions.LengthRaisedIffThreeCutoffs | dev/src/util/agent_functions.py:78-86 | the length error escapes exactly when all three attempts hit the length limit |
| AgentFunctions.ParsedAfterCutoffsReturned | dev/src/util/agent_functions.py:63-86 | a reply parsed on attempt k after k-1 length failures is returned, after exactly k calls |
| AgentFunctions.FailureNotRetried | dev/src/util/agent_functions.py:64-78 | any other exception propagates from the call that raised it, with no further call |
| MainGraph.VerificationStep | dev/src/main/graph.py:47-49 | a rejected question stores the observations as the reason; nothing else changes, and an accepted question changes nothing |
| MainGraph.VerificationRoute | dev/src/main/graph.py:194-197 | the route goes to final validation iff a non-empty reason is stored, and otherwise into the main loop |
| MainGraph.RejectionRoute | dev/src/main/graph.py:194-197 | from the initial state the search is skipped exactly when the question was rejected with non-empty observations |
| MainGraph.MainLoopStep | dev/src/main/graph.py:144-162 | the counter grows by exactly one and exactly the chosen tool set is appended to the history; nothing else changes |
| MainGraph.Targets | dev/src/main/graph.py:176-191 | an empty tool set goes to the aggregator; a non-empty set goes to exactly the matching subgraphs, never to the aggregator, without repeats |
| MainGraph.MainLoopEdge | dev/src/main/graph.py:167-191 | past the bound of 2 the edge goes to the aggregator only; otherwise it follows the latest tool set, and raises on an empty history |
| MainGraph.JoinBranches | dev/src/main/graph.py:201-219 | the step succeeds iff every dispatched subgraph succeeds; the joined counter is at least the accumulated one and is either that one or some branch's counter; a history, a rejection reason or a response that no branch changed stays as it was |
| MainGraph.JoinCovers | dev/src/main/graph.py:201-219 | every branch's result reaches the merge: the joined state has a counter as high and every chat and wiki list as long as the accumulated state and as each branch's state |
| MainGraph.JoinIsGatherThenMerge | dev/src/main/graph.py:201-219 | the join is a superstep: it fails with the first error among the branch runs in list order, and otherwise is the branch states merged one after another into the accumulated state through the reducers |
| MainGraph.LoopFrom | dev/src/main/graph.py:133-191 | the loop makes at least one pass and at most the passes left before the bound; a failing tool choice ends it in its first pass with that error; a loop that ends normally has raised the counter by at least the passes made and stands on the aggregator edge |
| MainGraph.PassesExactly | dev/src/main/graph.py:144-170 | with model calls and subgraphs that never raise and subgraphs that leave the counter and history alone, the loop ends normally, each pass adds one to the counter and one tool set, and if a source is always chosen the bound is reached exactly |
| MainGraph.LoopCounts | dev/src/main/graph.py:144-170 | with model calls and subgraphs that never raise and subgraphs that leave the counter and history alone, the loop ends normally and each pass adds one to the counter and one tool set |
| MainGraph.AtMostThreePasses | dev/src/main/graph.py:144-170 | from a zero counter at most three main-loop passes happen before the aggregator, whatever the model answers or raises |
| MainGraph.AggregateStep | dev/src/main/graph.py:68-78 | the model's answer becomes a success response and nothing else changes; a failing call fails the node |
| MainGraph.Documents | dev/src/main/graph.py:110-111 | the guard sees, in order, the body of every stored page, page list by page list, followed by every collected chat result, and nothing else |
| MainGraph.CheckedMessage | dev/src/main/graph.py:121 | the downgraded text starts with the answer, carries the guard's observations after the check heading, and is 15 characters longer than both together |
| MainGraph.FinalValidationStep | dev/src/main/graph.py:95-129 | afterwards a response is always set; a stored reason becomes the model's error reply; a missing response becomes the fatal error; an error stays; a success is downgraded exactly when the guard flags it |
| MainGraph.FinalValidationIdempotent | dev/src/main/graph.py:95-129 | validating an already validated state again, with the same model answers, changes nothing |
| MainGraph.Run | dev/src/main/graph.py:200-223 | a whole run makes at most three passes and a successful one ends with a response set; a failing verification call ends the run before any pass; a question rejected with non-empty observations makes no pass and ends with the model's error reply; an accepted question runs the loop from the verified state; an exception in the loop ends the run with that error, and a loop that ends normally goes on to aggregation and then final validation of the aggregated state |
| MainGraph.LoopSucceeds | dev/src/main/graph.py:133-191 | with a tool-choice call and subgraphs that never raise, the loop ends normally |
| MainGraph.LoopKeepsDecisions | dev/src/main/graph.py:133-191 | with subgraphs that leave the rejection reason and the response alone, so does the whole loop |
| MainGraph.AcceptedQuestionAnswered | dev/src/main/graph.py:200-223 | an accepted question, with calls that never raise and a guard that flags nothing, ends the run normally with the state the loop left and the aggregator's answer as a success response |
| Keywords.NewTerms | dev/src/confluence/graph.py:55-57 | a term is new iff it is in the latest list and in no earlier list; the new terms keep the order of the latest list and each keeps its multiplicity there |
| Keywords.NothingNew | dev/src/rocket/tool.py:20-22 | a latest list whose every term was searched before has no new term |
| Keywords.FirstListIsNew | dev/src/rocket/tool.py:20-22 | the first keyword list is searched as it is |
| Ranking.SortPermutation | dev/src/confluence/tool.py:130 | sorting by distance rearranges the pairs without adding or losing any |
| Ranking.SortSorted | dev/src/confluence/tool.py:130 | the sorted pairs ascend by distance |
| Ranking.SortStable | dev/src/confluence/tool.py:130 | pairs with equal distance keep their input order, as Python's stable sort does |
| Ranking.TopK | dev/src/confluence/tool.py:133 | the slice holds min(k, n) pairs |
| Ranking.TopKClosest | dev/src/rocket/graph.py:178-180 | the kept pairs ascend by distance and none is farther than any pair left out |
| Ranking.TopKFromInput | dev/src/rocket/graph.py:178-180 | the kept pairs are drawn from the input, each no more often than it occurs there |
| Embedding.Overlap | dev/src/util/embedding.py:20 | the overlap is one eighth of the window size, truncated toward zero for either sign |
| Embedding.Stride | dev/src/util/embedding.py:24 | the stride is positive iff the window size is, and never exceeds it |
| Embedding.Windows | dev/src/util/embedding.py:22-25 | there is one window per start |
| Embedding.WindowCount | dev/src/util/embedding.py:22-25 | there are windows iff the size is positive and the text is not empty; then there are ceiling(length / stride) of them |
| Embedding.WindowShape | dev/src/util/embedding.py:23 | window k starts at k strides inside the text, is a non-empty slice of at most the window size, and is cut short only at the end of the text |
| Embedding.WindowCovers | dev/src/util/embedding.py:22-25 | every character of the text lies in some window |
| Embedding.MinDistance | dev/src/util/embedding.py:37 | the minimum is the distance of some window and no larger than any window's distance |
| Embedding.EmbeddingDistance | dev/src/util/embedding.py:9-39 | a score exists iff there are windows; it is the smallest window distance and equals one of them |
| ConfluenceClient.ParseQueryResult | dev/src/util/ConfluenceClient.py:87-102 | a hit parses iff all four fields are present; its link is the base address followed by the hit's link, and the other fields are copied |
| ConfluenceClient.ParseAll | dev/src/util/ConfluenceClient.py:80-85 | the results are exactly the parses of the hits that parse, in hit order, so no more than the hits and every link starting with the base address |
| ConfluenceClient.ParseAllAppend | dev/src/util/ConfluenceClient.py:80-85 | parsing goes hit by hit in order: two responses parse to the parsed hits of the first followed by those of the second |
| ConfluenceClient.DefaultPagingBound | dev/src/util/ConfluenceClient.py:70-77 | with the default limit of 100 and step 25, at most four paged requests are made |
| ConfluenceClient.CqlAll | dev/src/util/ConfluenceClient.py:63-85 | one count-only request with limit 0, then one request per window start 0, step, 2·step, … below both the total and the limit, then the parsed hits of those responses in order |
| ConfluenceClient.LStrip | dev/src/util/ConfluenceClient.py:109 | the result is a suffix of the input, everything removed is whitespace, and it does not start with whitespace |
| ConfluenceClient.RStrip | dev/src/util/ConfluenceClient.py:109 | the result is a prefix of the input, everything removed is whitespace, and it does not end with whitespace |
| ConfluenceClient.Strip | dev/src/util/ConfluenceClient.py:114 | the result is a piece of the input with only whitespace cut off before and after it, and it neither starts nor ends with whitespace |
| ConfluenceClient.StripSlice | dev/src/util/ConfluenceClient.py:114 | names the offset at which the stripped text sits in its input |
| ConfluenceClient.StripKeepsText | dev/src/util/ConfluenceClient.py:114 | stripping keeps every non-whitespace character, in order |
| ConfluenceClient.Collapse | dev/src/util/ConfluenceClient.py:112 | every whitespace character left is a blank, no two are adjacent, the result starts with whitespace iff the input does, and it is empty iff the input is |
| ConfluenceClient.CollapseIsRunwise | dev/src/util/ConfluenceClient.py:112 | collapsing equals the independent reading that replaces each maximal whitespace run by exactly one blank and copies every other character |
| ConfluenceClient.SkipRun | dev/src/util/ConfluenceClient.py:112 | inside a whitespace run, the rest of the run produces nothing more |
| ConfluenceClient.CollapseKeepsText | dev/src/util/ConfluenceClient.py:112 | collapsing keeps every non-whitespace character of the text exactly, in order |
| ConfluenceClient.LStripKeepsText | dev/src/util/ConfluenceClient.py:109 | stripping leading whitespace keeps every non-whitespace character, in order |
| ConfluenceClient.CollapseFixed | dev/src/util/ConfluenceClient.py:112 | collapsing leaves a text with single blanks as its only whitespace unchanged |
| ConfluenceClient.StripCollapsed | dev/src/util/ConfluenceClient.py:112-114 | stripping a collapsed text yields a normalised one |
| ConfluenceClient.StrippedLines | dev/src/util/ConfluenceClient.py:109 | no stripped line holds a line break, and together the lines hold the text's non-whitespace characters, in order |
| ConfluenceClient.SplitAtKeepsText | dev/src/util/ConfluenceClient.py:109-110 | splitting at whitespace separators loses no non-whitespace character and reorders none |
| ConfluenceClient.LinePieces | dev/src/util/ConfluenceClient.py:110 | every piece of a line is made of the line's characters and has no whitespace at either end; together the pieces hold the line's non-whitespace characters, in order |
| ConfluenceClient.Phrases | dev/src/util/ConfluenceClient.py:109-111 | every phrase is non-empty, has no whitespace at either end and no line break, and the phrases together hold every non-whitespace character of the text, in order |
| ConfluenceClient.JoinKeepsText | dev/src/util/ConfluenceClient.py:111 | joining with a whitespace separator adds no non-whitespace character |
| ConfluenceClient.NormalizeText | dev/src/util/ConfluenceClient.py:108-114 | a normalised page text has no whitespace at either end, blanks as its only whitespace and never two in a row, and it keeps every non-whitespace character of the extracted text, in order |
| ConfluenceClient.PhrasesOfNormalized | dev/src/util/ConfluenceClient.py:109-111 | a normalised text is one phrase, or none when it is empty |
| ConfluenceClient.WordsSplit | dev/src/util/ConfluenceClient.py:110-112 | a whitespace run separates words: the words of a text with whitespace in the middle are the words before it followed by the words after it |
| ConfluenceClient.WordsStrip | dev/src/util/ConfluenceClient.py:109-110 | stripping a line or phrase keeps its words, none cut and none merged |
| ConfluenceClient.SplitAtKeepsWords | dev/src/util/ConfluenceClient.py:109 | splitting the text into lines keeps its words: the lines' words, line after line, are the text's words |
| ConfluenceClient.SplitDoubleSpaceKeepsWords | dev/src/util/ConfluenceClient.py:110 | splitting a line at double blanks keeps its words |
| ConfluenceClient.JoinKeepsWords | dev/src/util/ConfluenceClient.py:111 | joining parts with a whitespace separator keeps the parts' words apart: the joined words are the parts' words, part after part |
| ConfluenceClient.PhrasesKeepWords | dev/src/util/ConfluenceClient.py:109-111 | the phrases hold exactly the text's words, in order: no word is cut and no two words merge |
| ConfluenceClient.CollapseWords | dev/src/util/ConfluenceClient.py:112-114 | replacing whitespace runs by one blank and stripping gives the text's words separated by exactly one blank |
| ConfluenceClient.NormalizeWords | dev/src/util/ConfluenceClient.py:108-114 | the normalised page text is the extracted text's words separated by exactly one blank |
| ConfluenceClient.NormalizeIsCollapse | dev/src/util/ConfluenceClient.py:108-114 | cutting into phrases first changes nothing: the normalised text equals the raw text with whitespace runs collapsed and then stripped |
| ConfluenceClient.NormalizeFixedPoint | dev/src/util/ConfluenceClient.py:108-114 | normalising an already normalised text gives it back |
| ConfluenceClient.NormalizeIdempotent | dev/src/util/ConfluenceClient.py:108-114 | normalising twice is normalising once |
| ConfluenceClient.GetPage | dev/src/util/ConfluenceClient.py:47-61 | a page exists iff its body could be fetched; title and link come from the hit, and the body is the normalised text extracted from the fetched body |
| ConfluenceTool.DownloadEmbedPage | dev/src/confluence/tool.py:22-45 | a missing page or an empty body is skipped; scoring raises only when there is no window; otherwise the page is paired with its embedding distance |
| ConfluenceTool.ReplaceNewlines | dev/src/confluence/tool.py:71 | the text keeps its length, every line feed becomes a blank, and every other character stays where it was |
| ConfluenceTool.SummarizePage | dev/src/confluence/tool.py:48-90 | an empty or missing summary rejects the page; the guard sees the body with line breaks as blanks; a flagged summary rejects; an accepted page keeps title and link and carries the summary as its body |
| ConfluenceTool.SummarizeAll | dev/src/confluence/tool.py:136-147 | the step succeeds iff every summary call does; then a page is in the result iff some page's summary accepted it, there are no more than the pages, and their titles and links keep page order |
| ConfluenceTool.AllPagesAccepted | dev/src/confluence/tool.py:136-147 | when every page is accepted, all are kept, with their titles and links in order |
| ConfluenceTool.KeptKeys | dev/src/confluence/tool.py:147 | dropping the rejected answers keeps the titles and links of the accepted pages in page order |
| ConfluenceTool.ScoredPages | dev/src/confluence/tool.py:118-129 | the step succeeds iff every download succeeds; then a scored page is present iff some hit downloaded to it; at most one per hit, none with an empty body; they are the present download results in hit order |
| ConfluenceTool.ScoredPagesAppend | dev/src/confluence/tool.py:118-129 | scoring goes hit by hit: the scored pages of two hit lists are those of the first followed by those of the second |
| ConfluenceTool.ConfluenceQuery | dev/src/confluence/tool.py:94-147 | when the search and the downloads succeed the result is the summarising of the eight closest scored pages; at most eight pages and no more than hits, in ranking order |
| ConfluenceTool.RankedPagesClosest | dev/src/confluence/tool.py:129-133 | the pages handed to the summariser ascend by distance and are no farther than any scored page left out |
| ConfluenceTool.AcceptedPagesKept | dev/src/confluence/tool.py:129-147 | when every one of the eight closest pages is accepted, the query returns all of them, min(8, scored) pages with the titles and links of the ranking in order |
| ConfluenceGraph.BuildQuery | dev/src/confluence/graph.py:34-42 | exactly one keyword list is appended, even an empty one; earlier queries and the pages are kept; a failing model call fails the node |
| ConfluenceGraph.ClauseShape | dev/src/confluence/graph.py:66 | a term's clause quotes it after `text ~ ` and again after `title ~ `, with ` OR ` between the tests and a blank at the end |
| ConfluenceGraph.CqlString | dev/src/confluence/graph.py:66 | the CQL string is empty iff there is no term; otherwise it is exactly as long as all clauses plus one `OR ` between each pair |
| ConfluenceGraph.CqlMentionsTerm | dev/src/confluence/graph.py:66 | every new term appears in the CQL string, quoted, right after `text ~ "` |
| ConfluenceGraph.ExecuteCql | dev/src/confluence/graph.py:53-79 | an empty history raises; the queries are never changed; without new terms the state is unchanged; with new terms the answer for their CQL string is appended as one page list when the tool succeeds, and the state is kept when it raises |
| ConfluenceGraph.ConfluenceCycle | dev/src/confluence/graph.py:82-88 | a pass fails iff the keyword call raises; otherwise exactly the keyword list is appended to the queries, and the page history is unchanged when no term is new |
| ConfluenceGraph.CycleKeepsBound | dev/src/confluence/graph.py:34-79 | a pass fails only when the model call does; it adds one query and at most one page list, keeps earlier history, and keeps no more page lists than queries |
| ConfluenceGraph.RepeatedKeywordsNotSearched | dev/src/confluence/graph.py:55-63 | keywords that were all searched before cause no search; only the keyword list is recorded |
| RocketClient.RoomUrl | dev/src/util/rocket_client.py:51-53 | the link is the base address, then `/channel/` for type "c" or `/direct/` otherwise, then the room id |
| RocketClient.RoomUrlInjective | dev/src/util/rocket_client.py:51-53 | two rooms share a link only if they have the same id and both or neither are channels |
| RocketClient.ExpandCount | dev/src/util/rocket_client.py:144-161 | the expanded result has one entry per hit outside a thread plus one per distinct thread not yet expanded |
| RocketClient.ExpandKeepsSingles | dev/src/util/rocket_client.py:157-159 | the hits outside threads are kept as they are, in order |
| RocketClient.ExpandEntries | dev/src/util/rocket_client.py:143-159 | every entry of the expansion is a hit outside a thread, or the messages of a thread not expanded before that one of the hits belongs to |
| RocketClient.SearchRoom | dev/src/util/rocket_client.py:137-161 | each thread is expanded once, later hits in it are skipped, other hits are kept in order; the length is the non-thread hits plus the distinct thread ids |
| RocketClient.ExpandHits | dev/src/util/rocket_client.py:143-159 | the loop over the hits with its set of seen thread ids computes the reference expansion |
| RocketClient.SearchAll | dev/src/util/rocket_client.py:128-161 | one entry per room, in room order, holding one item per hit outside a thread (those hits themselves, in order) and one per distinct thread hit |
| RocketClient.SearchText | dev/src/util/rocket_client.py:128-135 | exactly the rooms with a non-empty result are kept, with their expanded hits, in room order |
| RocketClient.RetrieveAllItems | dev/src/util/rocket_client.py:240-268 | offsets advance by the step from 0; every request but the last returned at least a step's worth, and the loop stops at the first short page or when the next offset would reach the maximum; so at most ceiling(max/step) requests, one under the defaults; items come in request order |
| RocketClient.ResolveNames | dev/src/util/rocket_client.py:168-171 | the names resolve iff every lookup succeeds, one name per id in order |
| RocketClient.RetrieveAllRooms | dev/src/util/rocket_client.py:163-178 | a failed listing or a failed name lookup gives the empty catalog; otherwise the catalog is the channels as listed, then every direct room as listed with one resolved name per member id |
| RocketTool.SearchPattern | dev/src/rocket/tool.py:36 | the pattern opens with `/(` and closes with `)/i`; with no term it is `/()/i`, and otherwise it is as long as the terms plus one `\|` between each pair and the delimiters |
| RocketTool.PatternMentionsTerm | dev/src/rocket/tool.py:36 | the pattern opens with `/(`, closes with `)/i`, and holds every new term between them |
| RocketTool.RocketChatSearch | dev/src/rocket/tool.py:10-53 | an empty history raises; no new terms or a raising search gives nothing; otherwise exactly the state's rooms with hits for the pattern, with their expanded hits, which is the client's text search in room order |
| RocketGraph.SelectedChannels | dev/src/rocket/graph.py:33-36 | the channels whose name matches, in catalog order |
| RocketGraph.SelectedDirect | dev/src/rocket/graph.py:34-37 | the direct rooms with a matching member name, in catalog order |
| RocketGraph.Matching | dev/src/rocket/graph.py:33-40 | a room is selected iff it is a matching channel or a matching direct room |
| RocketGraph.UpdateChannels | dev/src/rocket/graph.py:29-47 | if some room matches, exactly the matching rooms remain; otherwise the rooms are unchanged, so a non-empty list never becomes empty; a missing name or member list raises |
| RocketGraph.MatchingGrouped | dev/src/rocket/graph.py:40 | every selected channel comes before every selected direct room |
| RocketGraph.MatchingInOrder | dev/src/rocket/graph.py:33-37 | the channels and the direct rooms each keep catalog order |
| RocketGraph.SelectionOrder | dev/src/rocket/graph.py:33-40 | a selection that applies is grouped as channels then direct rooms, each group in catalog order |
| RocketGraph.SelectRooms | dev/src/rocket/graph.py:73-88 | the step succeeds iff the model call, the pattern compile and the matching do; a non-empty expression gives the narrowing of the catalog by the compiled pattern, otherwise the catalog; the rooms are empty only if the catalog is |
| RocketGraph.BuildSearchPattern | dev/src/rocket/graph.py:57-108 | rooms are kept when the state has some; otherwise the step succeeds iff the room selection and the keyword call do, and the rooms become the selection; exactly one keyword list is appended; the results are untouched |
| RocketGraph.RankText | dev/src/rocket/graph.py:132-135 | the ranking text joins, with `;`, a rearrangement of every message text of the hits, each exactly once, and without threads the hits' own order |
| RocketGraph.RankTextCoversHits | dev/src/rocket/graph.py:132-135 | the ranking text holds every message of the room's hits exactly once |
| RocketGraph.RankTextInOrder | dev/src/rocket/graph.py:132-135 | without threads the ranking text follows the order of the hits |
| RocketGraph.RankTextOrder | dev/src/rocket/graph.py:132-135 | the ranking text is exactly the texts of the single hits in hit order, followed by the messages of each thread hit, thread after thread, joined by `;` |
| RocketGraph.RankChat | dev/src/rocket/graph.py:121-143 | the room is scored by the embedding distance of its ranking text; scoring raises iff there is no window |
| RocketGraph.RankAll | dev/src/rocket/graph.py:167-177 | every room is scored, in order, or scoring raises for some room |
| RocketGraph.Kept | dev/src/rocket/graph.py:207 | exactly the ranked rooms whose summary is non-empty are kept, in ranking order, each with its summary; all are kept when all are non-empty |
| RocketGraph.SummarizeClosest | dev/src/rocket/graph.py:167-207 | a result exists iff every room scores and every summary call for the three closest rooms succeeds; it is those rooms with non-empty summaries, in ranking order |
| RocketGraph.SummarizedRoomsFound | dev/src/rocket/graph.py:167-207 | every summarised room is a room the search found |
| RocketGraph.Recorded | dev/src/rocket/graph.py:164-212 | nothing when the search raised or found nothing; otherwise the summaries of the closest rooms, or nothing when ranking or summarising raised; each a non-empty summary of a found room |
| RocketGraph.Search | dev/src/rocket/graph.py:150-213 | the recorded summaries are appended to the results; rooms and patterns are unchanged; results grow by at most three and earlier ones are kept; with no hits or an exception the state is unchanged |
| RocketGraph.SearchKeepsClosest | dev/src/rocket/graph.py:178-181 | the ranked rooms kept are min(3, hits), ascend by distance, and are no farther than any room left out; every recorded room is among them |
| RocketGraph.AllSummariesKept | dev/src/rocket/graph.py:178-207 | when every summary of the closest rooms succeeds and is non-empty, the summaries are the closest rooms in ranking order, each with its own summary |
| RocketGraph.SearchRecordsClosest | dev/src/rocket/graph.py:164-212 | with hits whose closest rooms all summarise to non-empty text, exactly min(3, hits) results are appended, the i-th closest room with its summary |
| RocketGraph.RocketCycle | dev/src/rocket/graph.py:216-222 | a pass fails iff the keyword call raises or, while no room is stored, the room selection fails; otherwise exactly the keyword list is appended and earlier results are kept, with at most three new ones |
| RocketGraph.CycleGrowth | dev/src/rocket/graph.py:216-222 | a pass adds one keyword list and at most three results, keeps earlier results, and records only rooms of the state |

## Left out

- HTTP: requests, status checks, `success` assertions and JSON shapes. Every endpoint is an oracle. A request that fails is an `Err` or `None` parameter where the source catches it.
- Language-model calls. The tool choice, keywords, channel selection, summaries, aggregation and the hallucination guard are oracle inputs. `is_hallucination` is a single direct model call without retry (`judge`).
- Prompt rendering with Jinja templates. `RunLlm` takes the rendered prompt. The graph nodes take their model answers as oracles rather than composing `RunLlm`.
- The embedding model and cosine distance. A distance is an integer oracle value, and sorting and the minimum use integer order.
- `asyncio.gather` concurrency. Calls run in list order, and the first failure in list order is reported.
- The LangGraph runtime, checkpointing, `unpack_node` and logging. `JoinBranches` stands for the merge of parallel branch results through the reducers.
- Set iteration order in `main_loop_edge`. The wiki branch is listed before the chat branch.
- BeautifulSoup: script and style removal and `get_text`. `getText` is an oracle; the whitespace normalisation after it is modelled.
- Python `re`. The compiled room pattern is an oracle predicate, applied at the start of a string as `re.match` does. A pattern that does not compile is an oracle `Err`. How the chat server interprets the search pattern is not modelled.
- `ConfluenceGraph.ExecuteCql` takes the hits of `cql_all` as an oracle. `ConfluenceClient.CqlAll` models that loop on its own.
- `retrieve_all_items` receives its offset parameter from callers that never set it, so it starts at 0.
- The `score` field of chat messages is never read and is left out.
- The placeholder `confluence_reducer` at dev/src/shared/state.py:9-10 is replaced by the later definition and is left out.
- State.LargerOps: the contract only says that one argument is returned. Python's lexicographic comparison of lists of sets is modelled exactly in `ListGreater`; its consequences are the prefix lemma and the non-commutativity example.
- Ranking.SortByScore: the contract states only the length. Permutation, order and stability are separate lemmas.
- ConfluenceTool.DownloadEmbedPage: the embedding call (`distance`) and the text extraction (`getText`) never raise in the model. In the code a raising embedding call would fail the gather, and `execute_cql` would keep the state as it does for every tool error.
- RocketGraph.RankChat: the embedding call never raises in the model either; ranking fails only when a room's text has no window.
- RocketTool.RocketChatSearch: a failing room search or thread request is not modelled request by request. The code catches every exception of the whole search and returns nothing, which the `searchRaises` oracle stands for.
- ConfluenceTool.ConfluenceQuery: the order is stated through title and link keys, because accepted pages carry their summary as body.

## Notes on the code

What the code does in places where a reader might expect otherwise:

- New terms are a list filter. They keep the order and the repeats of the latest keyword list, rather than forming a set difference.
- The chat room catalog is loaded again on every pass while the room list is empty, not only on the first pass.
- A rejected question whose observations are empty is routed into the main loop, because only a truthy reason routes to the final validation.
- Merging sub-states tests the truthiness of each side's dict, not whether its lists are empty. A sub-state whose lists are all empty still has its keys, so it takes part in the merge. Only a missing or key-less sub-state (`None`) is passed over.
- A room selection that applies keeps only rooms of type "c" and "d"; rooms of any other type are dropped. A channel without a name or a direct room without members makes the matching raise.
- With the default limits, `retrieve_all_items` makes exactly one request of 50 items.
- `retrieve_all_items` advances its offset by the client's step size. With a step of 0 (or less) the loop never ends, so `RocketClient.RetrieveAllItems` requires a positive step.

=== FILE: agent_functions.dfy ===
/** The structured-output executor `run_llm`: the prompt is rendered once and
    sent to the model; a reply cut off at the token limit is retried with an
    instruction to keep the reply short, at most three calls in all; any
    other failure ends the run at once. The model is an oracle indexed by the
    attempt number, so each attempt may answer differently. */
module AgentFunctions {
  /** What is sent to the model: the bare rendered prompt, or a system
      message followed by the prompt. */
  datatype Request = Bare(prompt: string) | Terse(system: string, prompt: string)

  /** One model call's outcome: a parsed structured reply, a reply stopped by
      the length limit (`LengthFinishReasonError`), or any other exception. */
  datatype Reply<T> = Parsed(value: T) | LengthExceeded | Failed(error: string)

  /** What a run returns or raises: the parsed reply, the exception of a
      failed call, or the re-raised length error. */
  datatype Outcome<T> = Returned(value: T) | Raised(error: string) | LengthRaised

  /** The requests of a run, in order, and its outcome. */
  datatype LlmRun<T> = LlmRun(requests: seq<Request>, outcome: Outcome<T>)

  const ConserveInstruction := "It is important to conserve resources, keep your reply as short as possible."

  /** The number of calls after which a length failure is re-raised. */
  const MaxAttempts := 3

  /** The request of attempt `failCounter` (counted from 0). */
  function RequestFor(prompt: string, failCounter: nat): Request
  {
    if failCounter > 0 then Terse(ConserveInstruction, prompt) else Bare(prompt)
  }

  /** The retry loop from attempt `failCounter` on. The i-th request of the
      result is attempt `failCounter + i`; all but the last attempt ended in a
      length failure, and the last one decides the outcome. */
  function Attempt<T>(prompt: string, invoke: (nat, Request) -> Reply<T>, failCounter: nat): (r: LlmRun<T>)
    requires failCounter < MaxAttempts
    ensures 1 <= |r.requests| <= MaxAttempts - failCounter
    ensures forall i :: 0 <= i < |r.requests| ==> r.requests[i] == RequestFor(prompt, failCounter + i)
    ensures forall i :: 0 <= i < |r.requests| - 1 ==> invoke(failCounter + i, r.requests[i]).LengthExceeded?
    ensures var last := |r.requests| - 1;
      match invoke(failCounter + last, r.requests[last])
      case Parsed(v) => r.outcome == Returned(v)
      case Failed(e) => r.outcome == Raised(e)
      case LengthExceeded => failCounter + last == MaxAttempts - 1 && r.outcome == LengthRaised
    decreases MaxAttempts - failCounter
  {
    var req := RequestFor(prompt, failCounter);
    match invoke(failCounter, req)
    case Parsed(v) => LlmRun([req], Returned(v))
    case Failed(e) => LlmRun([req], Raised(e))
    case LengthExceeded =>
      if failCounter + 1 >= MaxAttempts then LlmRun([req], LengthRaised)
      else
        var rest := Attempt(prompt, invoke, failCounter + 1);
        LlmRun([req] + rest.requests, rest.outcome)
  }

  /** `run_llm` with the rendered prompt: at most three calls; the first sends
      the bare prompt and every later one the short-reply instruction and the
      same prompt; a call is repeated only after a length failure; a result
      on attempt k comes after exactly k - 1 length failures; and three length
      failures re-raise the length error. */
  function RunLlm<T>(prompt: string, invoke: (nat, Request) -> Reply<T>): (r: LlmRun<T>)
    ensures 1 <= |r.requests| <= 3
    ensures r.requests[0] == Bare(prompt)
    ensures forall i :: 1 <= i < |r.requests| ==> r.requests[i] == Terse(ConserveInstruction, prompt)
    ensures forall i :: 0 <= i < |r.requests| - 1 ==> invoke(i, r.requests[i]) == LengthExceeded
    ensures var last := |r.requests| - 1;
      match invoke(last, r.requests[last])
      case Parsed(v) => r.outcome == Returned(v)
      case Failed(e) => r.outcome == Raised(e)
      case LengthExceeded => |r.requests| == 3 && r.outcome == LengthRaised
  {
    Attempt(prompt, invoke, 0)
  }

  /** The length error is re-raised exactly when all three calls hit the
      length limit. */
  lemma LengthRaisedIffThreeCutoffs<T>(prompt: string, invoke: (nat, Request) -> Reply<T>)
    ensures RunLlm(prompt, invoke).outcome == LengthRaised <==>
      forall k :: 0 <= k < MaxAttempts ==> invoke(k, RequestFor(prompt, k)).LengthExceeded?
  {
    var r := RunLlm(prompt, invoke);
    assert forall k :: 0 <= k < |r.requests| ==> r.requests[k] == RequestFor(prompt, k);
  }

  /** When attempt k (below 3) parses and every earlier attempt hit the
      length limit, the value of attempt k is returned after k + 1 calls. */
  lemma ParsedAfterCutoffsReturned<T>(prompt: string, invoke: (nat, Request) -> Reply<T>, k: nat)
    requires k < MaxAttempts
    requires invoke(k, RequestFor(prompt, k)).Parsed?
    requires forall j :: 0 <= j < k ==> invoke(j, RequestFor(prompt, j)).LengthExceeded?
    ensures RunLlm(prompt, invoke).outcome == Returned(invoke(k, RequestFor(prompt, k)).value)
    ensures |RunLlm(prompt, invoke).requests| == k + 1
  {
    var r := RunLlm(prompt, invoke);
    assert forall j :: 0 <= j < |r.requests| ==> r.requests[j] == RequestFor(prompt, j);
  }

  /** Any exception other than the length error propagates from the first
      call that raises it, with no further call. */
  lemma FailureNotRetried<T>(prompt: string, invoke: (nat, Request) -> Reply<T>, k: nat)
    requires k < MaxAttempts
    requires invoke(k, RequestFor(prompt, k)).Failed?
    requires forall j :: 0 <= j < k ==> invoke(j, RequestFor(prompt, j)).LengthExceeded?
    ensures RunLlm(prompt, invoke).outcome == Raised(invoke(k, RequestFor(prompt, k)).error)
    ensures |RunLlm(prompt, invoke).requests| == k + 1
  {
    var r := RunLlm(prompt, invoke);
    assert forall j :: 0 <= j < |r.requests| ==> r.requests[j] == RequestFor(prompt, j);
  }
}

=== FILE: confluence_client.dfy ===
/** The document wiki client: paged full-text search, parsing of search
    results, page download and the whitespace normalisation applied to a
    page's text after HTML extraction. HTTP requests and the HTML-to-text
    extraction are oracle parameters. */
module ConfluenceClient {
  import opened Wrappers
  import opened Seqs

  /** One search hit: title, content id, web link and API link of the page. */
  datatype QueryResult = QueryResult(title: string, id: string, webUi: string, selfUrl: string)

  /** A downloaded page; `body` is plain text (later replaced by its summary). */
  datatype Page = Page(title: string, body: string, webUi: string)

  /** A raw search hit; a field is None when its key is missing. */
  datatype RawResult = RawResult(title: Option<string>, id: Option<string>, webui: Option<string>, selfUrl: Option<string>)

  /** One search response: the total hit count and the hits of the requested window. */
  datatype SearchResponse = SearchResponse(totalSize: int, results: seq<RawResult>)

  const DefaultMaxPagesLimit := 100
  const DefaultStepSize := 25

  // -------------------------------------------------------------- parsing

  /** `parse_query_result`: a hit with all four fields becomes a query result
      whose web link is the wiki's base address followed by the hit's link;
      a hit with a missing field is rejected. */
  function ParseQueryResult(baseUrl: string, raw: RawResult): (r: Option<QueryResult>)
    ensures r.Some? <==> raw.title.Some? && raw.id.Some? && raw.webui.Some? && raw.selfUrl.Some?
    ensures r.Some? ==> |baseUrl| <= |r.value.webUi| && r.value.webUi[..|baseUrl|] == baseUrl && r.value.webUi[|baseUrl|..] == raw.webui.value
    ensures r.Some? ==> r.value.title == raw.title.value && r.value.id == raw.id.value && r.value.selfUrl == raw.selfUrl.value
  {
    if raw.title.Some? && raw.id.Some? && raw.webui.Some? && raw.selfUrl.Some? then
      Some(QueryResult(raw.title.value, raw.id.value, baseUrl + raw.webui.value, raw.selfUrl.value))
    else None
  }

  /** Every hit parsed on its own, in order; `None` marks a rejected hit. */
  function ParsedEach(baseUrl: string, raws: seq<RawResult>): seq<Option<QueryResult>>
  {
    seq(|raws|, i requires 0 <= i < |raws| => ParseQueryResult(baseUrl, raws[i]))
  }

  /** The parse loop of `cql_all`: parseable hits, in order. */
  function ParseAll(baseUrl: string, raws: seq<RawResult>): (r: seq<QueryResult>)
    ensures |r| <= |raws|
    ensures forall q :: q in r ==> |baseUrl| <= |q.webUi| && q.webUi[..|baseUrl|] == baseUrl
    ensures r == Somes(ParsedEach(baseUrl, raws))
  {
    if |raws| == 0 then []
    else
      assert ParsedEach(baseUrl, raws)[1..] == ParsedEach(baseUrl, raws[1..]);
      match ParseQueryResult(baseUrl, raws[0])
      case Some(q) => [q] + ParseAll(baseUrl, raws[1..])
      case None => ParseAll(baseUrl, raws[1..])
  }

  /** Parsing works hit by hit: the hits of two responses parse to the
      parsed hits of the first followed by those of the second. */
  lemma {:induction false} ParseAllAppend(baseUrl: string, a: seq<RawResult>, b: seq<RawResult>)
    ensures ParseAll(baseUrl, a + b) == ParseAll(baseUrl, a) + ParseAll(baseUrl, b)
  {
    if |a| == 0 {
      assert a + b == b;
    } else {
      assert (a + b)[0] == a[0];
      assert (a + b)[1..] == a[1..] + b;
      ParseAllAppend(baseUrl, a[1..], b);
    }
  }

  // ----------------------------------------------------------- pagination

  function Min(a: int, b: int): int
  {
    if a < b then a else b
  }

  /** The window starts `cql_all` requests: multiples of the step below
      both the hit count `n` and the page limit. */
  function CqlOffsets(n: int, limit: int, step: int): seq<int>
    requires step > 0
  {
    Range(0, Min(n, limit), step)
  }

  /** With the default limit of 100 hits and steps of 25, at most four paged requests. */
  lemma DefaultPagingBound(n: int)
    ensures |CqlOffsets(n, DefaultMaxPagesLimit, DefaultStepSize)| <= 4
  {
    RangeCount(0, Min(n, DefaultMaxPagesLimit), DefaultStepSize);
  }

  /** The hits returned for the requested windows, in request order. */
  function RawsAt(search: (int, int) -> SearchResponse, step: int, offsets: seq<int>): seq<RawResult>
  {
    if |offsets| == 0 then []
    else RawsAt(search, step, offsets[..|offsets| - 1]) + search(offsets[|offsets| - 1], step).results
  }

  /** `cql_all`: one count-only request (start 0, limit 0), then one request
      per window of `stepSize` hits while the window start is below both the
      reported total and `maxPagesLimit`; the hits are parsed and the
      unparseable ones dropped. `search(start, limit)` is the search
      endpoint for the query. Returns the parsed hits and the (start, limit)
      pairs requested. */
  method CqlAll(baseUrl: string, maxPagesLimit: int, stepSize: int, search: (int, int) -> SearchResponse)
    returns (pages: seq<QueryResult>, requests: seq<(int, int)>)
    requires stepSize > 0
    ensures |requests| == 1 + |CqlOffsets(search(0, 0).totalSize, maxPagesLimit, stepSize)|
    ensures requests[0] == (0, 0)
    ensures forall k :: 1 <= k < |requests| ==>
      requests[k] == (CqlOffsets(search(0, 0).totalSize, maxPagesLimit, stepSize)[k - 1], stepSize)
    ensures pages == ParseAll(baseUrl, RawsAt(search, stepSize, CqlOffsets(search(0, 0).totalSize, maxPagesLimit, stepSize)))
  {
    var n := search(0, 0).totalSize;
    ghost var m := Min(n, maxPagesLimit);
    requests := [(0, 0)];
    var start := 0;
    ghost var done: seq<int> := [];
    var results: seq<RawResult> := [];
    while start < n && start < maxPagesLimit
      invariant CqlOffsets(n, maxPagesLimit, stepSize) == done + Range(start, m, stepSize)
      invariant |requests| == 1 + |done|
      invariant requests[0] == (0, 0)
      invariant forall k :: 1 <= k < |requests| ==> requests[k] == (done[k - 1], stepSize)
      invariant results == RawsAt(search, stepSize, done)
      decreases m - start
    {
      var response := search(start, stepSize);
      assert Range(start, m, stepSize) == [start] + Range(start + stepSize, m, stepSize);
      assert RawsAt(search, stepSize, done + [start]) == RawsAt(search, stepSize, done) + response.results by {
        assert (done + [start])[..|done|] == done;
      }
      assert done + Range(start, m, stepSize) == (done + [start]) + Range(start + stepSize, m, stepSize);
      results := results + response.results;
      requests := requests + [(start, stepSize)];
      done := done + [start];
      start := start + stepSize;
    }
    assert Range(start, m, stepSize) == [];
    assert done == CqlOffsets(n, maxPagesLimit, stepSize);
    pages := ParseAll(baseUrl, results);
  }

  // ----------------------------------------------------- text normalisation

  /** The characters Python's `str.isspace` accepts, which are also those `\s` matches. */
  predicate IsSpace(c: char)
  {
    || c == ' ' || '\t' <= c <= '\r' || '\U{1C}' <= c <= '\U{1F}' || c == '\U{85}' || c == '\U{A0}'
    || c == '\U{1680}' || '\U{2000}' <= c <= '\U{200A}' || c == '\U{2028}' || c == '\U{2029}'
    || c == '\U{202F}' || c == '\U{205F}' || c == '\U{3000}'
  }

  /** The line boundaries of Python's `str.splitlines` (`\r\n` is split as
      `\r` then `\n`; the extra empty line this yields is dropped later). */
  predicate IsLineBreak(c: char)
  {
    '\n' <= c <= '\r' || '\U{1C}' <= c <= '\U{1E}' || c == '\U{85}' || c == '\U{2028}' || c == '\U{2029}'
  }

  /** Leading whitespace removed. */
  function LStrip(s: string): (r: string)
    ensures |r| <= |s| && r == s[|s| - |r|..]
    ensures forall i :: 0 <= i < |s| - |r| ==> IsSpace(s[i])
    ensures |r| > 0 ==> !IsSpace(r[0])
  {
    if |s| > 0 && IsSpace(s[0]) then LStrip(s[1..]) else s
  }

  /** Trailing whitespace removed. */
  function RStrip(s: string): (r: string)
    ensures |r| <= |s| && r == s[..|r|]
    ensures forall i :: |r| <= i < |s| ==> IsSpace(s[i])
    ensures |r| > 0 ==> !IsSpace(r[|r| - 1])
  {
    if |s| > 0 && IsSpace(s[|s| - 1]) then RStrip(s[..|s| - 1]) else s
  }

  /** `str.strip()`: the piece of the input left once the whitespace at
      both ends is cut off; what is cut off is whitespace only, and the
      piece neither starts nor ends with whitespace. */
  function Strip(s: string): (r: string)
    ensures exists k :: StripsTo(s, k, r)
    ensures |r| > 0 ==> !IsSpace(r[0]) && !IsSpace(r[|r| - 1])
  {
    var l := LStrip(s);
    var r := RStrip(l);
    assert r == l[..|r|] && l == s[|s| - |l|..];
    assert StripsTo(s, |s| - |l|, r);
    r
  }

  /** `r` is the piece of `s` at offset `k`, with only whitespace before
      and after it. */
  predicate StripsTo(s: string, k: nat, r: string)
  {
    && k + |r| <= |s| && r == s[k..k + |r|]
    && (forall i :: 0 <= i < k ==> IsSpace(s[i]))
    && (forall i :: k + |r| <= i < |s| ==> IsSpace(s[i]))
  }

  /** The offset at which Strip's piece starts. */
  lemma StripSlice(s: string) returns (k: nat)
    ensures StripsTo(s, k, Strip(s))
  {
    k :| StripsTo(s, k, Strip(s));
  }

  /** Splitting at every character `sep` accepts (Python's `split` on a
      separator class): never empty, separators removed, every other
      character kept, in order. */
  function SplitAt(s: string, sep: char -> bool): (r: seq<string>)
    ensures |r| > 0
    ensures forall p :: p in r ==> forall c :: c in p ==> !sep(c)
    decreases |s|
  {
    if |s| == 0 then [""]
    else
      var rest := SplitAt(s[1..], sep);
      if sep(s[0]) then [""] + rest
      else
        var first := [s[0]] + rest[0];
        assert rest[0] in rest;
        assert forall c :: c in first ==> c == s[0] || c in rest[0];
        assert forall p :: p in rest[1..] ==> p in rest;
        [first] + rest[1..]
  }

  /** `line.split("  ")`: split at non-overlapping double spaces, left to
      right; every piece is made of characters of the line. */
  function SplitDoubleSpace(s: string): (r: seq<string>)
    ensures |r| > 0
    ensures forall p :: p in r ==> forall c :: c in p ==> c in s
    decreases |s|
  {
    if |s| < 2 then [s]
    else if s[0] == ' ' && s[1] == ' ' then
      var rest := SplitDoubleSpace(s[2..]);
      assert forall c :: c in s[2..] ==> c in s;
      [""] + rest
    else
      var rest := SplitDoubleSpace(s[1..]);
      assert forall c :: c in s[1..] ==> c in s;
      var first := [s[0]] + rest[0];
      assert rest[0] in rest;
      assert forall c :: c in first ==> c == s[0] || c in rest[0];
      assert forall p :: p in rest[1..] ==> p in rest;
      [first] + rest[1..]
  }

  /** The non-whitespace characters of a text, in order. */
  function Text(s: string): string
    decreases |s|
  {
    if |s| == 0 then ""
    else if IsSpace(s[0]) then Text(s[1..])
    else [s[0]] + Text(s[1..])
  }

  /** Leading whitespace removal keeps every other character. */
  lemma {:induction false} LStripKeepsText(s: string)
    ensures Text(LStrip(s)) == Text(s)
  {
    if |s| > 0 && IsSpace(s[0]) {
      LStripKeepsText(s[1..]);
    }
  }

  /** Every whitespace run replaced by a single blank (`re.sub(r"\s+", " ", s)`):
      the other characters are kept as they are, in order. */
  function Collapse(s: string): (r: string)
    ensures |s| > 0 <==> |r| > 0
    ensures |r| > 0 ==> (IsSpace(r[0]) <==> IsSpace(s[0]))
    ensures forall i :: 0 <= i < |r| && IsSpace(r[i]) ==> r[i] == ' '
    ensures forall i :: 0 <= i < |r| - 1 ==> !(IsSpace(r[i]) && IsSpace(r[i + 1]))
    decreases |s|
  {
    if |s| == 0 then ""
    else if IsSpace(s[0]) then
      var rest := Collapse(LStrip(s));
      assert (" " + rest)[1..] == rest;
      " " + rest
    else
      var rest := Collapse(s[1..]);
      assert ([s[0]] + rest)[1..] == rest;
      [s[0]] + rest
  }

  /** `re.sub(r"\s+", " ", s)` read one character at a time: a whitespace
      character that opens a run (`inRun` false) becomes one blank, one that
      continues a run is dropped, and every other character is kept. So each
      maximal whitespace run becomes exactly one blank. */
  function SubRuns(s: string, inRun: bool): string
    decreases |s|
  {
    if |s| == 0 then ""
    else if IsSpace(s[0]) then (if inRun then "" else " ") + SubRuns(s[1..], true)
    else [s[0]] + SubRuns(s[1..], false)
  }

  /** Inside a run, the rest of the run is dropped. */
  lemma {:induction false} SkipRun(t: string)
    ensures SubRuns(t, true) == SubRuns(LStrip(t), false)
    decreases |t|
  {
    if |t| > 0 {
      if IsSpace(t[0]) {
        SkipRun(t[1..]);
        assert SubRuns(t, true) == "" + SubRuns(t[1..], true) == SubRuns(t[1..], true);
        assert LStrip(t) == LStrip(t[1..]);
      } else {
        assert LStrip(t) == t;
        assert SubRuns(t, true) == [t[0]] + SubRuns(t[1..], false) == SubRuns(t, false);
      }
    }
  }

  /** Collapsing replaces every maximal whitespace run by exactly one blank,
      as the character-by-character reading does. */
  lemma {:induction false} CollapseIsRunwise(s: string)
    ensures Collapse(s) == SubRuns(s, false)
    decreases |s|
  {
    if |s| > 0 {
      if IsSpace(s[0]) {
        SkipRun(s[1..]);
        assert LStrip(s) == LStrip(s[1..]);
        CollapseIsRunwise(LStrip(s));
      } else {
        CollapseIsRunwise(s[1..]);
      }
    }
  }

  /** Collapsing keeps every non-whitespace character, in order. */
  lemma {:induction false} CollapseKeepsText(s: string)
    ensures Text(Collapse(s)) == Text(s)
    decreases |s|
  {
    if |s| > 0 {
      if IsSpace(s[0]) {
        var rest := Collapse(LStrip(s));
        CollapseKeepsText(LStrip(s));
        LStripKeepsText(s);
        assert (" " + rest)[1..] == rest;
      } else {
        var rest := Collapse(s[1..]);
        CollapseKeepsText(s[1..]);
        assert ([s[0]] + rest)[1..] == rest;
      }
    }
  }

  function NonEmpty(s: string): bool
  {
    s != ""
  }

  /** Every part stripped. */
  function StripEach(parts: seq<string>): (r: seq<string>)
    ensures |r| == |parts|
    ensures forall i :: 0 <= i < |parts| ==> r[i] == Strip(parts[i])
  {
    seq(|parts|, i requires 0 <= i < |parts| => Strip(parts[i]))
  }

  /** The lines of a text (split at every line boundary), each stripped:
      no line holds a line break, and together they hold the text's
      non-whitespace characters, in order. */
  function StrippedLines(text: string): (r: seq<string>)
    ensures forall l :: l in r ==> forall c :: c in l ==> !IsLineBreak(c)
    ensures Texts(r) == Text(text)
  {
    var lines := SplitAt(text, IsLineBreak);
    StripEachKeeps(lines, c => !IsLineBreak(c));
    StripEachKeepsText(lines);
    SplitAtKeepsText(text, IsLineBreak);
    StripEach(lines)
  }

  /** The phrases of one stripped line: split at double spaces, each piece
      stripped. Every piece is made of the line's characters, has no
      whitespace at either end, and together they hold the line's
      non-whitespace characters, in order. */
  function LinePieces(line: string): (r: seq<string>)
    ensures forall p :: p in r ==> forall c :: c in p ==> c in line
    ensures forall p :: p in r && |p| > 0 ==> !IsSpace(p[0]) && !IsSpace(p[|p| - 1])
    ensures Texts(r) == Text(line)
  {
    var ps := SplitDoubleSpace(line);
    StripEachKeeps(ps, c => c in line);
    StripEachKeepsText(ps);
    SplitDoubleSpaceKeepsText(line);
    StripEach(ps)
  }

  /** The pieces of every line, line by line. */
  function PiecesOf(lines: seq<string>): (r: seq<seq<string>>)
    ensures |r| == |lines|
    ensures forall i :: 0 <= i < |lines| ==> r[i] == LinePieces(lines[i])
  {
    seq(|lines|, i requires 0 <= i < |lines| => LinePieces(lines[i]))
  }

  /** The phrases of a text: its lines, stripped, split at double spaces and
      stripped again, with empty phrases dropped. Every phrase is
      non-empty, has no whitespace at either end and no line break, and
      together they hold every non-whitespace character of the text, in
      order. */
  function Phrases(text: string): (r: seq<string>)
    ensures forall p :: p in r ==> p != "" && !IsSpace(p[0]) && !IsSpace(p[|p| - 1])
    ensures forall p :: p in r ==> forall c :: c in p ==> !IsLineBreak(c)
    ensures Texts(r) == Text(text)
  {
    var lines := StrippedLines(text);
    var pieces := PiecesOf(lines);
    PhraseShape(lines);
    PieceTexts(pieces, lines);
    TextsFlatten(pieces);
    TextsDropEmpty(Flatten(pieces));
    Filter(Flatten(pieces), NonEmpty)
  }

  /** The tail of `clean_confluence_html`: phrases joined by newlines, every
      whitespace run collapsed to a blank, and the result stripped. The
      result is normalised and keeps every non-whitespace character of the
      extracted text, in order. */
  function NormalizeText(text: string): (r: string)
    ensures IsNormalized(r)
    ensures Text(r) == Text(text)
  {
    var joined := Join("\n", Phrases(text));
    JoinKeepsText("\n", Phrases(text));
    CleanJoined(joined);
    Strip(Collapse(joined))
  }

  // ------------------------------------------------- non-whitespace text

  lemma {:induction false} TextConcat(a: string, b: string)
    ensures Text(a + b) == Text(a) + Text(b)
    decreases |a|
  {
    if |a| == 0 {
      assert a + b == b;
    } else {
      assert (a + b)[1..] == a[1..] + b;
      TextConcat(a[1..], b);
    }
  }

  /** A whitespace-only string has no text. */
  lemma {:induction false} NoText(s: string)
    requires forall i :: 0 <= i < |s| ==> IsSpace(s[i])
    ensures Text(s) == ""
    decreases |s|
  {
    if |s| > 0 {
      NoText(s[1..]);
    }
  }

  /** The non-whitespace characters of the parts, one part after the other. */
  function Texts(parts: seq<string>): string
  {
    if |parts| == 0 then "" else Text(parts[0]) + Texts(parts[1..])
  }

  lemma {:induction false} TextsAppend(a: seq<string>, b: seq<string>)
    ensures Texts(a + b) == Texts(a) + Texts(b)
  {
    if |a| == 0 {
      assert a + b == b;
    } else {
      assert (a + b)[1..] == a[1..] + b;
      TextsAppend(a[1..], b);
    }
  }

  /** Parts with the same non-whitespace characters, pairwise, have the
      same texts. */
  lemma {:induction false} SameTexts(a: seq<string>, b: seq<string>)
    requires |a| == |b|
    requires forall i :: 0 <= i < |a| ==> Text(a[i]) == Text(b[i])
    ensures Texts(a) == Texts(b)
  {
    if |a| > 0 {
      SameTexts(a[1..], b[1..]);
    }
  }

  /** The texts of all lists, one after the other. */
  function FlatTexts(pieces: seq<seq<string>>): string
  {
    if |pieces| == 0 then "" else Texts(pieces[0]) + FlatTexts(pieces[1..])
  }

  /** When each list holds the text of the matching line, all lists
      together hold the text of all lines. */
  lemma {:induction false} PieceTexts(pieces: seq<seq<string>>, lines: seq<string>)
    requires |pieces| == |lines|
    requires forall i :: 0 <= i < |pieces| ==> Texts(pieces[i]) == Text(lines[i])
    ensures FlatTexts(pieces) == Texts(lines)
  {
    if |pieces| > 0 {
      PieceTexts(pieces[1..], lines[1..]);
    }
  }

  lemma {:induction false} TextsFlatten(pieces: seq<seq<string>>)
    ensures Texts(Flatten(pieces)) == FlatTexts(pieces)
  {
    if |pieces| > 0 {
      TextsFlatten(pieces[1..]);
      TextsAppend(pieces[0], Flatten(pieces[1..]));
    }
  }

  /** Dropping empty parts changes no text. */
  lemma {:induction false} TextsDropEmpty(parts: seq<string>)
    ensures Texts(Filter(parts, NonEmpty)) == Texts(parts)
  {
    if |parts| > 0 {
      TextsDropEmpty(parts[1..]);
    }
  }

  /** Trailing whitespace removal keeps every other character. */
  lemma {:induction false} RStripKeepsText(s: string)
    ensures Text(RStrip(s)) == Text(s)
    decreases |s|
  {
    if |s| > 0 && IsSpace(s[|s| - 1]) {
      var init := s[..|s| - 1];
      RStripKeepsText(init);
      assert s == init + [s[|s| - 1]];
      TextConcat(init, [s[|s| - 1]]);
      assert Text([s[|s| - 1]]) == Text([]);
    }
  }

  lemma StripKeepsText(s: string)
    ensures Text(Strip(s)) == Text(s)
  {
    LStripKeepsText(s);
    RStripKeepsText(LStrip(s));
  }

  /** Every character of a stripped text is one of the input's. */
  lemma StripChars(s: string)
    ensures forall c :: c in Strip(s) ==> c in s
  {
    var k := StripSlice(s);
    var r := Strip(s);
    forall c | c in r
      ensures c in s
    {
      var i :| 0 <= i < |r| && r[i] == c;
      assert s[k + i] == c;
    }
  }

  /** A property of every character of the parts holds for the stripped parts. */
  lemma StripEachKeeps(parts: seq<string>, ok: char -> bool)
    requires forall p :: p in parts ==> forall c :: c in p ==> ok(c)
    ensures forall p :: p in StripEach(parts) ==> forall c :: c in p ==> ok(c)
  {
    var r := StripEach(parts);
    forall p | p in r
      ensures forall c :: c in p ==> ok(c)
    {
      var n :| 0 <= n < |r| && r[n] == p;
      assert p == Strip(parts[n]) && parts[n] in parts;
      StripChars(parts[n]);
    }
  }

  lemma StripEachKeepsText(parts: seq<string>)
    ensures Texts(StripEach(parts)) == Texts(parts)
  {
    var r := StripEach(parts);
    forall n | 0 <= n < |r|
      ensures Text(r[n]) == Text(parts[n])
    {
      StripKeepsText(parts[n]);
    }
    SameTexts(r, parts);
  }

  /** Every piece of the stripped lines is free of line breaks and
      whitespace at either end. */
  lemma PhraseShape(lines: seq<string>)
    requires forall l :: l in lines ==> forall c :: c in l ==> !IsLineBreak(c)
    ensures forall p :: p in Flatten(PiecesOf(lines)) ==>
      && (p != "" ==> !IsSpace(p[0]) && !IsSpace(p[|p| - 1]))
      && forall c :: c in p ==> !IsLineBreak(c)
  {
    var pieces := PiecesOf(lines);
    forall p | p in Flatten(pieces)
      ensures p != "" ==> !IsSpace(p[0]) && !IsSpace(p[|p| - 1])
      ensures forall c :: c in p ==> !IsLineBreak(c)
    {
      var n :| 0 <= n < |pieces| && p in pieces[n];
      assert p in LinePieces(lines[n]) && lines[n] in lines;
    }
  }

  /** Joining with a whitespace separator adds no text. */
  lemma {:induction false} JoinKeepsText(sep: string, parts: seq<string>)
    requires forall i :: 0 <= i < |sep| ==> IsSpace(sep[i])
    ensures Text(Join(sep, parts)) == Texts(parts)
  {
    if |parts| == 1 {
      assert Join(sep, parts) == parts[0];
    } else if |parts| > 1 {
      JoinKeepsText(sep, parts[1..]);
      TextConcat(parts[0] + sep, Join(sep, parts[1..]));
      TextConcat(parts[0], sep);
      NoText(sep);
    }
  }

  /** Splitting at whitespace separators loses no text. */
  lemma {:induction false} SplitAtKeepsText(s: string, sep: char -> bool)
    requires forall c :: sep(c) ==> IsSpace(c)
    ensures Texts(SplitAt(s, sep)) == Text(s)
    decreases |s|
  {
    if |s| > 0 {
      var rest := SplitAt(s[1..], sep);
      SplitAtKeepsText(s[1..], sep);
      if sep(s[0]) {
        assert IsSpace(s[0]);
        assert ([""] + rest)[1..] == rest;
      } else {
        var first := [s[0]] + rest[0];
        assert first[1..] == rest[0];
        assert ([first] + rest[1..])[1..] == rest[1..];
      }
    }
  }

  /** Splitting at double blanks loses no text. */
  lemma {:induction false} SplitDoubleSpaceKeepsText(s: string)
    ensures Texts(SplitDoubleSpace(s)) == Text(s)
    decreases |s|
  {
    if |s| >= 2 {
      if s[0] == ' ' && s[1] == ' ' {
        var rest := SplitDoubleSpace(s[2..]);
        SplitDoubleSpaceKeepsText(s[2..]);
        assert IsSpace(' ') && s[1..][1..] == s[2..];
        assert ([""] + rest)[1..] == rest;
      } else {
        var rest := SplitDoubleSpace(s[1..]);
        SplitDoubleSpaceKeepsText(s[1..]);
        var first := [s[0]] + rest[0];
        assert first[1..] == rest[0];
        assert ([first] + rest[1..])[1..] == rest[1..];
      }
    }
  }

  /** Collapsing and stripping a text normalises it and keeps its
      non-whitespace characters. */
  lemma CleanJoined(joined: string)
    ensures IsNormalized(Strip(Collapse(joined)))
    ensures Text(Strip(Collapse(joined))) == Text(joined)
  {
    StripCollapsed(Collapse(joined));
    CollapseKeepsText(joined);
    StripKeepsText(Collapse(joined));
  }

  /** The shape of a normalised text: no whitespace at either end, blanks as
      the only whitespace (so no line breaks), and never two in a row. */
  predicate IsNormalized(t: string)
  {
    && (|t| > 0 ==> !IsSpace(t[0]) && !IsSpace(t[|t| - 1]))
    && (forall i :: 0 <= i < |t| && IsSpace(t[i]) ==> t[i] == ' ')
    && (forall i :: 0 <= i < |t| - 1 ==> !(IsSpace(t[i]) && IsSpace(t[i + 1])))
  }

  /** Stripping a collapsed text normalises it. */
  lemma StripCollapsed(c: string)
    requires forall i :: 0 <= i < |c| && IsSpace(c[i]) ==> c[i] == ' '
    requires forall i :: 0 <= i < |c| - 1 ==> !(IsSpace(c[i]) && IsSpace(c[i + 1]))
    ensures IsNormalized(Strip(c))
  {
    var k := StripSlice(c);
    var t := Strip(c);
    assert forall i :: 0 <= i < |t| ==> t[i] == c[k + i];
  }

  lemma {:induction false} SplitAtNoSep(s: string, sep: char -> bool)
    requires forall i :: 0 <= i < |s| ==> !sep(s[i])
    ensures SplitAt(s, sep) == [s]
  {
    if |s| > 0 {
      SplitAtNoSep(s[1..], sep);
      assert [s[0]] + s[1..] == s;
    }
  }

  lemma {:induction false} SplitDoubleSpaceNone(s: string)
    requires forall i :: 0 <= i < |s| - 1 ==> !(s[i] == ' ' && s[i + 1] == ' ')
    ensures SplitDoubleSpace(s) == [s]
  {
    if |s| >= 2 {
      SplitDoubleSpaceNone(s[1..]);
      assert [s[0]] + s[1..] == s;
    }
  }

  lemma StripNoEdge(s: string)
    requires |s| > 0 ==> !IsSpace(s[0]) && !IsSpace(s[|s| - 1])
    ensures Strip(s) == s
  {
  }

  lemma {:induction false} CollapseFixed(s: string)
    requires forall i :: 0 <= i < |s| && IsSpace(s[i]) ==> s[i] == ' '
    requires forall i :: 0 <= i < |s| - 1 ==> !(IsSpace(s[i]) && IsSpace(s[i + 1]))
    ensures Collapse(s) == s
    decreases |s|
  {
    if |s| > 0 {
      var tail := s[1..];
      assert forall i :: 0 <= i < |tail| ==> tail[i] == s[i + 1];
      CollapseFixed(tail);
      assert s == [s[0]] + tail;
      if IsSpace(s[0]) {
        assert s[0] == ' ';
        assert |tail| > 0 ==> !IsSpace(tail[0]);
        assert LStrip(tail) == tail;
      }
    }
  }

  /** A normalised text has no line breaks: they are all whitespace. */
  lemma NormalizedNoLineBreak(t: string)
    requires IsNormalized(t)
    ensures forall i :: 0 <= i < |t| ==> !IsLineBreak(t[i])
  {
    forall i | 0 <= i < |t|
      ensures !IsLineBreak(t[i])
    {
      if IsLineBreak(t[i]) {
        assert IsSpace(t[i]);
      }
    }
  }

  /** A normalised text is a single phrase, or none when it is empty. */
  lemma PhrasesOfNormalized(t: string)
    requires IsNormalized(t)
    ensures Phrases(t) == if t == "" then [] else [t]
  {
    NormalizedNoLineBreak(t);
    SplitAtNoSep(t, IsLineBreak);
    StripNoEdge(t);
    assert IsSpace(' ');
    SplitDoubleSpaceNone(t);
    assert StripEach([t]) == [t];
    assert StrippedLines(t) == [t];
    assert LinePieces(t) == [t];
    assert PiecesOf([t]) == [[t]];
    assert Flatten([[t]]) == [t] + Flatten([]);
  }

  /** Normalisation leaves a normalised text unchanged. */
  lemma NormalizeFixedPoint(t: string)
    requires IsNormalized(t)
    ensures NormalizeText(t) == t
  {
    PhrasesOfNormalized(t);
    assert Join("\n", Phrases(t)) == t;
    CollapseFixed(t);
    StripNoEdge(t);
  }

  lemma NormalizeIdempotent(text: string)
    ensures NormalizeText(NormalizeText(text)) == NormalizeText(text)
  {
    NormalizeFixedPoint(NormalizeText(text));
  }

  // ------------------------------------------------------------------ words

  /** `str.split()` without arguments read one character at a time: `cur`
      is the word read so far; whitespace ends it, any other character
      extends it. */
  function WordsFrom(s: string, cur: string): seq<string>
    decreases |s|
  {
    if |s| == 0 then (if cur == "" then [] else [cur])
    else if IsSpace(s[0]) then (if cur == "" then [] else [cur]) + WordsFrom(s[1..], "")
    else WordsFrom(s[1..], cur + [s[0]])
  }

  /** The words of a text: its maximal runs of non-whitespace characters,
      in order. */
  function Words(s: string): seq<string>
  {
    WordsFrom(s, "")
  }

  /** The words of the parts, one part after the other. */
  function WordsOf(parts: seq<string>): seq<string>
  {
    if |parts| == 0 then [] else Words(parts[0]) + WordsOf(parts[1..])
  }

  /** Every word is non-empty and holds no whitespace. */
  lemma {:induction false} WordsShape(s: string, cur: string)
    requires forall i :: 0 <= i < |cur| ==> !IsSpace(cur[i])
    ensures forall w :: w in WordsFrom(s, cur) ==> |w| > 0 && forall i :: 0 <= i < |w| ==> !IsSpace(w[i])
    decreases |s|
  {
    if |s| > 0 {
      if IsSpace(s[0]) {
        WordsShape(s[1..], "");
      } else {
        WordsShape(s[1..], cur + [s[0]]);
      }
    }
  }

  /** Whitespace between words is skipped. */
  lemma {:induction false} SpacesSkipped(w: string, b: string)
    requires forall i :: 0 <= i < |w| ==> IsSpace(w[i])
    ensures WordsFrom(w + b, "") == WordsFrom(b, "")
    decreases |w|
  {
    if |w| > 0 {
      assert (w + b)[0] == w[0] && (w + b)[1..] == w[1..] + b;
      SpacesSkipped(w[1..], b);
    } else {
      assert w + b == b;
    }
  }

  /** Whitespace only splits into no word. */
  lemma WordsOfSpace(w: string)
    requires forall i :: 0 <= i < |w| ==> IsSpace(w[i])
    ensures Words(w) == []
  {
    SpacesSkipped(w, "");
    assert w + "" == w;
  }

  /** Whitespace in front changes nothing once it is stripped. */
  lemma {:induction false} LStripSpacePrefix(p: string, x: string)
    requires forall i :: 0 <= i < |p| ==> IsSpace(p[i])
    ensures LStrip(p + x) == LStrip(x)
    decreases |p|
  {
    if |p| > 0 {
      assert (p + x)[1..] == p[1..] + x;
      LStripSpacePrefix(p[1..], x);
    } else {
      assert p + x == x;
    }
  }

  /** Whitespace at the end changes nothing once it is stripped. */
  lemma {:induction false} RStripSpaceSuffix(x: string, q: string)
    requires forall i :: 0 <= i < |q| ==> IsSpace(q[i])
    ensures RStrip(x + q) == RStrip(x)
    decreases |q|
  {
    if |q| > 0 {
      var q' := q[..|q| - 1];
      assert (x + q)[..|x + q| - 1] == x + q';
      RStripSpaceSuffix(x, q');
    } else {
      assert x + q == x;
    }
  }

  /** A whitespace run ends the word being read and separates what comes
      before it from what comes after it. */
  lemma {:induction false} WordsSep(a: string, w: string, b: string, cur: string)
    requires |w| > 0 && forall i :: 0 <= i < |w| ==> IsSpace(w[i])
    ensures WordsFrom(a + w + b, cur) == WordsFrom(a, cur) + WordsFrom(b, "")
    decreases |a|
  {
    if |a| == 0 {
      assert a + w + b == w + b;
      assert (w + b)[0] == w[0] && (w + b)[1..] == w[1..] + b;
      SpacesSkipped(w[1..], b);
    } else {
      assert (a + w + b)[0] == a[0] && (a + w + b)[1..] == a[1..] + w + b;
      if IsSpace(a[0]) {
        WordsSep(a[1..], w, b, "");
      } else {
        WordsSep(a[1..], w, b, cur + [a[0]]);
      }
    }
  }

  /** A whitespace run separates words: the words of `a + w + b` are those
      of `a` followed by those of `b`. */
  lemma WordsSplit(a: string, w: string, b: string)
    requires |w| > 0 && forall i :: 0 <= i < |w| ==> IsSpace(w[i])
    ensures Words(a + w + b) == Words(a) + Words(b)
  {
    WordsSep(a, w, b, "");
  }

  /** Whitespace around a text adds no word. */
  lemma WordsAround(p: string, r: string, q: string)
    requires forall i :: 0 <= i < |p| ==> IsSpace(p[i])
    requires forall i :: 0 <= i < |q| ==> IsSpace(q[i])
    ensures Words(p + r + q) == Words(r)
  {
    assert p + r + q == p + (r + q);
    SpacesSkipped(p, r + q);
    if |q| > 0 {
      WordsSplit(r, q, "");
      assert r + q + "" == r + q;
    } else {
      assert r + q == r;
    }
  }

  /** A text is its stripped piece with whitespace around it. */
  lemma StripPieces(s: string) returns (p: string, q: string)
    ensures forall i :: 0 <= i < |p| ==> IsSpace(p[i])
    ensures forall i :: 0 <= i < |q| ==> IsSpace(q[i])
    ensures s == p + Strip(s) + q
  {
    var r := Strip(s);
    var k := StripSlice(s);
    p, q := s[..k], s[k + |r|..];
    SliceThree(s, k, k + |r|);
  }

  /** Stripping keeps the words. */
  lemma WordsStrip(s: string)
    ensures Words(Strip(s)) == Words(s)
  {
    var p, q := StripPieces(s);
    WordsAround(p, Strip(s), q);
  }

  lemma {:induction false} WordsOfAppend(a: seq<string>, b: seq<string>)
    ensures WordsOf(a + b) == WordsOf(a) + WordsOf(b)
  {
    if |a| == 0 {
      assert a + b == b;
    } else {
      assert (a + b)[1..] == a[1..] + b;
      WordsOfAppend(a[1..], b);
    }
  }

  /** Parts with the same words, pairwise, have the same words together. */
  lemma {:induction false} SameWords(a: seq<string>, b: seq<string>)
    requires |a| == |b|
    requires forall i :: 0 <= i < |a| ==> Words(a[i]) == Words(b[i])
    ensures WordsOf(a) == WordsOf(b)
  {
    if |a| > 0 {
      SameWords(a[1..], b[1..]);
    }
  }

  lemma StripEachKeepsWords(parts: seq<string>)
    ensures WordsOf(StripEach(parts)) == WordsOf(parts)
  {
    var r := StripEach(parts);
    forall n | 0 <= n < |r|
      ensures Words(r[n]) == Words(parts[n])
    {
      WordsStrip(parts[n]);
    }
    SameWords(r, parts);
  }

  /** The words of all lists, one list after the other. */
  function FlatWords(pieces: seq<seq<string>>): seq<string>
  {
    if |pieces| == 0 then [] else WordsOf(pieces[0]) + FlatWords(pieces[1..])
  }

  lemma {:induction false} PieceWords(pieces: seq<seq<string>>, lines: seq<string>)
    requires |pieces| == |lines|
    requires forall i :: 0 <= i < |pieces| ==> WordsOf(pieces[i]) == Words(lines[i])
    ensures FlatWords(pieces) == WordsOf(lines)
  {
    if |pieces| > 0 {
      PieceWords(pieces[1..], lines[1..]);
    }
  }

  lemma {:induction false} WordsOfFlatten(pieces: seq<seq<string>>)
    ensures WordsOf(Flatten(pieces)) == FlatWords(pieces)
  {
    if |pieces| > 0 {
      WordsOfFlatten(pieces[1..]);
      WordsOfAppend(pieces[0], Flatten(pieces[1..]));
    }
  }

  /** Dropping empty parts changes no word. */
  lemma {:induction false} WordsOfDropEmpty(parts: seq<string>)
    ensures WordsOf(Filter(parts, NonEmpty)) == WordsOf(parts)
  {
    if |parts| > 0 {
      WordsOfDropEmpty(parts[1..]);
      if parts[0] == "" {
        WordsOfSpace("");
      }
    }
  }

  /** `SplitAt` cuts at one separator character at a time: the first part
      is the text before the first separator, the other parts are the split
      of the text after it. */
  lemma {:induction false} SplitAtFirst(s: string, sep: char -> bool) returns (j: nat)
    ensures |SplitAt(s, sep)| == 1 ==> SplitAt(s, sep)[0] == s
    ensures |SplitAt(s, sep)| > 1 ==>
      && j < |s| && sep(s[j]) && s[..j] == SplitAt(s, sep)[0] && SplitAt(s[j + 1..], sep) == SplitAt(s, sep)[1..]
    decreases |s|
  {
    j := 0;
    if |s| > 0 {
      var rest := SplitAt(s[1..], sep);
      if sep(s[0]) {
        assert ([""] + rest)[1..] == rest;
      } else {
        var j' := SplitAtFirst(s[1..], sep);
        var first := [s[0]] + rest[0];
        assert ([first] + rest[1..])[1..] == rest[1..];
        if |rest| == 1 {
          assert first == s;
        } else {
          j := j' + 1;
          assert s[..j] == [s[0]] + s[1..][..j'];
          assert s[j + 1..] == s[1..][j' + 1..];
        }
      }
    }
  }

  /** Splitting at whitespace separators keeps the words. */
  lemma {:induction false} SplitAtKeepsWords(s: string, sep: char -> bool)
    requires forall c :: sep(c) ==> IsSpace(c)
    ensures WordsOf(SplitAt(s, sep)) == Words(s)
    decreases |s|
  {
    var r := SplitAt(s, sep);
    var j := SplitAtFirst(s, sep);
    if |r| > 1 {
      SplitAtKeepsWords(s[j + 1..], sep);
      assert s == s[..j] + [s[j]] + s[j + 1..];
      WordsSplit(s[..j], [s[j]], s[j + 1..]);
    }
  }

  /** `SplitDoubleSpace` cuts at one double blank at a time. */
  lemma {:induction false} SplitDoubleSpaceFirst(s: string) returns (j: nat)
    ensures |SplitDoubleSpace(s)| == 1 ==> SplitDoubleSpace(s)[0] == s
    ensures |SplitDoubleSpace(s)| > 1 ==>
      && j + 1 < |s| && s[j] == ' ' && s[j + 1] == ' '
      && s[..j] == SplitDoubleSpace(s)[0] && SplitDoubleSpace(s[j + 2..]) == SplitDoubleSpace(s)[1..]
    decreases |s|
  {
    j := 0;
    if |s| >= 2 {
      if s[0] == ' ' && s[1] == ' ' {
        var rest := SplitDoubleSpace(s[2..]);
        assert ([""] + rest)[1..] == rest;
      } else {
        var rest := SplitDoubleSpace(s[1..]);
        var j' := SplitDoubleSpaceFirst(s[1..]);
        var first := [s[0]] + rest[0];
        assert ([first] + rest[1..])[1..] == rest[1..];
        if |rest| == 1 {
          assert first == s;
        } else {
          j := j' + 1;
          assert s[..j] == [s[0]] + s[1..][..j'];
          assert s[j + 2..] == s[1..][j' + 2..];
        }
      }
    }
  }

  /** Splitting at double blanks keeps the words. */
  lemma {:induction false} SplitDoubleSpaceKeepsWords(s: string)
    ensures WordsOf(SplitDoubleSpace(s)) == Words(s)
    decreases |s|
  {
    var r := SplitDoubleSpace(s);
    var j := SplitDoubleSpaceFirst(s);
    if |r| > 1 {
      SplitDoubleSpaceKeepsWords(s[j + 2..]);
      assert s == s[..j] + "  " + s[j + 2..];
      WordsSplit(s[..j], "  ", s[j + 2..]);
    }
  }

  /** Joining with a whitespace separator keeps the parts' words apart. */
  lemma {:induction false} JoinKeepsWords(sep: string, parts: seq<string>)
    requires |sep| > 0 && forall i :: 0 <= i < |sep| ==> IsSpace(sep[i])
    ensures Words(Join(sep, parts)) == WordsOf(parts)
  {
    if |parts| == 0 {
      WordsOfSpace("");
    } else if |parts| == 1 {
      assert Join(sep, parts) == parts[0];
    } else {
      JoinKeepsWords(sep, parts[1..]);
      WordsSplit(parts[0], sep, Join(sep, parts[1..]));
    }
  }

  /** The phrases of a text hold exactly its words, in order: no phrase
      break falls inside a word and no two words are glued together. */
  lemma PhrasesKeepWords(text: string)
    ensures WordsOf(Phrases(text)) == Words(text)
  {
    var split := SplitAt(text, IsLineBreak);
    var lines := StrippedLines(text);
    assert lines == StripEach(split);
    assert forall c :: IsLineBreak(c) ==> IsSpace(c);
    SplitAtKeepsWords(text, IsLineBreak);
    StripEachKeepsWords(split);
    var pieces := PiecesOf(lines);
    forall i | 0 <= i < |pieces|
      ensures WordsOf(pieces[i]) == Words(lines[i])
    {
      assert pieces[i] == StripEach(SplitDoubleSpace(lines[i]));
      StripEachKeepsWords(SplitDoubleSpace(lines[i]));
      SplitDoubleSpaceKeepsWords(lines[i]);
    }
    PieceWords(pieces, lines);
    WordsOfFlatten(pieces);
    WordsOfDropEmpty(Flatten(pieces));
  }

  /** A word followed by a blank and the rest of a collapsed text: the
      blank separates the word from the words after it, or becomes trailing
      whitespace when there are none. */
  lemma BlankAfterWord(cur: string, rest: seq<string>, x: string, q': string) returns (q: string)
    requires cur != ""
    requires forall i :: 0 <= i < |q'| ==> IsSpace(q'[i])
    requires x == Join(" ", rest) + q'
    ensures forall i :: 0 <= i < |q| ==> IsSpace(q[i])
    ensures cur + (" " + x) == "" + Join(" ", [cur] + rest) + q
  {
    if |rest| == 0 {
      q := " " + q';
      assert Join(" ", [cur] + rest) == cur;
    } else {
      q := q';
      assert ([cur] + rest)[1..] == rest;
    }
  }

  /** Reading `s` after the word `cur` (or inside a whitespace run when
      `inRun`), the run-by-run collapse emits the words separated by single
      blanks, with at most whitespace before and after them, and nothing
      before them when a word or a run is already under way. */
  lemma {:induction false} CollapseSpaced(s: string, cur: string, inRun: bool) returns (p: string, q: string)
    requires forall i :: 0 <= i < |cur| ==> !IsSpace(cur[i])
    requires cur != "" ==> !inRun
    ensures forall i :: 0 <= i < |p| ==> IsSpace(p[i])
    ensures forall i :: 0 <= i < |q| ==> IsSpace(q[i])
    ensures inRun || cur != "" ==> p == ""
    ensures cur + SubRuns(s, inRun) == p + Join(" ", WordsFrom(s, cur)) + q
    decreases |s|
  {
    if |s| == 0 {
      p, q := "", "";
      if cur != "" {
        assert Join(" ", [cur]) == cur;
      }
    } else if IsSpace(s[0]) {
      var p', q' := CollapseSpaced(s[1..], "", true);
      var rest := WordsFrom(s[1..], "");
      var x := SubRuns(s[1..], true);
      var j := Join(" ", rest);
      assert x == j + q' by {
        EmptyPrefix(x);
      }
      var blank := if inRun then "" else " ";
      assert SubRuns(s, inRun) == blank + x;
      if cur == "" {
        p, q := blank, q';
        assert WordsFrom(s, cur) == rest;
        EmptyPrefix(blank + x);
        AppendAssoc(blank, j, q');
      } else {
        p := "";
        q := BlankAfterWord(cur, rest, x, q');
        assert WordsFrom(s, cur) == [cur] + rest;
      }
    } else {
      var y := SubRuns(s[1..], false);
      p, q := CollapseSpaced(s[1..], cur + [s[0]], false);
      assert SubRuns(s, inRun) == [s[0]] + y;
      assert WordsFrom(s, cur) == WordsFrom(s[1..], cur + [s[0]]);
      AppendAssoc(cur, [s[0]], y);
    }
  }

  /** Words joined by single blanks neither start nor end with whitespace. */
  lemma {:induction false} JoinedWordsEdges(ws: seq<string>)
    requires forall w :: w in ws ==> |w| > 0 && forall i :: 0 <= i < |w| ==> !IsSpace(w[i])
    ensures var j := Join(" ", ws); |j| > 0 ==> !IsSpace(j[0]) && !IsSpace(j[|j| - 1])
  {
    if |ws| > 1 {
      assert ws[0] in ws;
      assert forall w :: w in ws[1..] ==> w in ws;
      JoinedWordsEdges(ws[1..]);
    } else if |ws| == 1 {
      assert ws[0] in ws;
    }
  }

  /** Whitespace around a text without edge whitespace is stripped exactly. */
  lemma StripAround(p: string, j: string, q: string)
    requires forall i :: 0 <= i < |p| ==> IsSpace(p[i])
    requires forall i :: 0 <= i < |q| ==> IsSpace(q[i])
    requires |j| > 0 ==> !IsSpace(j[0]) && !IsSpace(j[|j| - 1])
    ensures Strip(p + j + q) == j
  {
    assert p + j + q == p + (j + q);
    LStripSpacePrefix(p, j + q);
    if |j| > 0 {
      assert LStrip(j + q) == j + q;
      RStripSpaceSuffix(j, q);
    } else {
      assert j + q == q;
      assert |LStrip(q)| == 0;
    }
  }

  /** `re.sub(r"\s+", " ", s).strip()` is `" ".join(s.split())`: the words
      of the text separated by exactly one blank. */
  lemma CollapseWords(s: string)
    ensures Strip(Collapse(s)) == Join(" ", Words(s))
  {
    CollapseIsRunwise(s);
    var p, q := CollapseSpaced(s, "", false);
    assert "" + SubRuns(s, false) == SubRuns(s, false);
    WordsShape(s, "");
    JoinedWordsEdges(Words(s));
    StripAround(p, Join(" ", Words(s)), q);
  }

  /** The normalised page text is the text's words separated by single
      blanks: words never merge and are never cut. */
  lemma NormalizeWords(text: string)
    ensures NormalizeText(text) == Join(" ", Words(text))
  {
    var joined := Join("\n", Phrases(text));
    assert IsSpace('\n');
    JoinKeepsWords("\n", Phrases(text));
    PhrasesKeepWords(text);
    CollapseWords(joined);
  }

  /** Splitting into phrases first does not matter: normalising a text is
      collapsing every whitespace run of it to a blank and stripping. */
  lemma NormalizeIsCollapse(text: string)
    ensures NormalizeText(text) == Strip(Collapse(text))
  {
    NormalizeWords(text);
    CollapseWords(text);
  }

  // ------------------------------------------------------------- page fetch

  /** `get_page`: downloads the page behind a search hit. `content(selfUrl)`
      is the page's storage-format body, or None when the request or the
      lookup of the body fails; `getText` is the HTML-to-text extraction.
      Title and link are taken from the hit. */
  function GetPage(qr: QueryResult, content: string -> Option<string>, getText: string -> string): (r: Option<Page>)
    ensures r.Some? <==> content(qr.selfUrl).Some?
    ensures r.Some? ==> r.value.title == qr.title && r.value.webUi == qr.webUi
    ensures r.Some? ==> IsNormalized(r.value.body)
    ensures r.Some? ==> r.value.body == NormalizeText(getText(content(qr.selfUrl).value))
  {
    match content(qr.selfUrl)
    case None => None
    case Some(html) =>
      Some(Page(qr.title, NormalizeText(getText(html)), qr.webUi))
  }
}

=== FILE: confluence_graph.dfy ===
/** The wiki sub-graph: `build_query` asks the model for a keyword list and
    records it, then `execute_cql` searches for the keywords not searched
    before and records the pages found. The model's keyword list and the CQL
    search (`cql_all` on the built query string) are oracles. */
module ConfluenceGraph {
  import opened Wrappers
  import opened Seqs
  import opened State
  import opened Keywords
  import opened ConfluenceClient
  import opened ConfluenceTool

  /** `build_query`: the model's keyword list is appended to the query
      history; a model call that raises fails the node. */
  function BuildQuery(cs: ConfluenceState, keywords: Result<seq<string>>): (r: Result<ConfluenceState>)
    ensures r.Ok? <==> keywords.Ok?
    ensures r.Ok? ==> |r.value.cqlQueries| > 0 && Latest(r.value.cqlQueries) == keywords.value
    ensures r.Ok? ==> |r.value.cqlQueries| == |cs.cqlQueries| + 1 && r.value.cqlQueries[..|cs.cqlQueries|] == cs.cqlQueries
    ensures r.Ok? ==> r.value.confluencePages == cs.confluencePages
  {
    match keywords
    case Err(e) => Err(e)
    case Ok(k) => Ok(cs.(cqlQueries := cs.cqlQueries + [k]))
  }

  /** The CQL condition for one term: the term, quoted, is looked for in
      the text and, as the alternative, in the title. */
  function Clause(t: string): string
  {
    "text ~ \"" + t + "\" OR title ~ \"" + t + "\" "
  }

  /** A clause quotes its term twice: once after `text ~ `, once after
      `title ~ `, with ` OR ` between the two tests. */
  lemma ClauseShape(t: string)
    ensures var r := Clause(t);
      && |r| == 2 * |t| + 24
      && r[..8] == "text ~ \"" && r[8..8 + |t|] == t && r[8 + |t|] == '"'
      && r[8 + |t|..22 + |t|] == "\" OR title ~ \"" && r[22 + |t|..22 + 2 * |t|] == t
  {
    var r := Clause(t);
    assert r == "text ~ \"" + (t + ("\" OR title ~ \"" + (t + "\" ")));
  }

  function Clauses(terms: seq<string>): (r: seq<string>)
    ensures |r| == |terms|
    ensures forall i :: 0 <= i < |terms| ==> r[i] == Clause(terms[i])
  {
    seq(|terms|, i requires 0 <= i < |terms| => Clause(terms[i]))
  }

  /** The query string: the clauses joined by `OR `. It is empty exactly
      when there is no term, and otherwise consists of the clauses and one
      separator between each pair, nothing more. */
  function CqlString(terms: seq<string>): (r: string)
    ensures r == "" <==> |terms| == 0
    ensures |terms| > 0 ==> |r| == TotalLength(Clauses(terms)) + 3 * (|terms| - 1)
  {
    var r := Join("OR ", Clauses(terms));
    if |terms| > 0 then
      JoinLength("OR ", Clauses(terms));
      assert TotalLength(Clauses(terms)) >= |Clauses(terms)[0]| > 0;
      r
    else r
  }

  /** A string holding a clause at offset c holds its quoted term at c + 8. */
  lemma ClauseAt(s: string, c: nat, t: string)
    requires c + |Clause(t)| <= |s| && s[c..c + |Clause(t)|] == Clause(t)
    ensures c + 8 + |t| < |s|
    ensures s[c..c + 8] == "text ~ \""
    ensures s[c + 8..c + 8 + |t|] == t
    ensures s[c + 8 + |t|] == '"'
  {
    ClauseShape(t);
    var cl := Clause(t);
    assert forall j :: 0 <= j < |cl| ==> s[c + j] == cl[j];
    var head, term := s[c..c + 8], s[c + 8..c + 8 + |t|];
    assert forall j :: 0 <= j < 8 ==> head[j] == cl[j];
    assert forall j :: 0 <= j < |t| ==> term[j] == cl[8 + j];
  }

  /** Every term is searched: it appears in the query string, quoted, right
      after `text ~ "`. */
  lemma CqlMentionsTerm(terms: seq<string>, i: nat) returns (k: nat)
    requires i < |terms|
    ensures 8 <= k && k + |terms[i]| < |CqlString(terms)|
    ensures CqlString(terms)[k - 8..k] == "text ~ \""
    ensures CqlString(terms)[k..k + |terms[i]|] == terms[i]
    ensures CqlString(terms)[k + |terms[i]|] == '"'
  {
    assert Clauses(terms)[i] == Clause(terms[i]);
    var c := JoinPartOffset("OR ", Clauses(terms), i);
    ClauseAt(CqlString(terms), c, terms[i]);
    k := c + 8;
  }

  /** `execute_cql`: the latest keyword list without the terms searched
      before; with no term left nothing is searched. Otherwise the query
      string of the new terms is searched and summarised by the wiki tool,
      whose answer is appended as one page list; if the tool raises the
      state is kept. The lookup of the latest list fails on an empty
      history. */
  function ExecuteCql(cs: ConfluenceState, hits: string -> Result<seq<QueryResult>>, o: WikiOracles): (r: Result<ConfluenceState>)
    ensures r.Err? <==> |cs.cqlQueries| == 0
    ensures r.Ok? ==> r.value.cqlQueries == cs.cqlQueries
    ensures r.Ok? ==> r.value == cs || (|r.value.confluencePages| == |cs.confluencePages| + 1 && r.value.confluencePages[..|cs.confluencePages|] == cs.confluencePages)
    ensures r.Ok? && r.value != cs ==>
      var terms := NewTerms(cs.cqlQueries);
      var answer := ConfluenceQuery(hits(CqlString(terms)), o);
      && |terms| > 0 && answer.Ok?
      && r.value.confluencePages == cs.confluencePages + [answer.value]
      && |answer.value| <= TopPages
    ensures r.Ok? && |NewTerms(cs.cqlQueries)| == 0 ==> r.value == cs
    ensures r.Ok? && |NewTerms(cs.cqlQueries)| > 0 ==>
      var answer := ConfluenceQuery(hits(CqlString(NewTerms(cs.cqlQueries))), o);
      && (answer.Ok? ==> r.value.confluencePages == cs.confluencePages + [answer.value])
      && (answer.Err? ==> r.value == cs)
  {
    if |cs.cqlQueries| == 0 then Err("IndexError: list index out of range")
    else
      var terms := NewTerms(cs.cqlQueries);
      if |terms| == 0 then Ok(cs)
      else
        match ConfluenceQuery(hits(CqlString(terms)), o)
        case Err(_) => Ok(cs)
        case Ok(pages) => Ok(cs.(confluencePages := cs.confluencePages + [pages]))
  }

  /** One pass through the sub-graph: it fails exactly when the model call
      for keywords raises; otherwise the keyword list is recorded, and pages
      are recorded only when it holds a term not searched before. */
  function ConfluenceCycle(cs: ConfluenceState, keywords: Result<seq<string>>, hits: string -> Result<seq<QueryResult>>, o: WikiOracles): (r: Result<ConfluenceState>)
    ensures r.Ok? <==> keywords.Ok?
    ensures r.Ok? ==> r.value.cqlQueries == cs.cqlQueries + [keywords.value]
    ensures r.Ok? && |NewTerms(cs.cqlQueries + [keywords.value])| == 0 ==> r.value.confluencePages == cs.confluencePages
  {
    match BuildQuery(cs, keywords)
    case Err(e) => Err(e)
    case Ok(built) => ExecuteCql(built, hits, o)
  }

  /** A pass fails only when the model call raises; it adds one keyword list
      and at most one page list of at most eight pages, keeps everything
      recorded before, and so keeps the page lists bounded by the queries. */
  lemma CycleKeepsBound(cs: ConfluenceState, keywords: Result<seq<string>>, hits: string -> Result<seq<QueryResult>>, o: WikiOracles)
    requires PagesBounded(cs)
    ensures ConfluenceCycle(cs, keywords, hits, o).Ok? <==> keywords.Ok?
    ensures var r := ConfluenceCycle(cs, keywords, hits, o);
      r.Ok? ==>
      && r.value.cqlQueries == cs.cqlQueries + [keywords.value]
      && PagesBounded(r.value)
      && |cs.confluencePages| <= |r.value.confluencePages| <= |cs.confluencePages| + 1
      && r.value.confluencePages[..|cs.confluencePages|] == cs.confluencePages
      && (|r.value.confluencePages| > |cs.confluencePages| ==> |r.value.confluencePages[|cs.confluencePages|]| <= TopPages)
  {
    var r := ConfluenceCycle(cs, keywords, hits, o);
    if keywords.Ok? {
      var built := BuildQuery(cs, keywords).value;
      assert built.cqlQueries == cs.cqlQueries + [keywords.value];
      if r.value != built {
        assert r.value.confluencePages[|cs.confluencePages|] == ConfluenceQuery(hits(CqlString(NewTerms(built.cqlQueries))), o).value;
      }
    }
  }

  /** Keywords that were all searched before lead to no search at all: only
      the keyword list is recorded. */
  lemma RepeatedKeywordsNotSearched(cs: ConfluenceState, keywords: seq<string>, hits: string -> Result<seq<QueryResult>>, o: WikiOracles)
    requires forall t :: t in keywords ==> exists i :: 0 <= i < |cs.cqlQueries| && t in cs.cqlQueries[i]
    ensures ConfluenceCycle(cs, Ok(keywords), hits, o) == Ok(cs.(cqlQueries := cs.cqlQueries + [keywords]))
  {
    var built := BuildQuery(cs, Ok(keywords)).value;
    var h := built.cqlQueries;
    assert forall i :: 0 <= i < |h| - 1 ==> h[i] == cs.cqlQueries[i];
    assert Latest(h) == keywords;
    NothingNew(h);
  }
}

=== FILE: confluence_tool.dfy ===
/** The wiki search tool: every hit of a query is downloaded and scored by
    its embedding distance to the question, the eight closest pages are kept,
    and each is replaced by a summary that the hallucination guard accepts.
    Downloads, the embedding model, the summariser and the guard are
    oracles. */
module ConfluenceTool {
  import opened Wrappers
  import opened Seqs
  import opened Prompts
  import opened ConfluenceClient
  import opened Embedding
  import opened Ranking

  /** The number of pages kept after ranking. */
  const TopPages := 8

  /** The oracles the tool calls: the page body request, the HTML-to-text
      extraction, the embedding window size and distance, the summariser
      (through `run_llm`) and the hallucination guard. */
  datatype WikiOracles = WikiOracles(
    content: string -> Option<string>,
    getText: string -> string,
    chunkSize: int,
    distance: string -> int,
    summarize: Page -> Result<Summary>,
    judge: (string, string) -> Result<Hallucination>)

  /** `download_embed_page`: a hit whose page cannot be fetched or has an
      empty body is skipped; otherwise the page is paired with its distance.
      Scoring raises when there are no windows. */
  function DownloadEmbedPage(qr: QueryResult, o: WikiOracles): (r: Result<Option<Scored<Page>>>)
    ensures r == Ok(None) <==> GetPage(qr, o.content, o.getText).None? || GetPage(qr, o.content, o.getText).value.body == ""
    ensures r.Err? <==> GetPage(qr, o.content, o.getText).Some? && GetPage(qr, o.content, o.getText).value.body != "" && o.chunkSize <= 0
    ensures r.Ok? && r.value.Some? ==>
      var page := r.value.value.item;
      && page == GetPage(qr, o.content, o.getText).value
      && page.body != "" && page.title == qr.title && page.webUi == qr.webUi
      && Some(r.value.value.score) == EmbeddingDistance(page.body, o.chunkSize, o.distance)
  {
    match GetPage(qr, o.content, o.getText)
    case None => Ok(None)
    case Some(page) =>
      if page.body == "" then Ok(None)
      else
        match EmbeddingDistance(page.body, o.chunkSize, o.distance)
        case None => Err("ValueError: min() arg is an empty sequence")
        case Some(d) => Ok(Some(Scored(d, page)))
  }

  /** `str.replace("\n", " ")`. */
  function ReplaceNewlines(s: string): (r: string)
    ensures |r| == |s|
    ensures forall i :: 0 <= i < |s| ==> r[i] == (if s[i] == '\n' then ' ' else s[i])
  {
    seq(|s|, i requires 0 <= i < |s| => if s[i] == '\n' then ' ' else s[i])
  }

  /** `summarize_page`: an empty or missing summary rejects the page; so does
      a summary the guard flags against the page text (with line breaks
      turned into blanks); otherwise the page keeps its title and link and
      its body becomes the summary. A model call that raises propagates. */
  function SummarizePage(page: Page, o: WikiOracles): (r: Result<Option<Page>>)
    ensures r.Ok? && r.value.Some? ==> Key(r.value.value) == Key(page)
    ensures o.summarize(page).Err? ==> r.Err?
    ensures o.summarize(page).Ok? && !Truthy(o.summarize(page).value.summary) ==> r == Ok(None)
    ensures o.summarize(page).Ok? && Truthy(o.summarize(page).value.summary) ==>
      var text := o.summarize(page).value.summary.value;
      var verdict := o.judge(ReplaceNewlines(page.body), text);
      && (r.Ok? <==> verdict.Ok?)
      && (r.Ok? ==> r.value == if verdict.value.hallucination then None else Some(Page(page.title, text, page.webUi)))
  {
    match o.summarize(page)
    case Err(e) => Err(e)
    case Ok(Summary(s)) =>
      if !Truthy(s) then Ok(None)
      else
        match o.judge(ReplaceNewlines(page.body), s.value)
        case Err(e) => Err(e)
        case Ok(h) => if h.hallucination then Ok(None) else Ok(Some(page.(body := s.value)))
  }

  /** Title and link of a page, which summarising keeps. */
  function Key(p: Page): (string, string)
  {
    (p.title, p.webUi)
  }

  function Keys(ps: seq<Page>): (r: seq<(string, string)>)
    ensures |r| == |ps|
    ensures forall i :: 0 <= i < |ps| ==> r[i] == Key(ps[i])
  {
    seq(|ps|, i requires 0 <= i < |ps| => Key(ps[i]))
  }

  /** Every page summarised on its own, as `asyncio.gather` runs the calls. */
  function SummarizeEach(pages: seq<Page>, o: WikiOracles): seq<Result<Option<Page>>>
  {
    seq(|pages|, i requires 0 <= i < |pages| => SummarizePage(pages[i], o))
  }

  /** Summarise every page and drop the rejected ones: the accepted pages,
      in order, each standing for the page with the same title and link. */
  function SummarizeAll(pages: seq<Page>, o: WikiOracles): (r: Result<seq<Page>>)
    ensures r.Ok? <==> forall i :: 0 <= i < |pages| ==> SummarizePage(pages[i], o).Ok?
    ensures r.Ok? ==> forall x :: x in r.value <==> exists i :: 0 <= i < |pages| && SummarizePage(pages[i], o) == Ok(Some(x))
    ensures r.Ok? ==> |r.value| <= |pages|
    ensures r.Ok? ==> IsSubsequence(Keys(r.value), Keys(pages))
  {
    GatherSummaryPages(pages, o);
    match AllOk(SummarizeEach(pages, o))
    case Err(e) => Err(e)
    case Ok(outs) =>
      AcceptedAreSummaries(pages, o, outs);
      KeptKeys(pages, outs);
      Ok(Somes(outs))
  }

  /** The gathered summaries succeed iff every summary call does, and each
      gathered answer is that page's own, with its title and link. */
  lemma GatherSummaryPages(pages: seq<Page>, o: WikiOracles)
    ensures AllOk(SummarizeEach(pages, o)).Ok? <==> forall i :: 0 <= i < |pages| ==> SummarizePage(pages[i], o).Ok?
    ensures AllOk(SummarizeEach(pages, o)).Ok? ==>
      var outs := AllOk(SummarizeEach(pages, o)).value;
      && |outs| == |pages|
      && forall i :: 0 <= i < |pages| ==> SummarizePage(pages[i], o) == Ok(outs[i]) && (outs[i].Some? ==> Key(outs[i].value) == Key(pages[i]))
  {
    var calls := SummarizeEach(pages, o);
    assert forall i :: 0 <= i < |pages| ==> calls[i] == SummarizePage(pages[i], o);
  }

  /** The pages kept from the gathered summaries are exactly the accepted
      summaries. */
  lemma AcceptedAreSummaries(pages: seq<Page>, o: WikiOracles, outs: seq<Option<Page>>)
    requires |outs| == |pages|
    requires forall i :: 0 <= i < |pages| ==> SummarizePage(pages[i], o) == Ok(outs[i])
    ensures forall x :: Some(x) in outs <==> exists i :: 0 <= i < |pages| && SummarizePage(pages[i], o) == Ok(Some(x))
  {
    forall x
      ensures Some(x) in outs <==> exists i :: 0 <= i < |pages| && SummarizePage(pages[i], o) == Ok(Some(x))
    {
      if Some(x) in outs {
        var i :| 0 <= i < |outs| && outs[i] == Some(x);
        assert SummarizePage(pages[i], o) == Ok(Some(x));
      }
    }
  }

  /** Dropping the rejected answers keeps the titles and links of the
      accepted pages in page order. */
  lemma {:induction false} KeptKeys(pages: seq<Page>, outs: seq<Option<Page>>)
    requires |outs| == |pages|
    requires forall i :: 0 <= i < |pages| ==> outs[i].Some? ==> Key(outs[i].value) == Key(pages[i])
    ensures IsSubsequence(Keys(Somes(outs)), Keys(pages))
  {
    if |pages| > 0 {
      assert forall i :: 1 <= i < |pages| ==> pages[1..][i - 1] == pages[i] && outs[1..][i - 1] == outs[i];
      KeptKeys(pages[1..], outs[1..]);
      var rest := Somes(outs[1..]);
      assert Keys(pages)[1..] == Keys(pages[1..]);
      if outs[0].Some? {
        var kept := [outs[0].value] + rest;
        assert Somes(outs) == kept;
        assert Keys(kept)[0] == Keys(pages)[0];
        assert Keys(kept)[1..] == Keys(rest);
      } else {
        assert Somes(outs) == rest;
        SubsequenceDropHead(Keys(rest), Keys(pages));
      }
    }
  }

  /** With no answer rejected, every title and link is kept, in order. */
  lemma AllKeysKept(pages: seq<Page>, outs: seq<Option<Page>>)
    requires |outs| == |pages|
    requires forall i :: 0 <= i < |pages| ==> outs[i].Some? && Key(outs[i].value) == Key(pages[i])
    ensures Keys(Somes(outs)) == Keys(pages)
  {
    SomesAll(outs);
    var kept := Somes(outs);
    assert forall i :: 0 <= i < |pages| ==> Keys(kept)[i] == Key(outs[i].value);
  }

  /** When every page is accepted, all are kept, with their titles and
      links in order. */
  lemma AllPagesAccepted(pages: seq<Page>, o: WikiOracles)
    requires forall i :: 0 <= i < |pages| ==> SummarizePage(pages[i], o).Ok? && SummarizePage(pages[i], o).value.Some?
    ensures SummarizeAll(pages, o).Ok? && Keys(SummarizeAll(pages, o).value) == Keys(pages)
  {
    GatherSummaryPages(pages, o);
    AllKeysKept(pages, AllOk(SummarizeEach(pages, o)).value);
  }

  /** The pages of the query's hits that could be scored, in hit order. */
  function ScoredPages(results: seq<QueryResult>, o: WikiOracles): (r: Result<seq<Scored<Page>>>)
    ensures r.Ok? <==> forall i :: 0 <= i < |results| ==> DownloadEmbedPage(results[i], o).Ok?
    ensures r.Ok? ==> forall x :: x in r.value <==> exists i :: 0 <= i < |results| && DownloadEmbedPage(results[i], o) == Ok(Some(x))
    ensures r.Ok? ==> |r.value| <= |results|
    ensures r.Ok? ==> forall x :: x in r.value ==> x.item.body != ""
    ensures r.Ok? ==> r.value == Somes(AllOk(DownloadEach(results, o)).value)
  {
    GatherDownloads(results, o);
    match AllOk(DownloadEach(results, o))
    case Err(e) => Err(e)
    case Ok(found) =>
      FoundAreDownloads(results, o, found);
      Ok(Somes(found))
  }

  /** Scoring goes hit by hit, in order: the scored pages of two hit lists
      are those of the first followed by those of the second. */
  lemma ScoredPagesAppend(a: seq<QueryResult>, b: seq<QueryResult>, o: WikiOracles)
    requires ScoredPages(a, o).Ok? && ScoredPages(b, o).Ok?
    ensures ScoredPages(a + b, o) == Ok(ScoredPages(a, o).value + ScoredPages(b, o).value)
  {
    MapAppend(a, b, (q: QueryResult) => DownloadEmbedPage(q, o));
    AllOkAppend(DownloadEach(a, o), DownloadEach(b, o));
    SomesAppend(AllOk(DownloadEach(a, o)).value, AllOk(DownloadEach(b, o)).value);
  }

  /** Every hit downloaded and scored on its own, as `asyncio.gather` runs the calls. */
  function DownloadEach(results: seq<QueryResult>, o: WikiOracles): seq<Result<Option<Scored<Page>>>>
  {
    Map(results, (q: QueryResult) => DownloadEmbedPage(q, o))
  }

  /** The gathered downloads succeed iff every download does. */
  lemma GatherDownloads(results: seq<QueryResult>, o: WikiOracles)
    ensures AllOk(DownloadEach(results, o)).Ok? <==> forall i :: 0 <= i < |results| ==> DownloadEmbedPage(results[i], o).Ok?
  {
    var downloads := DownloadEach(results, o);
    assert forall i :: 0 <= i < |results| ==> downloads[i] == DownloadEmbedPage(results[i], o);
  }

  /** The pages kept from the gathered downloads are exactly the downloads
      that found a page, and none has an empty body. */
  lemma FoundAreDownloads(results: seq<QueryResult>, o: WikiOracles, found: seq<Option<Scored<Page>>>)
    requires AllOk(DownloadEach(results, o)) == Ok(found)
    ensures forall x :: Some(x) in found <==> exists i :: 0 <= i < |results| && DownloadEmbedPage(results[i], o) == Ok(Some(x))
    ensures forall x :: Some(x) in found ==> x.item.body != ""
  {
    var downloads := DownloadEach(results, o);
    forall x
      ensures Some(x) in found <==> exists i :: 0 <= i < |results| && DownloadEmbedPage(results[i], o) == Ok(Some(x))
    {
      if Some(x) in found {
        var i :| 0 <= i < |found| && found[i] == Some(x);
        assert downloads[i] == Ok(Some(x));
      }
      if exists i :: 0 <= i < |results| && DownloadEmbedPage(results[i], o) == Ok(Some(x)) {
        var i :| 0 <= i < |results| && DownloadEmbedPage(results[i], o) == Ok(Some(x));
        assert downloads[i] == Ok(found[i]);
      }
    }
  }

  /** `confluence_query` on the hits of `cql_all` (or its exception): the
      scored pages sorted by distance, the closest eight kept, each
      summarised, the rejected ones dropped. The answer has at most eight
      pages, no more than there were hits, in the order of the ranking. */
  function ConfluenceQuery(results: Result<seq<QueryResult>>, o: WikiOracles): (r: Result<seq<Page>>)
    ensures r.Ok? ==> results.Ok? && ScoredPages(results.value, o).Ok?
    ensures r.Ok? ==> |r.value| <= TopPages && |r.value| <= |results.value|
    ensures r.Ok? ==>
      var ranked := TopK(ScoredPages(results.value, o).value, TopPages);
      IsSubsequence(Keys(r.value), Keys(Items(ranked)))
    ensures results.Ok? && ScoredPages(results.value, o).Ok? ==>
      r == SummarizeAll(Items(TopK(ScoredPages(results.value, o).value, TopPages)), o)
  {
    match results
    case Err(e) => Err(e)
    case Ok(hits) =>
      match ScoredPages(hits, o)
      case Err(e) => Err(e)
      case Ok(scored) =>
        var ranked := TopK(scored, TopPages);
        assert |ranked| <= TopPages && |ranked| <= |hits|;
        SummarizeAll(Items(ranked), o)
  }

  /** The pages of ranked pairs, in order. */
  function Items(xs: seq<Scored<Page>>): (r: seq<Page>)
    ensures |r| == |xs|
    ensures forall i :: 0 <= i < |xs| ==> r[i] == xs[i].item
  {
    seq(|xs|, i requires 0 <= i < |xs| => xs[i].item)
  }

  /** The pages handed to the summariser are sorted by distance and are at
      least as close as every scored page left out. */
  lemma RankedPagesClosest(results: seq<QueryResult>, o: WikiOracles)
    requires ScoredPages(results, o).Ok?
    ensures var scored := ScoredPages(results, o).value;
      var ranked := TopK(scored, TopPages);
      && Sorted(ranked)
      && forall i, j :: 0 <= i < |ranked| <= j < |scored| ==> ranked[i].score <= SortByScore(scored)[j].score
  {
    TopKClosest(ScoredPages(results, o).value, TopPages);
  }

  /** When the summariser and the guard accept each of the closest pages,
      the answer is exactly those pages, in ranking order: min(8, scored). */
  lemma AcceptedPagesKept(results: seq<QueryResult>, o: WikiOracles)
    requires ScoredPages(results, o).Ok?
    requires forall x :: x in TopK(ScoredPages(results, o).value, TopPages) ==>
      SummarizePage(x.item, o).Ok? && SummarizePage(x.item, o).value.Some?
    ensures ConfluenceQuery(Ok(results), o).Ok?
    ensures Keys(ConfluenceQuery(Ok(results), o).value) == Keys(Items(TopK(ScoredPages(results, o).value, TopPages)))
    ensures |ConfluenceQuery(Ok(results), o).value| == Ranking.Min(TopPages, |ScoredPages(results, o).value|)
  {
    var ranked := TopK(ScoredPages(results, o).value, TopPages);
    var pages := Items(ranked);
    assert forall i :: 0 <= i < |pages| ==> pages[i] == ranked[i].item && ranked[i] in ranked;
    AllPagesAccepted(pages, o);
    assert |Keys(ConfluenceQuery(Ok(results), o).value)| == |Keys(pages)|;
  }
}

=== FILE: embedding.dfy ===
/** Relevance of a text to the question: the text is cut into overlapping
    windows, each window is embedded and compared with the question, and the
    smallest distance is the text's score. The embedding model and the
    distance computation are one oracle, `distance`, from a window's
    embedding input to an integer distance. */
module Embedding {
  import opened Wrappers
  import opened Seqs

  /** `int(chunk_size / 8)`: one eighth of the window size, truncated toward zero. */
  function Overlap(chunkSize: int): (r: int)
    ensures chunkSize >= 0 ==> 0 <= r && 8 * r <= chunkSize < 8 * (r + 1)
    ensures chunkSize < 0 ==> r <= 0 && -8 * r <= -chunkSize < -8 * (r - 1)
  {
    if chunkSize >= 0 then chunkSize / 8 else -((-chunkSize) / 8)
  }

  /** The distance between window starts: the window size minus the overlap. */
  function Stride(chunkSize: int): (r: int)
    ensures r > 0 <==> chunkSize > 0
    ensures chunkSize > 0 ==> r <= chunkSize
  {
    chunkSize - Overlap(chunkSize)
  }

  /** The window starts, `range(0, len(text), stride)`; empty when the stride
      is not positive (Python's range raises on a zero step and is empty on
      a negative one; both end in an empty list of distances). */
  function Starts(n: nat, chunkSize: int): seq<int>
  {
    if Stride(chunkSize) > 0 then Range(0, n, Stride(chunkSize)) else []
  }

  function Min(a: int, b: int): int
  {
    if a < b then a else b
  }

  /** The windows `text[s : s + chunk_size]` for every start `s`. */
  function Windows(text: string, chunkSize: int): (r: seq<string>)
    ensures |r| == |Starts(|text|, chunkSize)|
  {
    var starts := Starts(|text|, chunkSize);
    if chunkSize <= 0 then []
    else
      RangeValues(0, |text|, Stride(chunkSize));
      seq(|starts|, k requires 0 <= k < |starts| => text[starts[k]..Min(starts[k] + chunkSize, |text|)])
  }

  /** There are windows exactly when the window size is positive and the text
      is not empty; then there are ceiling(|text| / stride) of them. */
  lemma WindowCount(text: string, chunkSize: int)
    ensures |Windows(text, chunkSize)| > 0 <==> chunkSize > 0 && |text| > 0
    ensures chunkSize > 0 && |text| > 0 ==>
      var c := |Windows(text, chunkSize)|;
      (c - 1) * Stride(chunkSize) < |text| <= c * Stride(chunkSize)
  {
    if chunkSize > 0 {
      RangeCount(0, |text|, Stride(chunkSize));
    }
  }

  /** The k-th window start is k strides, inside the text. */
  lemma StartAt(n: nat, chunkSize: int, k: nat)
    requires k < |Starts(n, chunkSize)|
    ensures Stride(chunkSize) > 0
    ensures Starts(n, chunkSize)[k] == k * Stride(chunkSize)
    ensures 0 <= Starts(n, chunkSize)[k] < n
  {
    var st := Stride(chunkSize);
    RangeValues(0, n, st);
    assert 0 <= k * st by {
      assert 0 <= k && 0 < st;
    }
  }

  /** Window k starts at k strides, is a non-empty piece of the text of at
      most `chunkSize` characters, and is cut short only at the end of the text. */
  lemma WindowShape(text: string, chunkSize: int, k: nat)
    requires k < |Windows(text, chunkSize)|
    ensures chunkSize > 0
    ensures Starts(|text|, chunkSize)[k] == k * Stride(chunkSize)
    ensures var s := Starts(|text|, chunkSize)[k]; var w := Windows(text, chunkSize)[k];
      && 0 <= s < |text|
      && 0 < |w| <= chunkSize
      && s + |w| <= |text|
      && w == text[s..s + |w|]
      && (|w| < chunkSize ==> s + |w| == |text|)
  {
    StartAt(|text|, chunkSize, k);
    var s := Starts(|text|, chunkSize)[k];
    var e := Min(s + chunkSize, |text|);
    assert Windows(text, chunkSize)[k] == text[s..e];
  }

  /** Euclidean division without the division operator. */
  lemma {:induction false} Quotient(i: nat, st: int) returns (k: nat)
    requires st > 0
    ensures k * st <= i < k * st + st
    decreases i
  {
    if i < st {
      k := 0;
    } else {
      var k' := Quotient(i - st, st);
      k := k' + 1;
      assert k * st == k' * st + st;
    }
  }

  lemma MulLess(a: int, b: int, s: int)
    requires s > 0 && a * s < b * s
    ensures a < b
  {
    assert (b - a) * s == b * s - a * s;
  }

  /** Every character of the text lies in some window: the returned one. */
  lemma WindowCovers(text: string, chunkSize: int, i: nat) returns (k: nat)
    requires chunkSize > 0 && i < |text|
    ensures k < |Windows(text, chunkSize)|
    ensures k * Stride(chunkSize) <= i < k * Stride(chunkSize) + |Windows(text, chunkSize)[k]|
  {
    var st := Stride(chunkSize);
    k := Quotient(i, st);
    var c := |Windows(text, chunkSize)|;
    WindowCount(text, chunkSize);
    MulLess(k, c, st);
    WindowShape(text, chunkSize, k);
  }

  /** The text handed to the embedding model for one window. */
  function Passage(window: string): string
  {
    "passage: " + window
  }

  /** `min(distances)` over the windows' distances. */
  function MinDistance(ws: seq<string>, distance: string -> int): (r: int)
    requires |ws| > 0
    ensures exists k :: 0 <= k < |ws| && r == distance(Passage(ws[k]))
    ensures forall k :: 0 <= k < |ws| ==> r <= distance(Passage(ws[k]))
  {
    var d := distance(Passage(ws[0]));
    if |ws| == 1 then d
    else
      var m := MinDistance(ws[1..], distance);
      assert forall k :: 1 <= k < |ws| ==> ws[k] == ws[1..][k - 1];
      if d <= m then d else m
  }

  /** `embedding_distance`: the smallest distance of any window of the text;
      None where the source raises, which is when there are no windows. */
  function EmbeddingDistance(text: string, chunkSize: int, distance: string -> int): (r: Option<int>)
    ensures r.Some? <==> chunkSize > 0 && |text| > 0
    ensures r.Some? ==> exists k :: 0 <= k < |Windows(text, chunkSize)| && r.value == distance(Passage(Windows(text, chunkSize)[k]))
    ensures r.Some? ==> forall k :: 0 <= k < |Windows(text, chunkSize)| ==> r.value <= distance(Passage(Windows(text, chunkSize)[k]))
  {
    WindowCount(text, chunkSize);
    var ws := Windows(text, chunkSize);
    if |ws| == 0 then None else Some(MinDistance(ws, distance))
  }
}

=== FILE: keywords.dfy ===
/** Keyword deduplication against the search history, shared by both
    sources: of the latest keyword list only the terms that no earlier list
    contains are searched. Order and repeats within the latest list are kept. */
module Keywords {
  import opened Seqs

  /** Every term of every keyword list before the latest. */
  function Earlier(history: seq<seq<string>>): seq<string>
    requires |history| > 0
  {
    Flatten(history[..|history| - 1])
  }

  function Latest(history: seq<seq<string>>): seq<string>
    requires |history| > 0
  {
    history[|history| - 1]
  }

  /** `[t for t in terms if t not in earlier]`. */
  function NewTerms(history: seq<seq<string>>): (r: seq<string>)
    requires |history| > 0
    ensures forall t :: t in r <==> t in Latest(history) && forall i :: 0 <= i < |history| - 1 ==> t !in history[i]
    ensures IsSubsequence(r, Latest(history))
    ensures forall t :: multiset(r)[t] == if t in Earlier(history) then 0 else multiset(Latest(history))[t]
  {
    var earlier := Earlier(history);
    var p := (t: string) => t !in earlier;
    FilterIsSubsequence(Latest(history), p);
    forall t
      ensures multiset(Filter(Latest(history), p))[t] == if t in earlier then 0 else multiset(Latest(history))[t]
    {
      FilterMultiplicity(Latest(history), p, t);
    }
    assert forall t :: t in earlier <==> exists i :: 0 <= i < |history| - 1 && t in history[i] by {
      var prefix := history[..|history| - 1];
      assert forall i :: 0 <= i < |history| - 1 ==> prefix[i] == history[i];
    }
    Filter(Latest(history), p)
  }

  /** A latest list whose every term was searched before has no new term. */
  lemma NothingNew(history: seq<seq<string>>)
    requires |history| > 0
    requires forall t :: t in Latest(history) ==> exists i :: 0 <= i < |history| - 1 && t in history[i]
    ensures NewTerms(history) == []
  {
    FilterNone(Latest(history), (t: string) => t !in Earlier(history));
  }

  /** A first keyword list is searched as it is. */
  lemma FirstListIsNew(terms: seq<string>)
    ensures NewTerms([terms]) == terms
  {
    var r := NewTerms([terms]);
    assert Earlier([terms]) == [];
    FilterAll(terms, (t: string) => t !in Earlier([terms]));
  }
}

=== FILE: main_graph.dfy ===
/** The main graph: input verification, the main loop choosing sources, the
    dispatch to the source subgraphs, aggregation of an answer and the final
    validation that guards the answer against unsupported claims. Every model
    call is an oracle; a call that raises makes the node (and the run) fail,
    modelled as `Err`. */
module MainGraph {
  import opened Wrappers
  import opened Seqs
  import opened Prompts
  import opened MainOutput
  import opened RocketClient
  import opened ConfluenceClient
  import opened State

  /** The nodes of the main graph. */
  datatype Node = Verification | MainLoop | ConfluenceGraph | RocketGraph | Aggregator | FinalValidation

  /** The number of main-loop passes after which the loop stops is one more
      than this bound. */
  const MaxIterations := 2

  const FatalMessage := "A fatal error occurred"

  // ------------------------------------------------------------ verification

  /** `verification`: a rejected question stores the model's observations as
      the reason; an accepted one leaves the state alone. */
  function VerificationStep(s: GraphState, out: Validation): (r: GraphState)
    ensures out.passed ==> r == s
    ensures !out.passed ==> r.initialCheckFailed == Some(out.observations)
    ensures r.(initialCheckFailed := s.initialCheckFailed) == s
  {
    if !out.passed then s.(initialCheckFailed := Some(out.observations)) else s
  }

  /** `verification_failed`: to the final validation when a reason was
      stored and is not empty, otherwise into the main loop. */
  function VerificationRoute(s: GraphState): (r: Node)
    ensures r == FinalValidation || r == MainLoop
    ensures r == FinalValidation <==> Truthy(s.initialCheckFailed)
  {
    if Truthy(s.initialCheckFailed) then FinalValidation else MainLoop
  }

  /** From the initial state, the run skips the search exactly when the
      question was rejected with a non-empty reason. A rejection whose
      observations are empty goes on into the main loop. */
  lemma RejectionRoute(out: Validation)
    ensures VerificationRoute(VerificationStep(Initialize(), out)) == FinalValidation <==>
      !out.passed && out.observations != ""
  {
  }

  // --------------------------------------------------------------- main loop

  /** `main_loop`: count the pass and record the chosen tool set. */
  function MainLoopStep(s: GraphState, choice: ToolChoice): (r: GraphState)
    ensures r.iterations == s.iterations + 1
    ensures |r.operations| == |s.operations| + 1
    ensures r.operations[..|s.operations|] == s.operations
    ensures r.operations[|s.operations|] == choice.tool
    ensures r.(iterations := s.iterations, operations := s.operations) == s
  {
    s.(iterations := s.iterations + 1, operations := s.operations + [choice.tool])
  }

  /** The nodes a non-empty tool set is dispatched to, and the aggregator
      for an empty one. The source iterates a set, whose order it does not
      fix; the model lists the wiki before the chat. */
  function Targets(tools: set<Tool>): (r: seq<Node>)
    ensures tools == {} ==> r == [Aggregator]
    ensures tools != {} ==> Aggregator !in r
    ensures tools != {} ==> (ConfluenceGraph in r <==> Confluence in tools) && (RocketGraph in r <==> RocketChat in tools)
    ensures forall i, j :: 0 <= i < j < |r| ==> r[i] != r[j]
    ensures tools != {} ==> |r| == |tools|
  {
    if tools == {} then [Aggregator]
    else
      ToolsCount(tools);
      (if Confluence in tools then [ConfluenceGraph] else []) + (if RocketChat in tools then [RocketGraph] else [])
  }

  lemma ToolsCount(tools: set<Tool>)
    ensures |tools| == (if Confluence in tools then 1 else 0) + (if RocketChat in tools then 1 else 0)
  {
    var both := {Confluence, RocketChat};
    assert tools <= both by {
      forall t | t in tools
        ensures t in both
      {
        match t
        case Confluence =>
        case RocketChat =>
      }
    }
    if Confluence in tools && RocketChat in tools {
      assert tools == both;
    } else if Confluence in tools {
      assert tools == {Confluence};
    } else if RocketChat in tools {
      assert tools == {RocketChat};
    } else {
      assert tools == {};
    }
  }

  /** `main_loop_edge`: past the iteration bound always to the aggregator;
      otherwise by the latest tool set. Reading the latest set of an empty
      history raises. */
  function MainLoopEdge(s: GraphState): (r: Result<seq<Node>>)
    ensures s.iterations > MaxIterations ==> r == Ok([Aggregator])
    ensures s.iterations <= MaxIterations ==> (r.Ok? <==> |s.operations| > 0)
    ensures s.iterations <= MaxIterations && r.Ok? ==> r.value == Targets(s.operations[|s.operations| - 1])
  {
    if s.iterations > MaxIterations then Ok([Aggregator])
    else if |s.operations| == 0 then Err("IndexError: list index out of range")
    else Ok(Targets(s.operations[|s.operations| - 1]))
  }

  /** `big` holds at least as much as `small`: a counter as high and every
      sub-state list as long. (The tool-set history is merged by list
      comparison, which does not favour the longer list.) */
  predicate Covers(big: GraphState, small: GraphState)
  {
    && big.iterations >= small.iterations
    && |big.rocket.chatRooms| >= |small.rocket.chatRooms|
    && |big.rocket.searchPatterns| >= |small.rocket.searchPatterns|
    && |big.rocket.results| >= |small.rocket.results|
    && |big.confluence.cqlQueries| >= |small.confluence.cqlQueries|
    && |big.confluence.confluencePages| >= |small.confluence.confluencePages|
  }

  /** The state after the dispatched subgraphs ran in parallel on `m`: each
      subgraph's resulting state is merged into the accumulated one. A
      subgraph that raises fails the whole step; the first failure in list
      order is the one reported. The counter of the result is one of the
      counters merged, and what no branch changed stays as it was. */
  function JoinBranches(acc: GraphState, m: GraphState, nodes: seq<Node>, runBranch: (Node, GraphState) -> Result<GraphState>): (r: Result<GraphState>)
    ensures r.Ok? <==> forall i :: 0 <= i < |nodes| ==> runBranch(nodes[i], m).Ok?
    ensures r.Ok? ==> r.value.iterations >= acc.iterations
    ensures r.Ok? ==> (r.value.iterations == acc.iterations ||
      exists i :: 0 <= i < |nodes| && r.value.iterations == runBranch(nodes[i], m).value.iterations)
    ensures r.Ok? && (forall i :: 0 <= i < |nodes| && runBranch(nodes[i], m).Ok? ==> runBranch(nodes[i], m).value.operations == acc.operations) ==>
      r.value.operations == acc.operations
    ensures r.Ok? && (forall i :: 0 <= i < |nodes| && runBranch(nodes[i], m).Ok? ==>
        runBranch(nodes[i], m).value.initialCheckFailed == acc.initialCheckFailed &&
        runBranch(nodes[i], m).value.finalResponse == acc.finalResponse) ==>
      r.value.initialCheckFailed == acc.initialCheckFailed && r.value.finalResponse == acc.finalResponse
    decreases |nodes|
  {
    if |nodes| == 0 then Ok(acc)
    else
      match runBranch(nodes[0], m)
      case Err(e) => Err(e)
      case Ok(b) =>
        var next := MergeGraph(acc, b);
        LargerOpsIdempotent(acc.operations);
        var r := JoinBranches(next, m, nodes[1..], runBranch);
        assert forall i :: 1 <= i < |nodes| ==> nodes[1..][i - 1] == nodes[i];
        if r.Err? then TailFailure(m, nodes, runBranch); r
        else if r.value.iterations != next.iterations then TailCounter(m, nodes, runBranch, r.value.iterations); r
        else r
  }

  /** A branch of the tail that raises is a branch of the whole list. */
  lemma TailFailure(m: GraphState, nodes: seq<Node>, runBranch: (Node, GraphState) -> Result<GraphState>)
    requires |nodes| > 0
    requires exists k :: 0 <= k < |nodes[1..]| && runBranch(nodes[1..][k], m).Err?
    ensures exists i :: 0 <= i < |nodes| && runBranch(nodes[i], m).Err?
  {
    var k :| 0 <= k < |nodes[1..]| && runBranch(nodes[1..][k], m).Err?;
    assert runBranch(nodes[k + 1], m).Err?;
  }

  /** A counter reached by a branch of the tail is reached by a branch of
      the whole list. */
  lemma TailCounter(m: GraphState, nodes: seq<Node>, runBranch: (Node, GraphState) -> Result<GraphState>, v: int)
    requires |nodes| > 0
    requires forall k :: 0 <= k < |nodes[1..]| ==> runBranch(nodes[1..][k], m).Ok?
    requires exists k :: 0 <= k < |nodes[1..]| && v == runBranch(nodes[1..][k], m).value.iterations
    ensures exists i :: 0 <= i < |nodes| && runBranch(nodes[i], m).Ok? && v == runBranch(nodes[i], m).value.iterations
  {
    var k :| 0 <= k < |nodes[1..]| && v == runBranch(nodes[1..][k], m).value.iterations;
    assert runBranch(nodes[k + 1], m) == runBranch(nodes[1..][k], m);
  }

  /** Every dispatched subgraph run on `m`, as the runtime starts them. */
  function BranchRuns(m: GraphState, nodes: seq<Node>, runBranch: (Node, GraphState) -> Result<GraphState>): seq<Result<GraphState>>
  {
    seq(|nodes|, i requires 0 <= i < |nodes| => runBranch(nodes[i], m))
  }

  /** The branch states merged into `acc` one after the other. */
  function MergeAll(acc: GraphState, states: seq<GraphState>): GraphState
    decreases |states|
  {
    if |states| == 0 then acc else MergeAll(MergeGraph(acc, states[0]), states[1..])
  }

  /** Nothing a branch recorded is lost: the joined state covers the
      accumulated state and every branch's state. */
  lemma {:induction false} JoinCovers(acc: GraphState, m: GraphState, nodes: seq<Node>, runBranch: (Node, GraphState) -> Result<GraphState>)
    requires JoinBranches(acc, m, nodes, runBranch).Ok?
    ensures Covers(JoinBranches(acc, m, nodes, runBranch).value, acc)
    ensures forall i :: 0 <= i < |nodes| ==> Covers(JoinBranches(acc, m, nodes, runBranch).value, runBranch(nodes[i], m).value)
    decreases |nodes|
  {
    if |nodes| > 0 {
      var b := runBranch(nodes[0], m).value;
      var next := MergeGraph(acc, b);
      var r := JoinBranches(acc, m, nodes, runBranch).value;
      assert r == JoinBranches(next, m, nodes[1..], runBranch).value;
      JoinCovers(next, m, nodes[1..], runBranch);
      MergeCovers(acc, b);
      CoversTrans(r, next, acc);
      CoversTrans(r, next, b);
      forall i | 0 < i < |nodes|
        ensures Covers(r, runBranch(nodes[i], m).value)
      {
        assert nodes[1..][i - 1] == nodes[i];
      }
    }
  }

  /** A merge covers both of its inputs. */
  lemma MergeCovers(a: GraphState, b: GraphState)
    ensures Covers(MergeGraph(a, b), a) && Covers(MergeGraph(a, b), b)
  {
  }

  /** Covering is transitive. */
  lemma CoversTrans(a: GraphState, b: GraphState, c: GraphState)
    requires Covers(a, b) && Covers(b, c)
    ensures Covers(a, c)
  {
  }

  /** The join is a superstep: run every branch, fail if one raised,
      otherwise merge all their states through the reducers. */
  lemma {:induction false} JoinIsGatherThenMerge(acc: GraphState, m: GraphState, nodes: seq<Node>, runBranch: (Node, GraphState) -> Result<GraphState>)
    ensures JoinBranches(acc, m, nodes, runBranch) ==
      match AllOk(BranchRuns(m, nodes, runBranch))
      case Err(e) => Err(e)
      case Ok(states) => Ok(MergeAll(acc, states))
    decreases |nodes|
  {
    if |nodes| > 0 {
      var runs := BranchRuns(m, nodes, runBranch);
      assert runs[0] == runBranch(nodes[0], m);
      assert runs[1..] == BranchRuns(m, nodes[1..], runBranch);
      match runBranch(nodes[0], m)
      case Err(e) =>
      case Ok(b) =>
        JoinIsGatherThenMerge(MergeGraph(acc, b), m, nodes[1..], runBranch);
        match AllOk(runs[1..])
        case Err(e) =>
        case Ok(rest) =>
          assert AllOk(runs) == Ok([b] + rest);
          assert ([b] + rest)[1..] == rest;
    }
  }

  /** The end of the loop: the state handed to the aggregator (or the
      exception that ended the loop) and the number of main-loop passes
      started. */
  datatype LoopEnd = LoopEnd(state: Result<GraphState>, passes: nat)

  /** The number of passes left before the iteration bound stops the loop. */
  function PassesLeft(iterations: int): nat
  {
    if iterations > MaxIterations then 0 else MaxIterations + 1 - iterations
  }

  /** The most passes a loop entered with this counter can make: one pass
      always happens. */
  function MaxPasses(iterations: int): nat
  {
    if iterations > MaxIterations then 1 else PassesLeft(iterations)
  }

  /** The main loop from state `s`: one pass of `main_loop`, then either the
      aggregator or the chosen subgraphs followed by the next pass.
      `choose` is the tool-choice model call, `runBranch` runs a subgraph;
      either may raise, which ends the loop. */
  function LoopFrom(s: GraphState, choose: GraphState -> Result<ToolChoice>, runBranch: (Node, GraphState) -> Result<GraphState>): (r: LoopEnd)
    ensures 1 <= r.passes <= MaxPasses(s.iterations)
    ensures r.state.Ok? ==> r.state.value.iterations >= s.iterations + r.passes
    ensures r.state.Ok? ==> MainLoopEdge(r.state.value) == Ok([Aggregator])
    ensures choose(s).Err? ==> r == LoopEnd(Err(choose(s).error), 1)
    decreases PassesLeft(s.iterations)
  {
    match choose(s)
    case Err(e) => LoopEnd(Err(e), 1)
    case Ok(c) =>
      var m := MainLoopStep(s, c);
      var nodes := Targets(c.tool);
      if m.iterations > MaxIterations || nodes == [Aggregator] then LoopEnd(Ok(m), 1)
      else
        match JoinBranches(m, m, nodes, runBranch)
        case Err(e) => LoopEnd(Err(e), 1)
        case Ok(j) =>
          var next := LoopFrom(j, choose, runBranch);
          LoopEnd(next.state, next.passes + 1)
  }

  /** Starting from zero iterations the main loop makes at most three passes. */
  lemma AtMostThreePasses(s: GraphState, choose: GraphState -> Result<ToolChoice>, runBranch: (Node, GraphState) -> Result<GraphState>)
    requires s.iterations == 0
    ensures LoopFrom(s, choose, runBranch).passes <= MaxIterations + 1
  {
  }

  /** Subgraphs that leave the counter and the tool history alone whenever
      they succeed. */
  ghost predicate KeepsLoopFields(runBranch: (Node, GraphState) -> Result<GraphState>)
  {
    forall n, st :: runBranch(n, st).Ok? ==>
      runBranch(n, st).value.iterations == st.iterations && runBranch(n, st).value.operations == st.operations
  }

  /** Model calls and subgraphs that never raise. */
  ghost predicate NeverFails(choose: GraphState -> Result<ToolChoice>, runBranch: (Node, GraphState) -> Result<GraphState>)
  {
    && (forall st :: choose(st).Ok?)
    && (forall n, st :: runBranch(n, st).Ok?)
  }

  /** With such subgraphs the loop ends without an exception, and every pass
      adds one to the counter and records exactly one tool set. */
  lemma {:induction false} LoopCounts(s: GraphState, choose: GraphState -> Result<ToolChoice>, runBranch: (Node, GraphState) -> Result<GraphState>)
    requires KeepsLoopFields(runBranch)
    requires NeverFails(choose, runBranch)
    ensures var r := LoopFrom(s, choose, runBranch);
      && r.state.Ok?
      && r.state.value.iterations == s.iterations + r.passes
      && |r.state.value.operations| == |s.operations| + r.passes
    decreases PassesLeft(s.iterations)
  {
    var c := choose(s).value;
    var m := MainLoopStep(s, c);
    var nodes := Targets(c.tool);
    if !(m.iterations > MaxIterations || nodes == [Aggregator]) {
      var j := JoinBranches(m, m, nodes, runBranch);
      LoopCounts(j.value, choose, runBranch);
    }
  }

  /** With such subgraphs the loop ends without an exception and the bound is
      reached exactly: if the model always picks a source, there are exactly
      three passes from zero; and every pass records exactly one tool set. */
  lemma {:induction false} PassesExactly(s: GraphState, choose: GraphState -> Result<ToolChoice>, runBranch: (Node, GraphState) -> Result<GraphState>)
    requires KeepsLoopFields(runBranch)
    requires NeverFails(choose, runBranch)
    ensures var r := LoopFrom(s, choose, runBranch);
      && r.state.Ok?
      && r.state.value.iterations == s.iterations + r.passes
      && |r.state.value.operations| == |s.operations| + r.passes
    ensures (forall st :: choose(st).Ok? && choose(st).value.tool != {}) ==>
      LoopFrom(s, choose, runBranch).passes == MaxPasses(s.iterations)
    decreases PassesLeft(s.iterations)
  {
    LoopCounts(s, choose, runBranch);
    var c := choose(s).value;
    var m := MainLoopStep(s, c);
    var nodes := Targets(c.tool);
    if !(m.iterations > MaxIterations || nodes == [Aggregator]) {
      var j := JoinBranches(m, m, nodes, runBranch);
      LoopCounts(j.value, choose, runBranch);
      PassesExactly(j.value, choose, runBranch);
    }
  }

  // -------------------------------------------------------------- aggregation

  /** `aggregator`: the model's answer becomes a successful response. */
  function AggregateStep(s: GraphState, answer: Result<string>): (r: Result<GraphState>)
    ensures r.Ok? <==> answer.Ok?
    ensures r.Ok? ==> r.value.finalResponse == Some(Success(answer.value))
    ensures r.Ok? ==> r.value.(finalResponse := s.finalResponse) == s
  {
    match answer
    case Ok(text) => Ok(s.(finalResponse := Some(Success(text))))
    case Err(e) => Err(e)
  }

  // -------------------------------------------------------- final validation

  /** What the hallucination guard is shown: page bodies and chat summaries. */
  datatype Evidence = PageBody(body: string) | ChatResult(room: ChatRoom, summary: string)

  /** The evidence of a state: every stored page's body, page list by page
      list, followed by the collected chat results. */
  function Documents(s: GraphState): (r: seq<Evidence>)
    ensures forall p :: p in Flatten(s.confluence.confluencePages) ==> PageBody(p.body) in r
    ensures forall c :: c in s.rocket.results ==> ChatResult(c.0, c.1) in r
    ensures |r| == |Flatten(s.confluence.confluencePages)| + |s.rocket.results|
    ensures forall i :: 0 <= i < |Flatten(s.confluence.confluencePages)| ==>
      r[i] == PageBody(Flatten(s.confluence.confluencePages)[i].body)
    ensures forall i :: 0 <= i < |s.rocket.results| ==>
      r[|Flatten(s.confluence.confluencePages)| + i] == ChatResult(s.rocket.results[i].0, s.rocket.results[i].1)
  {
    var pages := Flatten(s.confluence.confluencePages);
    var toBody := (p: Page) => PageBody(p.body);
    var toChat := (c: (ChatRoom, string)) => ChatResult(c.0, c.1);
    MapHas(pages, toBody);
    MapHas(s.rocket.results, toChat);
    Map(pages, toBody) + Map(s.rocket.results, toChat)
  }

  /** The downgraded message: the answer, a "Check" heading and the guard's
      observations. */
  function CheckedMessage(message: string, observations: string): (r: string)
    ensures |r| == |message| + |observations| + 15
    ensures r[..|message|] == message
    ensures r[|message| + 14..|message| + 14 + |observations|] == observations
  {
    message + "\n\n\n### Check\n\n" + observations + "\n"
  }

  /** `final_validation`. A stored rejection reason is turned into an error
      reply by the model (`explain`); then a missing response becomes the
      fatal error, a success is checked by the hallucination guard (`judge`)
      and downgraded to an error when flagged, and an error stays as it is. */
  function FinalValidationStep(s: GraphState, explain: Result<string>, judge: (seq<Evidence>, string) -> Result<Hallucination>): (r: Result<GraphState>)
    ensures r.Ok? ==> r.value.finalResponse.Some?
    ensures r.Ok? ==> r.value.(finalResponse := s.finalResponse) == s
    ensures Truthy(s.initialCheckFailed) ==>
      (r.Ok? <==> explain.Ok?) && (r.Ok? ==> r.value.finalResponse == Some(Error(explain.value)))
    ensures !Truthy(s.initialCheckFailed) && s.finalResponse.None? ==>
      r == Ok(s.(finalResponse := Some(Error(FatalMessage))))
    ensures !Truthy(s.initialCheckFailed) && s.finalResponse.Some? && s.finalResponse.value.Error? ==> r == Ok(s)
    ensures !Truthy(s.initialCheckFailed) && s.finalResponse.Some? && s.finalResponse.value.Success? ==>
      var m := s.finalResponse.value.message;
      var verdict := judge(Documents(s), m);
      && (r.Ok? <==> verdict.Ok?)
      && (r.Ok? ==> r.value.finalResponse == Some(
            if verdict.value.hallucination then Error(CheckedMessage(m, verdict.value.observations)) else Success(m)))
  {
    var pre: Result<GraphState> :=
      if Truthy(s.initialCheckFailed) then
        match explain
        case Ok(text) => Ok(s.(finalResponse := Some(Error(text))))
        case Err(e) => Err(e)
      else Ok(s);
    match pre
    case Err(e) => Err(e)
    case Ok(t) =>
      match t.finalResponse
      case None => Ok(t.(finalResponse := Some(Error(FatalMessage))))
      case Some(Error(_)) => Ok(t)
      case Some(Success(m)) =>
        match judge(Documents(t), m)
        case Err(e) => Err(e)
        case Ok(h) =>
          if h.hallucination then Ok(t.(finalResponse := Some(Error(CheckedMessage(m, h.observations)))))
          else Ok(t)
  }

  /** Validating a validated state again, with the same model answers,
      changes nothing. */
  lemma FinalValidationIdempotent(s: GraphState, explain: Result<string>, judge: (seq<Evidence>, string) -> Result<Hallucination>)
    requires FinalValidationStep(s, explain, judge).Ok?
    ensures FinalValidationStep(FinalValidationStep(s, explain, judge).value, explain, judge) == FinalValidationStep(s, explain, judge)
  {
    var t := FinalValidationStep(s, explain, judge).value;
    assert Documents(t) == Documents(s) by {
      assert t.confluence == s.confluence && t.rocket == s.rocket;
    }
  }

  // -------------------------------------------------------------- whole run

  /** The oracles of one run. Every model call and every subgraph may
      raise. */
  datatype Oracles = Oracles(
    validation: Result<Validation>,
    choose: GraphState -> Result<ToolChoice>,
    runBranch: (Node, GraphState) -> Result<GraphState>,
    answer: GraphState -> Result<string>,
    explain: Result<string>,
    judge: (seq<Evidence>, string) -> Result<Hallucination>)

  /** A run's final state (or the exception that ended it) and the number of
      main-loop passes. */
  datatype RunEnd = RunEnd(state: Result<GraphState>, passes: nat)

  /** The main graph from the initial state: verification, then either the
      final validation directly or the loop, the aggregator and the final
      validation. An exception in any node ends the run with that error. */
  function Run(o: Oracles): (r: RunEnd)
    ensures r.passes <= MaxIterations + 1
    ensures r.state.Ok? ==> r.state.value.finalResponse.Some?
    ensures o.validation.Err? ==> r == RunEnd(Err(o.validation.error), 0)
    ensures o.validation.Ok? && !o.validation.value.passed && o.validation.value.observations != "" ==>
      r.passes == 0 && (r.state.Ok? <==> o.explain.Ok?) &&
      (r.state.Ok? ==> r.state.value.finalResponse == Some(Error(o.explain.value)))
    ensures o.validation.Ok? && (o.validation.value.passed || o.validation.value.observations == "") ==>
      var l := LoopFrom(VerificationStep(Initialize(), o.validation.value), o.choose, o.runBranch);
      && r.passes == l.passes
      && (l.state.Err? ==> r.state == Err(l.state.error))
      && (l.state.Ok? ==>
            r.state == (match AggregateStep(l.state.value, o.answer(l.state.value))
                        case Err(e) => Err(e)
                        case Ok(a) => FinalValidationStep(a, o.explain, o.judge)))
  {
    match o.validation
    case Err(e) => RunEnd(Err(e), 0)
    case Ok(out) =>
      var v := VerificationStep(Initialize(), out);
      RejectionRoute(out);
      if VerificationRoute(v) == FinalValidation then
        RunEnd(FinalValidationStep(v, o.explain, o.judge), 0)
      else
        var l := LoopFrom(v, o.choose, o.runBranch);
        match l.state
        case Err(e) => RunEnd(Err(e), l.passes)
        case Ok(st) =>
          match AggregateStep(st, o.answer(st))
          case Err(e) => RunEnd(Err(e), l.passes)
          case Ok(a) => RunEnd(FinalValidationStep(a, o.explain, o.judge), l.passes)
  }

  /** Subgraphs that leave the stored rejection reason and the response
      alone whenever they succeed. */
  ghost predicate KeepsDecisions(runBranch: (Node, GraphState) -> Result<GraphState>)
  {
    forall n, st :: runBranch(n, st).Ok? ==>
      runBranch(n, st).value.initialCheckFailed == st.initialCheckFailed && runBranch(n, st).value.finalResponse == st.finalResponse
  }

  /** With model calls and subgraphs that never raise, the loop ends normally. */
  lemma {:induction false} LoopSucceeds(s: GraphState, choose: GraphState -> Result<ToolChoice>, runBranch: (Node, GraphState) -> Result<GraphState>)
    requires NeverFails(choose, runBranch)
    ensures LoopFrom(s, choose, runBranch).state.Ok?
    decreases PassesLeft(s.iterations)
  {
    var c := choose(s).value;
    var m := MainLoopStep(s, c);
    var nodes := Targets(c.tool);
    if !(m.iterations > MaxIterations || nodes == [Aggregator]) {
      LoopSucceeds(JoinBranches(m, m, nodes, runBranch).value, choose, runBranch);
    }
  }

  /** With such subgraphs the loop leaves the rejection reason and the
      response as it found them. */
  lemma {:induction false} LoopKeepsDecisions(s: GraphState, choose: GraphState -> Result<ToolChoice>, runBranch: (Node, GraphState) -> Result<GraphState>)
    requires KeepsDecisions(runBranch)
    ensures var l := LoopFrom(s, choose, runBranch);
      l.state.Ok? ==> l.state.value.initialCheckFailed == s.initialCheckFailed && l.state.value.finalResponse == s.finalResponse
    decreases PassesLeft(s.iterations)
  {
    if choose(s).Ok? {
      var c := choose(s).value;
      var m := MainLoopStep(s, c);
      var nodes := Targets(c.tool);
      if !(m.iterations > MaxIterations || nodes == [Aggregator]) {
        var j := JoinBranches(m, m, nodes, runBranch);
        if j.Ok? {
          LoopKeepsDecisions(j.value, choose, runBranch);
        }
      }
    }
  }

  /** An accepted question, with model calls and subgraphs that never raise
      and a guard that flags nothing, is answered: the run ends with the
      state the loop left, carrying the aggregator's answer as a success. */
  lemma AcceptedQuestionAnswered(o: Oracles)
    requires o.validation.Ok? && o.validation.value.passed
    requires NeverFails(o.choose, o.runBranch) && KeepsDecisions(o.runBranch)
    requires forall st :: o.answer(st).Ok?
    requires forall d, m :: o.judge(d, m).Ok? && !o.judge(d, m).value.hallucination
    ensures LoopFrom(Initialize(), o.choose, o.runBranch).state.Ok?
    ensures var st := LoopFrom(Initialize(), o.choose, o.runBranch).state.value;
      Run(o).state == Ok(st.(finalResponse := Some(Success(o.answer(st).value))))
  {
    LoopSucceeds(Initialize(), o.choose, o.runBranch);
    LoopKeepsDecisions(Initialize(), o.choose, o.runBranch);
    assert VerificationStep(Initialize(), o.validation.value) == Initialize();
  }
}

=== FILE: main_output.dfy ===
/** The terminal answer of a run: a reply or an explanation of failure. */
module MainOutput {

  datatype Response = Success(message: string) | Error(message: string)
}

=== FILE: prompts.dfy ===
/** The structured outputs the language model is asked for. Each record
    mirrors one prompt schema; the model fills it in, so in this model every
    value of these types is an oracle input. */
module Prompts {
  import opened Wrappers

  /** The information sources the main loop can dispatch to. */
  datatype Tool = RocketChat | Confluence

  /** Answer of the input check: may the question be worked on? */
  datatype Validation = Validation(observations: string, passed: bool)

  /** The main loop's decision: which sources to query next (possibly none). */
  datatype ToolChoice = ToolChoice(observations: string, tool: set<Tool>)

  /** Verdict of the hallucination guard on one claim. */
  datatype Hallucination = Hallucination(observations: string, hallucination: bool)

  /** Optional narrowing expression for the chat room catalog. */
  datatype ChannelSelection = ChannelSelection(extractedIdentifiers: Option<seq<string>>, regularExpression: Option<string>)

  /** An optional summary, of a wiki page or of a chat room's hits. */
  datatype Summary = Summary(summary: Option<string>)

  /** Keywords for the next chat search. */
  datatype RegexSearch = RegexSearch(observations: string, keywords: seq<string>)
}

=== FILE: ranking.dfy ===
/** Ranking by distance: Python's `sorted(xs, key=lambda x: x[0])` on
    (distance, item) pairs followed by a slice `[:k]`. Python's sort is
    stable, so items with the same distance keep their input order; the sort
    is modelled as an insertion sort with that property. */
module Ranking {
  import opened Seqs

  /** An item with its distance to the question; smaller is closer. */
  datatype Scored<T> = Scored(score: int, item: T)

  /** Ascending by score. */
  predicate Sorted<T>(s: seq<Scored<T>>)
  {
    forall i, j :: 0 <= i < j < |s| ==> s[i].score <= s[j].score
  }

  /** Inserts `x` before the first element whose score is not smaller. */
  function Insert<T>(x: Scored<T>, s: seq<Scored<T>>): seq<Scored<T>>
  {
    if |s| == 0 then [x]
    else if x.score <= s[0].score then [x] + s
    else [s[0]] + Insert(x, s[1..])
  }

  /** `sorted(s, key=lambda x: x[0])`. */
  function SortByScore<T>(s: seq<Scored<T>>): (r: seq<Scored<T>>)
    ensures |r| == |s|
  {
    if |s| == 0 then []
    else
      InsertLength(s[0], SortByScore(s[1..]));
      Insert(s[0], SortByScore(s[1..]))
  }

  function Min(a: int, b: int): int
  {
    if a < b then a else b
  }

  /** `sorted(s, key=...)[:k]`: the k closest items. */
  function TopK<T>(s: seq<Scored<T>>, k: nat): (r: seq<Scored<T>>)
    ensures |r| == Min(k, |s|)
  {
    SortByScore(s)[..Min(k, |s|)]
  }

  lemma {:induction false} InsertLength<T>(x: Scored<T>, s: seq<Scored<T>>)
    ensures |Insert(x, s)| == |s| + 1
  {
    if |s| > 0 && x.score > s[0].score {
      InsertLength(x, s[1..]);
    }
  }

  lemma {:induction false} InsertPermutation<T>(x: Scored<T>, s: seq<Scored<T>>)
    ensures multiset(Insert(x, s)) == multiset{x} + multiset(s)
  {
    if |s| > 0 && x.score > s[0].score {
      InsertPermutation(x, s[1..]);
      assert s == [s[0]] + s[1..];
    }
  }

  /** Sorting only reorders: the result holds every item as often as the input. */
  lemma {:induction false} SortPermutation<T>(s: seq<Scored<T>>)
    ensures multiset(SortByScore(s)) == multiset(s)
  {
    if |s| > 0 {
      SortPermutation(s[1..]);
      InsertPermutation(s[0], SortByScore(s[1..]));
      assert s == [s[0]] + s[1..];
    }
  }

  lemma {:induction false} InsertSorted<T>(x: Scored<T>, s: seq<Scored<T>>)
    requires Sorted(s)
    ensures Sorted(Insert(x, s))
    ensures |Insert(x, s)| > 0 && Insert(x, s)[0] == (if |s| == 0 || x.score <= s[0].score then x else s[0])
  {
    if |s| > 0 && x.score > s[0].score {
      InsertSorted(x, s[1..]);
      var r := Insert(x, s[1..]);
      InsertLength(x, s[1..]);
      InsertPermutation(x, s[1..]);
      forall j | 0 < j < |r| + 1
        ensures s[0].score <= ([s[0]] + r)[j].score
      {
        var y := r[j - 1];
        assert y in multiset(r);
        assert y == x || y in multiset(s[1..]);
      }
    }
  }

  /** Sorting orders by score. */
  lemma {:induction false} SortSorted<T>(s: seq<Scored<T>>)
    ensures Sorted(SortByScore(s))
  {
    if |s| > 0 {
      SortSorted(s[1..]);
      InsertSorted(s[0], SortByScore(s[1..]));
    }
  }

  /** The items with score `k`, in order. */
  function WithScore<T(!new)>(s: seq<Scored<T>>, k: int): seq<Scored<T>>
  {
    Filter(s, (x: Scored<T>) => x.score == k)
  }

  lemma {:induction false} InsertWithScore<T(!new)>(x: Scored<T>, s: seq<Scored<T>>, k: int)
    ensures WithScore(Insert(x, s), k) == if x.score == k then [x] + WithScore(s, k) else WithScore(s, k)
  {
    if |s| > 0 && x.score > s[0].score {
      InsertWithScore(x, s[1..], k);
      assert Insert(x, s) == [s[0]] + Insert(x, s[1..]);
    }
  }

  /** The sort is stable: among items of equal score it keeps the input order. */
  lemma {:induction false} SortStable<T(!new)>(s: seq<Scored<T>>, k: int)
    ensures WithScore(SortByScore(s), k) == WithScore(s, k)
  {
    if |s| > 0 {
      SortStable(s[1..], k);
      InsertWithScore(s[0], SortByScore(s[1..]), k);
    }
  }

  /** The slice keeps the closest items: the kept items are sorted and each
      is at least as close as each item the slice drops. */
  lemma TopKClosest<T>(s: seq<Scored<T>>, k: nat)
    ensures Sorted(TopK(s, k))
    ensures forall i, j :: 0 <= i < |TopK(s, k)| <= j < |s| ==> TopK(s, k)[i].score <= SortByScore(s)[j].score
  {
    SortSorted(s);
  }

  /** The kept items all come from the input. */
  lemma TopKFromInput<T>(s: seq<Scored<T>>, k: nat)
    ensures multiset(TopK(s, k)) <= multiset(s)
    ensures forall x :: x in TopK(s, k) ==> x in s
  {
    var t := SortByScore(s);
    SortPermutation(s);
    var m := Min(k, |s|);
    assert t == t[..m] + t[m..];
    forall x | x in TopK(s, k)
      ensures x in s
    {
      assert x in multiset(TopK(s, k));
      assert multiset(TopK(s, k))[x] <= multiset(s)[x];
    }
  }
}

=== FILE: rocket_client.dfy ===
/** The chat system client: room records, thread expansion of search hits,
    dropping rooms without hits, the paginated listing loop and the room
    catalog. Every HTTP request is an oracle parameter. */
module RocketClient {
  import opened Wrappers
  import opened Seqs

  /** A chat room. `roomType` is the raw API tag: "c" for channels, "d" for
      direct messages; other tags are kept as they come. */
  datatype ChatRoom = ChatRoom(
    roomId: string,
    roomType: string,
    usernames: Option<seq<string>>,
    name: Option<string>,
    description: Option<string>,
    url: string)

  /** A room record as the listing endpoints deliver it. */
  datatype RawRoom = RawRoom(id: string, t: string, uids: Option<seq<string>>, name: Option<string>, description: Option<string>)

  /** A chat message; `threadId` is the id of the thread it belongs to, if any. */
  datatype Message = Message(
    message: string,
    messageId: string,
    threadId: Option<string>,
    username: string,
    userId: string,
    timestamp: string)

  /** One entry of a room's expanded search result: a hit outside any thread,
      or the full message list of a thread that had a hit. */
  datatype ChatItem = Single(msg: Message) | Thread(msgs: seq<Message>)

  /** A room together with its expanded search hits. */
  type RoomHits = (ChatRoom, seq<ChatItem>)

  /** One response of a paginated listing: its items and its `count` field. */
  datatype ApiPage<T> = ApiPage(items: seq<T>, count: Option<int>)

  const DefaultStepSize := 50
  const DefaultMaxMessages := 50

  // ---------------------------------------------------------------- rooms

  /** The web link of a room: `base/channel/id` for channels, `base/direct/id` otherwise. */
  function RoomUrl(baseUrl: string, t: string, id: string): (r: string)
    ensures |r| == |baseUrl| + 2 + (if t == "c" then 7 else 6) + |id|
    ensures r[..|baseUrl| + 1] == baseUrl + "/"
    ensures r[|baseUrl| + 1] == (if t == "c" then 'c' else 'd')
    ensures r[|r| - |id| - 1..] == "/" + id
  {
    baseUrl + "/" + (if t == "c" then "channel" else "direct") + "/" + id
  }

  /** Two rooms of one server get the same link only if they have the same id
      and are both channels or both not channels. */
  lemma RoomUrlInjective(baseUrl: string, t1: string, id1: string, t2: string, id2: string)
    requires RoomUrl(baseUrl, t1, id1) == RoomUrl(baseUrl, t2, id2)
    ensures (t1 == "c") == (t2 == "c")
    ensures id1 == id2
  {
    var u := RoomUrl(baseUrl, t1, id1);
    assert u[|baseUrl| + 1] == RoomUrl(baseUrl, t2, id2)[|baseUrl| + 1];
    assert |id1| == |id2|;
    assert id1 == u[|u| - |id1|..];
  }

  /** The rooms of one listing response, with their links. */
  function FromApiResult(baseUrl: string, raws: seq<RawRoom>): seq<ChatRoom>
  {
    seq(|raws|, i requires 0 <= i < |raws| =>
      ChatRoom(raws[i].id, raws[i].t, raws[i].uids, raws[i].name, raws[i].description,
               RoomUrl(baseUrl, raws[i].t, raws[i].id)))
  }

  // -------------------------------------------------------- thread expansion

  /** A message belongs to a thread when its thread id is set and non-empty. */
  predicate IsThreaded(m: Message)
  {
    m.threadId.Some? && m.threadId.value != ""
  }

  predicate NotThreaded(m: Message)
  {
    !IsThreaded(m)
  }

  /** The distinct thread ids among the hits. */
  function ThreadIds(hits: seq<Message>): set<string>
  {
    if |hits| == 0 then {}
    else (if IsThreaded(hits[0]) then {hits[0].threadId.value} else {}) + ThreadIds(hits[1..])
  }

  /** The number of hits outside any thread. */
  function NonThreadCount(hits: seq<Message>): nat
  {
    |Filter(hits, NotThreaded)|
  }

  /** The hits that were kept as single messages, in order. */
  function Singles(items: seq<ChatItem>): seq<Message>
  {
    if |items| == 0 then []
    else if items[0].Single? then [items[0].msg] + Singles(items[1..])
    else Singles(items[1..])
  }

  /** Reference definition of the expansion loop: threads whose id is in
      `seen` were already expanded and their later hits are skipped. */
  function Expand(hits: seq<Message>, seen: set<string>, thread: string -> seq<Message>): seq<ChatItem>
  {
    if |hits| == 0 then []
    else
      var m := hits[0];
      if IsThreaded(m) && m.threadId.value !in seen then
        [Thread(thread(m.threadId.value))] + Expand(hits[1..], seen + {m.threadId.value}, thread)
      else if IsThreaded(m) then
        Expand(hits[1..], seen, thread)
      else
        [Single(m)] + Expand(hits[1..], seen, thread)
  }

  /** Each entry of the expansion is a hit outside any thread, or the
      messages of a thread not in `seen` that one of the hits belongs to. */
  lemma {:induction false} ExpandEntries(hits: seq<Message>, seen: set<string>, thread: string -> seq<Message>)
    ensures forall x :: x in Expand(hits, seen, thread) && x.Single? ==> x.msg in hits && !IsThreaded(x.msg)
    ensures forall x :: x in Expand(hits, seen, thread) && x.Thread? ==>
      exists m :: m in hits && IsThreaded(m) && m.threadId.value !in seen && x.msgs == thread(m.threadId.value)
  {
    if |hits| > 0 {
      var m := hits[0];
      assert forall x :: x in hits[1..] ==> x in hits;
      if IsThreaded(m) && m.threadId.value !in seen {
        ExpandEntries(hits[1..], seen + {m.threadId.value}, thread);
      } else {
        ExpandEntries(hits[1..], seen, thread);
      }
    }
  }

  /** One result entry per hit outside a thread plus one per thread not yet
      expanded: each thread is expanded exactly once. */
  lemma {:induction false} ExpandCount(hits: seq<Message>, seen: set<string>, thread: string -> seq<Message>)
    ensures |Expand(hits, seen, thread)| == NonThreadCount(hits) + |ThreadIds(hits) - seen|
  {
    if |hits| > 0 {
      var m := hits[0];
      var tail := hits[1..];
      if IsThreaded(m) && m.threadId.value !in seen {
        var t := m.threadId.value;
        ExpandCount(tail, seen + {t}, thread);
        assert NonThreadCount(hits) == NonThreadCount(tail);
        NewThreadCounted(t, ThreadIds(tail), seen);
      } else if IsThreaded(m) {
        ExpandCount(tail, seen, thread);
        assert NonThreadCount(hits) == NonThreadCount(tail);
        assert ThreadIds(hits) - seen == ThreadIds(tail) - seen;
      } else {
        ExpandCount(tail, seen, thread);
        assert NonThreadCount(hits) == 1 + NonThreadCount(tail);
        assert ThreadIds(hits) == ThreadIds(tail);
      }
    }
  }

  /** A thread id not seen yet adds exactly one to the unseen ids. */
  lemma NewThreadCounted(t: string, ids: set<string>, seen: set<string>)
    requires t !in seen
    ensures |({t} + ids) - seen| == 1 + |ids - (seen + {t})|
  {
    var rest := ids - (seen + {t});
    assert ({t} + ids) - seen == {t} + rest;
    assert t !in rest;
  }

  /** Hits outside any thread are kept as they are, in their original order. */
  lemma {:induction false} ExpandKeepsSingles(hits: seq<Message>, seen: set<string>, thread: string -> seq<Message>)
    ensures Singles(Expand(hits, seen, thread)) == Filter(hits, NotThreaded)
  {
    if |hits| > 0 {
      var m := hits[0];
      if IsThreaded(m) && m.threadId.value !in seen {
        ExpandKeepsSingles(hits[1..], seen + {m.threadId.value}, thread);
        var e := Expand(hits, seen, thread);
        assert e[1..] == Expand(hits[1..], seen + {m.threadId.value}, thread);
      } else if IsThreaded(m) {
        ExpandKeepsSingles(hits[1..], seen, thread);
      } else {
        ExpandKeepsSingles(hits[1..], seen, thread);
        var e := Expand(hits, seen, thread);
        assert e[1..] == Expand(hits[1..], seen, thread);
      }
    }
  }

  /** What one hit contributes to the expansion, and the ids seen after it. */
  function StepItems(m: Message, seen: set<string>, thread: string -> seq<Message>): seq<ChatItem>
  {
    if IsThreaded(m) && m.threadId.value !in seen then [Thread(thread(m.threadId.value))]
    else if IsThreaded(m) then []
    else [Single(m)]
  }

  function StepSeen(m: Message, seen: set<string>): set<string>
  {
    if IsThreaded(m) then seen + {m.threadId.value} else seen
  }

  /** One step of the expansion, taken at position i. */
  lemma ExpandAt(hits: seq<Message>, i: nat, seen: set<string>, thread: string -> seq<Message>)
    requires i < |hits|
    ensures Expand(hits[i..], seen, thread)
         == StepItems(hits[i], seen, thread) + Expand(hits[i + 1..], StepSeen(hits[i], seen), thread)
  {
    assert hits[i..][0] == hits[i];
    assert hits[i..][1..] == hits[i + 1..];
    if IsThreaded(hits[i]) && hits[i].threadId.value in seen {
      assert StepSeen(hits[i], seen) == seen;
    }
  }

  /** `search_room`: expands the search hits of one room, fetching each
      thread at most once. */
  method SearchRoom(chat: ChatRoom, hits: seq<Message>, thread: string -> seq<Message>)
    returns (room: ChatRoom, items: seq<ChatItem>)
    ensures room == chat
    ensures items == Expand(hits, {}, thread)
    ensures |items| == NonThreadCount(hits) + |ThreadIds(hits)|
    ensures Singles(items) == Filter(hits, NotThreaded)
  {
    items := ExpandHits(hits, thread);
    room := chat;
    ExpandCount(hits, {}, thread);
    ExpandKeepsSingles(hits, {}, thread);
  }

  /** The loop of `search_room` over the hits, with the set of thread ids
      already expanded. */
  method ExpandHits(hits: seq<Message>, thread: string -> seq<Message>) returns (items: seq<ChatItem>)
    ensures items == Expand(hits, {}, thread)
  {
    items := [];
    var seen: set<string> := {};
    var i := 0;
    while i < |hits|
      invariant 0 <= i <= |hits|
      invariant items + Expand(hits[i..], seen, thread) == Expand(hits, {}, thread)
    {
      var m := hits[i];
      ghost var before, step, after := items, StepItems(m, seen, thread), StepSeen(m, seen);
      assert items + Expand(hits[i..], seen, thread) == (items + step) + Expand(hits[i + 1..], after, thread) by {
        ExpandAt(hits, i, seen, thread);
        assert items + (step + Expand(hits[i + 1..], after, thread)) == (items + step) + Expand(hits[i + 1..], after, thread);
      }
      if m.threadId.Some? && m.threadId.value != "" && m.threadId.value !in seen {
        items := items + [Thread(thread(m.threadId.value))];
        seen := seen + {m.threadId.value};
      } else if m.threadId.Some? && m.threadId.value != "" && m.threadId.value in seen {
        // the thread was already expanded
        assert step == [] && items + step == items;
      } else {
        items := items + [Single(m)];
      }
      assert items == before + step && seen == after;
      i := i + 1;
    }
    assert hits[|hits|..] == [];
  }

  /** `search_text`: searches every room and keeps the rooms with at least
      one result, in the order of `chats`. `chatSearch(roomId, pattern)` is
      the search endpoint and `thread(id)` the thread endpoint. */
  function SearchText(pattern: string, chats: seq<ChatRoom>,
                      chatSearch: (string, string) -> seq<Message>,
                      thread: string -> seq<Message>): (r: seq<RoomHits>)
    ensures |r| <= |chats|
    ensures forall x :: x in r ==>
      x.0 in chats && |x.1| > 0 && x.1 == Expand(chatSearch(x.0.roomId, pattern), {}, thread)
    ensures forall i :: 0 <= i < |chats| && |Expand(chatSearch(chats[i].roomId, pattern), {}, thread)| > 0 ==>
      (chats[i], Expand(chatSearch(chats[i].roomId, pattern), {}, thread)) in r
    ensures IsSubsequence(r, SearchAll(pattern, chats, chatSearch, thread))
  {
    var all := SearchAll(pattern, chats, chatSearch, thread);
    FilterIsSubsequence(all, HasHits);
    forall i | 0 <= i < |chats| && |Expand(chatSearch(chats[i].roomId, pattern), {}, thread)| > 0
      ensures (chats[i], Expand(chatSearch(chats[i].roomId, pattern), {}, thread)) in Filter(all, HasHits)
    {
      assert all[i] in all && HasHits(all[i]);
    }
    Filter(all, HasHits)
  }

  predicate HasHits(r: RoomHits)
  {
    |r.1| > 0
  }

  /** Every room paired with its expanded hits, before filtering: one entry
      per room, in order, holding one item per hit outside a thread (those
      hits themselves, in order) and one per distinct thread hit. */
  function SearchAll(pattern: string, chats: seq<ChatRoom>,
                     chatSearch: (string, string) -> seq<Message>,
                     thread: string -> seq<Message>): (r: seq<RoomHits>)
    ensures |r| == |chats|
    ensures forall i :: 0 <= i < |chats| ==>
      var hits := chatSearch(chats[i].roomId, pattern);
      && r[i].0 == chats[i]
      && |r[i].1| == NonThreadCount(hits) + |ThreadIds(hits)|
      && Singles(r[i].1) == Filter(hits, NotThreaded)
  {
    var r := seq(|chats|, i requires 0 <= i < |chats| =>
      (chats[i], Expand(chatSearch(chats[i].roomId, pattern), {}, thread)));
    forall i | 0 <= i < |chats|
      ensures |r[i].1| == NonThreadCount(chatSearch(chats[i].roomId, pattern)) + |ThreadIds(chatSearch(chats[i].roomId, pattern))|
      ensures Singles(r[i].1) == Filter(chatSearch(chats[i].roomId, pattern), NotThreaded)
    {
      var hits := chatSearch(chats[i].roomId, pattern);
      ExpandCount(hits, {}, thread);
      ExpandKeepsSingles(hits, {}, thread);
      assert ThreadIds(hits) - {} == ThreadIds(hits);
    }
    r
  }

  // -------------------------------------------------------------- pagination

  /** `response.get("count", 0)`. */
  function CountOf<T>(page: ApiPage<T>): int
  {
    match page.count
    case None => 0
    case Some(c) => c
  }

  /** The items of the responses at the given offsets, in request order. */
  function ItemsAt<T>(get: int -> ApiPage<T>, offsets: seq<int>): seq<T>
  {
    if |offsets| == 0 then []
    else ItemsAt(get, offsets[..|offsets| - 1]) + get(offsets[|offsets| - 1]).items
  }

  /** The k-th request offset, `k * step`, built by repeated addition as the
      loop builds it. */
  function Nth(k: nat, step: int): int
  {
    if k == 0 then 0 else Nth(k - 1, step) + step
  }

  lemma {:induction false} NthValue(k: nat, step: int)
    requires step > 0
    ensures Nth(k, step) == k * step
    ensures Nth(k, step) >= 0
    ensures k >= 1 ==> Nth(k, step) >= step
  {
    if k > 0 {
      NthValue(k - 1, step);
      assert k * step == (k - 1) * step + step;
    }
  }

  /** The first `n` request offsets of a listing: 0, step, 2*step, ... */
  function Offsets(n: nat, step: int): seq<int>
  {
    if n == 0 then [] else Offsets(n - 1, step) + [Nth(n - 1, step)]
  }

  lemma {:induction false} OffsetsValues(n: nat, step: int)
    requires step > 0
    ensures |Offsets(n, step)| == n
    ensures forall k :: 0 <= k < n ==> Offsets(n, step)[k] == k * step
  {
    if n > 0 {
      OffsetsValues(n - 1, step);
      NthValue(n - 1, step);
    }
  }

  /** `retrieve_all_items`: requests offsets 0, step, 2*step, ... and stops
      after a response whose count is below the step size, or once the
      counter reaches `maxMessages`; so every request but the first starts
      below `maxMessages` (at most ceiling(maxMessages / step) requests).
      Returns the items and the requested offsets. */
  method RetrieveAllItems<T>(stepSize: int, maxMessages: int, get: int -> ApiPage<T>)
    returns (items: seq<T>, offsets: seq<int>)
    requires stepSize > 0
    ensures maxMessages > 0 ==> 1 <= |offsets| && (|offsets| - 1) * stepSize < maxMessages
    ensures maxMessages <= 0 ==> offsets == []
    ensures 0 < maxMessages <= stepSize ==> |offsets| == 1
    ensures forall k :: 0 <= k < |offsets| ==> offsets[k] == k * stepSize
    ensures forall k :: 0 <= k < |offsets| - 1 ==> CountOf(get(offsets[k])) >= stepSize
    ensures items == ItemsAt(get, offsets)
    ensures |offsets| > 0 ==> CountOf(get(offsets[|offsets| - 1])) < stepSize || |offsets| * stepSize >= maxMessages
  {
    items := [];
    offsets := [];
    var offset := 0;
    var i := 0;
    ghost var n: nat := 0;
    while i < maxMessages
      invariant |offsets| == n
      invariant i == offset == Nth(n, stepSize)
      invariant n == 0 || Nth(n - 1, stepSize) < maxMessages
      invariant offsets == Offsets(n, stepSize)
      invariant forall k :: 0 <= k < n ==> CountOf(get(offsets[k])) >= stepSize
      invariant items == ItemsAt(get, offsets)
      decreases maxMessages - i
    {
      var page := get(offset);
      ghost var before := offsets;
      items := items + page.items;
      offsets := offsets + [offset];
      assert offsets[..n] == before;
      n := n + 1;
      offset := offset + stepSize;
      if CountOf(page) < stepSize {
        break;
      }
      i := i + stepSize;
    }
    OffsetsValues(n, stepSize);
    NthValue(n, stepSize);
    if n > 0 {
      NthValue(n - 1, stepSize);
    }
  }

  // ------------------------------------------------------------ room catalog

  /** The user names of a direct room's members, or the first lookup failure. */
  function ResolveNames(uids: seq<string>, userName: string -> Result<string>): (r: Result<seq<string>>)
    ensures r.Ok? <==> forall i :: 0 <= i < |uids| ==> userName(uids[i]).Ok?
    ensures r.Ok? ==> |r.value| == |uids| && forall i :: 0 <= i < |uids| ==> userName(uids[i]) == Ok(r.value[i])
  {
    var calls := seq(|uids|, i requires 0 <= i < |uids| => userName(uids[i]));
    assert forall i :: 0 <= i < |uids| ==> calls[i] == userName(uids[i]);
    AllOk(calls)
  }

  /** Replaces the member ids of a direct room by their user names; a room
      without member list makes the iteration raise. */
  function ResolveDm(dm: ChatRoom, userName: string -> Result<string>): Result<ChatRoom>
  {
    if dm.usernames.None? then Err("TypeError: 'NoneType' object is not iterable")
    else
      match ResolveNames(dm.usernames.value, userName)
      case Err(e) => Err(e)
      case Ok(names) => Ok(dm.(usernames := Some(names)))
  }

  /** Every direct room has a member list and every member's name lookup
      returns. */
  predicate NamesResolve(dms: seq<RawRoom>, userName: string -> Result<string>)
  {
    forall i :: 0 <= i < |dms| ==> dms[i].uids.Some? && ResolveNames(dms[i].uids.value, userName).Ok?
  }

  /** `retrieve_all_rooms`: joined channels first, then direct rooms with
      resolved member names; any failure yields the empty catalog. */
  function RetrieveAllRooms(baseUrl: string, channels: Result<seq<RawRoom>>, dms: Result<seq<RawRoom>>,
                            userName: string -> Result<string>): (r: seq<ChatRoom>)
    ensures channels.Err? || dms.Err? ==> r == []
    ensures channels.Ok? && dms.Ok? && !NamesResolve(dms.value, userName) ==> r == []
    ensures channels.Ok? && dms.Ok? && NamesResolve(dms.value, userName) ==>
      && |r| == |channels.value| + |dms.value|
      && r[..|channels.value|] == FromApiResult(baseUrl, channels.value)
      && forall i :: 0 <= i < |dms.value| ==>
           r[|channels.value| + i] ==
             FromApiResult(baseUrl, dms.value)[i].(usernames := Some(ResolveNames(dms.value[i].uids.value, userName).value))
    ensures r != [] ==>
      && channels.Ok? && dms.Ok?
      && |r| == |channels.value| + |dms.value|
      && r[..|channels.value|] == FromApiResult(baseUrl, channels.value)
      && forall i :: 0 <= i < |dms.value| ==>
           var d := r[|channels.value| + i];
           && d.roomId == dms.value[i].id
           && d.roomType == dms.value[i].t
           && dms.value[i].uids.Some?
           && d.usernames.Some? && |d.usernames.value| == |dms.value[i].uids.value|
  {
    if channels.Err? || dms.Err? then []
    else
      var chs := FromApiResult(baseUrl, channels.value);
      var ds := FromApiResult(baseUrl, dms.value);
      var calls := seq(|ds|, i requires 0 <= i < |ds| => ResolveDm(ds[i], userName));
      match AllOk(calls)
      case Err(_) => []
      case Ok(resolved) =>
        assert NamesResolve(dms.value, userName) by {
          forall i | 0 <= i < |dms.value|
            ensures dms.value[i].uids.Some? && ResolveNames(dms.value[i].uids.value, userName).Ok?
          {
            assert calls[i] == ResolveDm(ds[i], userName) && calls[i].Ok?;
          }
        }
        chs + resolved
  }
}

=== FILE: rocket_graph.dfy ===
/** The chat sub-graph: `build_search_pattern` loads and narrows the room
    catalog when there is none yet and records the model's next keyword
    list; `search` runs the chat search tool, ranks the rooms with hits by
    embedding distance, summarises the closest three and records the
    non-empty summaries. The catalog, the model's answers, the compiled room
    pattern, the embedding distance and the summariser are oracles. */
module RocketGraph {
  import opened Wrappers
  import opened Seqs
  import opened Prompts
  import opened Keywords
  import opened RocketClient
  import opened State
  import opened Embedding
  import opened Ranking
  import opened RocketTool

  /** The number of ranked rooms that are summarised. */
  const TopRooms := 3

  // ------------------------------------------------------- room selection

  predicate IsChannel(c: ChatRoom)
  {
    c.roomType == "c"
  }

  predicate IsDirect(c: ChatRoom)
  {
    c.roomType == "d"
  }

  /** A room the selection pattern keeps: a channel whose name matches, or a
      direct room one of whose members' names matches. `matches` is the
      compiled case-insensitive pattern applied at the start of a string. */
  predicate Selected(matches: string -> bool, c: ChatRoom)
  {
    || (IsChannel(c) && c.name.Some? && matches(c.name.value))
    || (IsDirect(c) && c.usernames.Some? && exists u :: u in c.usernames.value && matches(u))
  }

  /** A room the pattern cannot be applied to: a channel without a name or a
      direct room without a member list. */
  predicate Unmatchable(c: ChatRoom)
  {
    (IsChannel(c) && c.name.None?) || (IsDirect(c) && c.usernames.None?)
  }

  /** The selected channels, in catalog order. */
  function SelectedChannels(rooms: seq<ChatRoom>, matches: string -> bool): (r: seq<ChatRoom>)
    ensures forall c :: c in r <==> c in rooms && IsChannel(c) && Selected(matches, c)
    ensures IsSubsequence(r, rooms)
  {
    FilterIsSubsequence(rooms, (c: ChatRoom) => IsChannel(c) && Selected(matches, c));
    Filter(rooms, (c: ChatRoom) => IsChannel(c) && Selected(matches, c))
  }

  /** The selected direct rooms, in catalog order. */
  function SelectedDirect(rooms: seq<ChatRoom>, matches: string -> bool): (r: seq<ChatRoom>)
    ensures forall c :: c in r <==> c in rooms && IsDirect(c) && Selected(matches, c)
    ensures IsSubsequence(r, rooms)
  {
    FilterIsSubsequence(rooms, (c: ChatRoom) => IsDirect(c) && Selected(matches, c));
    Filter(rooms, (c: ChatRoom) => IsDirect(c) && Selected(matches, c))
  }

  /** The selected channels followed by the selected direct rooms. */
  function Matching(rooms: seq<ChatRoom>, matches: string -> bool): (r: seq<ChatRoom>)
    ensures forall c :: c in r <==> c in rooms && Selected(matches, c)
  {
    SelectedChannels(rooms, matches) + SelectedDirect(rooms, matches)
  }

  /** `update_channels`: the selected rooms, or the catalog unchanged when
      nothing matches, so a non-empty catalog never becomes empty. Rooms of
      any other type are dropped by a selection that applies. Matching a
      missing name or member list raises. */
  function UpdateChannels(rooms: seq<ChatRoom>, matches: string -> bool): (r: Result<seq<ChatRoom>>)
    ensures r.Err? <==> exists c :: c in rooms && Unmatchable(c)
    ensures r.Ok? ==> forall c :: c in r.value ==> c in rooms
    ensures r.Ok? ==> (|r.value| == 0 <==> |rooms| == 0)
    ensures r.Ok? && (exists c :: c in rooms && Selected(matches, c)) ==>
      forall c :: c in r.value <==> c in rooms && Selected(matches, c)
    ensures r.Ok? && !(exists c :: c in rooms && Selected(matches, c)) ==> r.value == rooms
  {
    if exists c :: c in rooms && Unmatchable(c) then
      Err("TypeError: expected string or bytes-like object")
    else
      var selected := Matching(rooms, matches);
      assert |selected| > 0 ==> selected[0] in selected;
      if |selected| > 0 then Ok(selected) else Ok(rooms)
  }

  /** In the selected rooms every channel comes before every direct room. */
  lemma MatchingGrouped(rooms: seq<ChatRoom>, matches: string -> bool)
    ensures var m := Matching(rooms, matches);
      forall i, j :: 0 <= i < j < |m| && IsDirect(m[i]) ==> IsDirect(m[j])
  {
    var ch := SelectedChannels(rooms, matches);
    var di := SelectedDirect(rooms, matches);
    var m := ch + di;
    forall i, j | 0 <= i < j < |m| && IsDirect(m[i])
      ensures IsDirect(m[j])
    {
      if i >= |ch| {
        assert m[j] == di[j - |ch|] && di[j - |ch|] in di;
      }
    }
  }

  /** The selected channels and the selected direct rooms keep catalog order. */
  lemma MatchingInOrder(rooms: seq<ChatRoom>, matches: string -> bool)
    ensures var m := Matching(rooms, matches);
      IsSubsequence(Filter(m, IsChannel), rooms) && IsSubsequence(Filter(m, IsDirect), rooms)
  {
    var ch := SelectedChannels(rooms, matches);
    var di := SelectedDirect(rooms, matches);
    FilterConcat(ch, di, IsChannel);
    FilterConcat(ch, di, IsDirect);
    FilterAll(ch, IsChannel);
    FilterNone(di, IsChannel);
    FilterNone(ch, IsDirect);
    FilterAll(di, IsDirect);
    assert ch + [] == ch && [] + di == di;
  }

  /** A selection that applies lists every selected channel before every
      selected direct room, each group in catalog order. */
  lemma SelectionOrder(rooms: seq<ChatRoom>, matches: string -> bool)
    requires UpdateChannels(rooms, matches).Ok?
    requires exists c :: c in rooms && Selected(matches, c)
    ensures var r := UpdateChannels(rooms, matches).value;
      forall i, j :: 0 <= i < j < |r| && IsDirect(r[i]) ==> IsDirect(r[j])
    ensures var r := UpdateChannels(rooms, matches).value;
      IsSubsequence(Filter(r, IsChannel), rooms) && IsSubsequence(Filter(r, IsDirect), rooms)
  {
    assert UpdateChannels(rooms, matches).value == Matching(rooms, matches) by {
      var c :| c in rooms && Selected(matches, c);
      assert c in Matching(rooms, matches);
    }
    MatchingGrouped(rooms, matches);
    MatchingInOrder(rooms, matches);
  }

  /** The rooms to search: when the state has none, the catalog narrowed by
      the model's selection pattern if it gave a non-empty one. A model call
      that raises, a pattern that does not compile or a failed match
      fails the node. */
  function SelectRooms(catalog: seq<ChatRoom>, selection: Result<ChannelSelection>,
                       compile: string -> Result<string -> bool>): (r: Result<seq<ChatRoom>>)
    ensures r.Ok? ==> forall c :: c in r.value ==> c in catalog
    ensures r.Ok? ==> (|r.value| == 0 <==> |catalog| == 0)
    ensures r.Ok? <==> (selection.Ok? &&
      (Truthy(selection.value.regularExpression) ==>
        compile(selection.value.regularExpression.value).Ok? &&
        UpdateChannels(catalog, compile(selection.value.regularExpression.value).value).Ok?))
    ensures r.Ok? && !Truthy(selection.value.regularExpression) ==> r.value == catalog
    ensures r.Ok? && Truthy(selection.value.regularExpression) ==>
      r == UpdateChannels(catalog, compile(selection.value.regularExpression.value).value)
  {
    match selection
    case Err(e) => Err(e)
    case Ok(sel) =>
      if !Truthy(sel.regularExpression) then Ok(catalog)
      else
        match compile(sel.regularExpression.value)
        case Err(e) => Err(e)
        case Ok(m) => UpdateChannels(catalog, m)
  }

  /** `build_search_pattern`: rooms are loaded (`catalog`, the result of
      `retrieve_all_rooms`) and narrowed only while the state has none, so an
      empty catalog is loaded again on the next pass; the model's keyword list
      is appended to the history and the results are untouched. */
  function BuildSearchPattern(rs: RocketChatState, catalog: seq<ChatRoom>,
                              selection: Result<ChannelSelection>,
                              compile: string -> Result<string -> bool>,
                              keywords: Result<RegexSearch>): (r: Result<RocketChatState>)
    ensures r.Ok? ==> keywords.Ok?
    ensures r.Ok? ==> r.value.searchPatterns == rs.searchPatterns + [keywords.value.keywords]
    ensures r.Ok? ==> r.value.results == rs.results
    ensures |rs.chatRooms| > 0 ==> (r.Ok? <==> keywords.Ok?) && (r.Ok? ==> r.value.chatRooms == rs.chatRooms)
    ensures |rs.chatRooms| == 0 && r.Ok? ==>
      && (forall c :: c in r.value.chatRooms ==> c in catalog)
      && (|r.value.chatRooms| == 0 <==> |catalog| == 0)
    ensures |rs.chatRooms| == 0 ==>
      && (r.Ok? <==> SelectRooms(catalog, selection, compile).Ok? && keywords.Ok?)
      && (r.Ok? ==> r.value.chatRooms == SelectRooms(catalog, selection, compile).value)
  {
    var rooms := if |rs.chatRooms| > 0 then Ok(rs.chatRooms) else SelectRooms(catalog, selection, compile);
    match rooms
    case Err(e) => Err(e)
    case Ok(chatRooms) =>
      match keywords
      case Err(e) => Err(e)
      case Ok(k) => Ok(RocketChatState(chatRooms, rs.searchPatterns + [k.keywords], rs.results))
  }

  // ------------------------------------------------------------ ranking

  /** The texts of messages, in order. */
  function Texts(msgs: seq<Message>): (r: seq<string>)
    ensures |r| == |msgs|
    ensures forall i :: 0 <= i < |msgs| ==> r[i] == msgs[i].message
  {
    seq(|msgs|, i requires 0 <= i < |msgs| => msgs[i].message)
  }

  /** The texts of the single hits, in order. */
  function SingleTexts(items: seq<ChatItem>): seq<string>
  {
    if |items| == 0 then []
    else (if items[0].Single? then [items[0].msg.message] else []) + SingleTexts(items[1..])
  }

  /** The texts of the expanded threads, thread after thread. */
  function ThreadTexts(items: seq<ChatItem>): seq<string>
  {
    if |items| == 0 then []
    else (if items[0].Thread? then Texts(items[0].msgs) else []) + ThreadTexts(items[1..])
  }

  /** The text a room is ranked by: single hits first, then thread messages,
      joined by `;`. It joins every message text of the hits exactly once,
      and keeps the hits' order when there is no thread. */
  function RankText(items: seq<ChatItem>): (r: string)
    ensures exists parts :: multiset(parts) == multiset(AllTexts(items)) && r == Join(";", parts)
    ensures (forall i :: 0 <= i < |items| ==> items[i].Single?) ==> r == Join(";", AllTexts(items))
  {
    var parts := SingleTexts(items) + ThreadTexts(items);
    RankTextCoversHits(items);
    if forall i :: 0 <= i < |items| ==> items[i].Single? then
      RankTextInOrder(items);
      assert parts == AllTexts(items);
      Join(";", parts)
    else Join(";", parts)
  }

  /** Reference reading of a room's hits: every message text in item order. */
  function AllTexts(items: seq<ChatItem>): seq<string>
  {
    if |items| == 0 then [] else ItemTexts(items[0]) + AllTexts(items[1..])
  }

  function ItemTexts(item: ChatItem): seq<string>
  {
    match item
    case Single(m) => [m.message]
    case Thread(ms) => Texts(ms)
  }

  /** The ranking text holds every message of the room's hits exactly once,
      in another order. */
  lemma {:induction false} RankTextCoversHits(items: seq<ChatItem>)
    ensures multiset(SingleTexts(items) + ThreadTexts(items)) == multiset(AllTexts(items))
  {
    if |items| > 0 {
      var rest := items[1..];
      RankTextCoversHits(rest);
      var s := if items[0].Single? then [items[0].msg.message] else [];
      var t := if items[0].Thread? then Texts(items[0].msgs) else [];
      assert multiset(s) + multiset(t) == multiset(ItemTexts(items[0]));
      assert SingleTexts(items) + ThreadTexts(items) == s + SingleTexts(rest) + (t + ThreadTexts(rest));
      assert multiset(SingleTexts(items) + ThreadTexts(items))
          == multiset(s) + multiset(t) + multiset(SingleTexts(rest) + ThreadTexts(rest));
    }
  }

  /** Without threads the ranking text keeps the order of the hits. */
  lemma {:induction false} RankTextInOrder(items: seq<ChatItem>)
    requires forall i :: 0 <= i < |items| ==> items[i].Single?
    ensures ThreadTexts(items) == []
    ensures SingleTexts(items) == AllTexts(items)
  {
    if |items| > 0 {
      var rest := items[1..];
      assert forall i :: 0 <= i < |rest| ==> rest[i] == items[i + 1];
      RankTextInOrder(rest);
    }
  }

  /** The hit is a single message. */
  predicate IsSingle(item: ChatItem)
  {
    item.Single?
  }

  /** The hit is an expanded thread. */
  predicate IsThread(item: ChatItem)
  {
    item.Thread?
  }

  /** The text of a single hit; a thread has none of its own. */
  function SingleMsg(item: ChatItem): string
  {
    if item.Single? then item.msg.message else ""
  }

  /** The message texts of a thread hit; a single hit has none. */
  function ThreadMsgs(item: ChatItem): seq<string>
  {
    if item.Thread? then Texts(item.msgs) else []
  }

  /** The ranking text is `";".join(single_messages + threads)` read as the
      two comprehensions of `rank_chat`: the texts of the single hits in
      order, then the messages of every thread hit, thread after thread. */
  lemma RankTextOrder(items: seq<ChatItem>)
    ensures RankText(items) ==
      Join(";", Map(Filter(items, IsSingle), SingleMsg)
              + Flatten(Map(Filter(items, IsThread), ThreadMsgs)))
  {
    SinglesAsComprehension(items);
    ThreadsAsComprehension(items);
  }

  lemma {:induction false} SinglesAsComprehension(items: seq<ChatItem>)
    ensures SingleTexts(items) == Map(Filter(items, IsSingle), SingleMsg)
  {
    if |items| > 0 {
      SinglesAsComprehension(items[1..]);
      if items[0].Single? {
        assert Filter(items, IsSingle) == [items[0]] + Filter(items[1..], IsSingle);
        MapAppend([items[0]], Filter(items[1..], IsSingle), SingleMsg);
        assert Map([items[0]], SingleMsg) == [items[0].msg.message];
      } else {
        assert Filter(items, IsSingle) == Filter(items[1..], IsSingle);
      }
    }
  }

  lemma {:induction false} ThreadsAsComprehension(items: seq<ChatItem>)
    ensures ThreadTexts(items) == Flatten(Map(Filter(items, IsThread), ThreadMsgs))
  {
    if |items| > 0 {
      ThreadsAsComprehension(items[1..]);
      if items[0].Thread? {
        var rest := Map(Filter(items[1..], IsThread), ThreadMsgs);
        assert Filter(items, IsThread) == [items[0]] + Filter(items[1..], IsThread);
        MapAppend([items[0]], Filter(items[1..], IsThread), ThreadMsgs);
        assert ([ThreadMsgs(items[0])] + rest)[1..] == rest;
      } else {
        assert Filter(items, IsThread) == Filter(items[1..], IsThread);
      }
    }
  }

  /** `rank_chat`: the room and its hits scored by the embedding distance of
      its ranking text; scoring raises (`None`) when there is no window. */
  function RankChat(hit: RoomHits, chunkSize: int, distance: string -> int): (r: Option<Scored<RoomHits>>)
    ensures r.Some? <==> chunkSize > 0 && |RankText(hit.1)| > 0
    ensures r.Some? ==> r.value.item == hit && Some(r.value.score) == EmbeddingDistance(RankText(hit.1), chunkSize, distance)
  {
    match EmbeddingDistance(RankText(hit.1), chunkSize, distance)
    case None => None
    case Some(d) => Some(Scored(d, hit))
  }

  /** Every room scored, or `None` when scoring raises for one of them. */
  function RankAll(hits: seq<RoomHits>, chunkSize: int, distance: string -> int): (r: Option<seq<Scored<RoomHits>>>)
    ensures r.Some? <==> forall i :: 0 <= i < |hits| ==> RankChat(hits[i], chunkSize, distance).Some?
    ensures r.Some? ==> |r.value| == |hits| && forall i :: 0 <= i < |hits| ==> r.value[i].item == hits[i]
  {
    AllSome(Map(hits, (h: RoomHits) => RankChat(h, chunkSize, distance)))
  }

  // ------------------------------------------------------------- search

  /** Each ranked room paired with its summary text, "" when there is none. */
  function Candidates(top: seq<Scored<RoomHits>>, sums: seq<Summary>): seq<(ChatRoom, string)>
    requires |top| == |sums|
  {
    seq(|top|, i requires 0 <= i < |top| => (top[i].item.0, if sums[i].summary.Some? then sums[i].summary.value else ""))
  }

  predicate HasText(p: (ChatRoom, string))
  {
    p.1 != ""
  }

  /** The (room, summary) pairs with a non-empty summary, in ranking order. */
  function Kept(top: seq<Scored<RoomHits>>, sums: seq<Summary>): (r: seq<(ChatRoom, string)>)
    requires |top| == |sums|
    ensures r == Filter(Candidates(top, sums), HasText)
    ensures |r| <= |top|
    ensures forall p :: p in r ==> p.1 != "" && exists i :: 0 <= i < |top| && p.0 == top[i].item.0 && sums[i].summary == Some(p.1)
    ensures (forall i :: 0 <= i < |sums| ==> Truthy(sums[i].summary)) ==> |r| == |top|
  {
    if |top| == 0 then []
    else
      var rest := Kept(top[1..], sums[1..]);
      assert Candidates(top, sums)[1..] == Candidates(top[1..], sums[1..]);
      assert forall p :: p in rest ==> exists i :: 0 <= i < |top| && p.0 == top[i].item.0 && sums[i].summary == Some(p.1) by {
        forall p | p in rest
          ensures exists i :: 0 <= i < |top| && p.0 == top[i].item.0 && sums[i].summary == Some(p.1)
        {
          var i :| 0 <= i < |top| - 1 && p.0 == top[1..][i].item.0 && sums[1..][i].summary == Some(p.1);
          assert top[1..][i] == top[i + 1] && sums[1..][i] == sums[i + 1];
        }
      }
      if Truthy(sums[0].summary) then [(top[0].item.0, sums[0].summary.value)] + rest
      else rest
  }

  /** The summaries `search` records for the rooms found: the rooms are
      ranked, the closest three summarised (each summary a model call that
      may raise) and the non-empty summaries kept in ranking order. `None`
      when scoring or a summary raises. */
  function SummarizeClosest(hits: seq<RoomHits>, chunkSize: int, distance: string -> int,
                            summarize: RoomHits -> Result<Summary>): (r: Option<seq<(ChatRoom, string)>>)
    ensures r.Some? <==> (RankAll(hits, chunkSize, distance).Some? &&
      forall x :: x in Closest(hits, chunkSize, distance) ==> summarize(x.item).Ok?)
    ensures r.Some? ==>
      var top := Closest(hits, chunkSize, distance);
      r.value == Kept(top, AllOk(SummaryCalls(top, summarize)).value)
    ensures r.Some? ==> RankAll(hits, chunkSize, distance).Some?
    ensures r.Some? ==> |r.value| <= TopRooms && |r.value| <= |hits|
    ensures r.Some? ==> forall p :: p in r.value ==>
      && p.1 != ""
      && exists i :: 0 <= i < |TopK(RankAll(hits, chunkSize, distance).value, TopRooms)|
           && TopK(RankAll(hits, chunkSize, distance).value, TopRooms)[i].item.0 == p.0
  {
    match RankAll(hits, chunkSize, distance)
    case None => None
    case Some(ranked) =>
      var top := TopK(ranked, TopRooms);
      GatherSummaries(top, summarize);
      match AllOk(SummaryCalls(top, summarize))
      case Err(_) => None
      case Ok(sums) => Some(Kept(top, sums))
  }

  /** The three closest rooms of a successful ranking. */
  function Closest(hits: seq<RoomHits>, chunkSize: int, distance: string -> int): seq<Scored<RoomHits>>
    requires RankAll(hits, chunkSize, distance).Some?
  {
    TopK(RankAll(hits, chunkSize, distance).value, TopRooms)
  }

  /** One summary call per ranked room, as `asyncio.gather` runs them. */
  function SummaryCalls(top: seq<Scored<RoomHits>>, summarize: RoomHits -> Result<Summary>): seq<Result<Summary>>
  {
    seq(|top|, i requires 0 <= i < |top| => summarize(top[i].item))
  }

  /** The gathered summaries succeed iff every call does. */
  lemma GatherSummaries(top: seq<Scored<RoomHits>>, summarize: RoomHits -> Result<Summary>)
    ensures AllOk(SummaryCalls(top, summarize)).Ok? <==> forall x :: x in top ==> summarize(x.item).Ok?
  {
    var calls := SummaryCalls(top, summarize);
    assert forall i :: 0 <= i < |top| ==> calls[i] == summarize(top[i].item);
    assert forall x :: x in top ==> exists i :: 0 <= i < |top| && top[i] == x;
  }

  /** Some room with hits is the given room. */
  predicate FoundRoom(hits: seq<RoomHits>, room: ChatRoom)
  {
    exists h :: h in hits && h.0 == room
  }

  /** Every summarised room is a room the search found. */
  lemma SummarizedRoomsFound(hits: seq<RoomHits>, chunkSize: int, distance: string -> int,
                             summarize: RoomHits -> Result<Summary>)
    requires SummarizeClosest(hits, chunkSize, distance, summarize).Some?
    ensures forall p :: p in SummarizeClosest(hits, chunkSize, distance, summarize).value ==>
      FoundRoom(hits, p.0)
  {
    var top := Closest(hits, chunkSize, distance);
    forall p | p in SummarizeClosest(hits, chunkSize, distance, summarize).value
      ensures FoundRoom(hits, p.0)
    {
      var i :| 0 <= i < |top| && top[i].item.0 == p.0;
      ClosestRoomFound(hits, chunkSize, distance, top[i]);
    }
  }

  /** A room among the closest three is a room the search found. */
  lemma ClosestRoomFound(hits: seq<RoomHits>, chunkSize: int, distance: string -> int, x: Scored<RoomHits>)
    requires RankAll(hits, chunkSize, distance).Some?
    requires x in Closest(hits, chunkSize, distance)
    ensures FoundRoom(hits, x.item.0)
  {
    var ranked := RankAll(hits, chunkSize, distance).value;
    TopKFromInput(ranked, TopRooms);
    var j :| 0 <= j < |ranked| && ranked[j] == x;
    assert hits[j] in hits;
  }

  /** What `search` records for the tool's answer: nothing unless rooms
      were found and every scoring and summary call returned; otherwise the
      non-empty summaries of the closest rooms. */
  function Recorded(found: Result<Option<seq<RoomHits>>>, chunkSize: int,
                    distance: string -> int, summarize: RoomHits -> Result<Summary>): (r: seq<(ChatRoom, string)>)
    ensures |r| <= TopRooms
    ensures !(found.Ok? && found.value.Some? && |found.value.value| > 0) ==> r == []
    ensures forall p :: p in r ==> p.1 != "" && FoundRoom(found.value.value, p.0)
    ensures found.Ok? && found.value.Some? && |found.value.value| > 0 ==>
      var s := SummarizeClosest(found.value.value, chunkSize, distance, summarize);
      r == if s.Some? then s.value else []
  {
    if !(found.Ok? && found.value.Some? && |found.value.value| > 0) then []
    else
      var hits := found.value.value;
      match SummarizeClosest(hits, chunkSize, distance, summarize)
      case None => []
      case Some(kept) =>
        SummarizedRoomsFound(hits, chunkSize, distance, summarize);
        kept
  }

  /** `search`: the recorded summaries are appended to the results; any
      exception on the way, including one from the search tool, leaves the
      state as it was. */
  function Search(rs: RocketChatState, found: Result<Option<seq<RoomHits>>>, chunkSize: int,
                  distance: string -> int, summarize: RoomHits -> Result<Summary>): (r: RocketChatState)
    ensures r.chatRooms == rs.chatRooms && r.searchPatterns == rs.searchPatterns
    ensures r.results == rs.results + Recorded(found, chunkSize, distance, summarize)
    ensures |rs.results| <= |r.results| <= |rs.results| + TopRooms
    ensures r.results[..|rs.results|] == rs.results
    ensures !(found.Ok? && found.value.Some? && |found.value.value| > 0) ==> r == rs
    ensures forall k :: |rs.results| <= k < |r.results| ==>
      && found.Ok? && found.value.Some?
      && r.results[k].1 != ""
      && FoundRoom(found.value.value, r.results[k].0)
  {
    var added := Recorded(found, chunkSize, distance, summarize);
    AppendKeeps(rs.results, added, found);
    rs.(results := rs.results + added)
  }

  /** Appending summaries of found rooms keeps the earlier results and adds
      only non-empty summaries of found rooms. */
  lemma AppendKeeps(before: seq<(ChatRoom, string)>, added: seq<(ChatRoom, string)>,
                    found: Result<Option<seq<RoomHits>>>)
    requires |added| > 0 ==> found.Ok? && found.value.Some?
    requires forall p :: p in added ==> p.1 != "" && FoundRoom(found.value.value, p.0)
    ensures |added| == 0 ==> before + added == before
    ensures (before + added)[..|before|] == before
    ensures forall k :: |before| <= k < |before + added| ==>
      && found.Ok? && found.value.Some?
      && (before + added)[k].1 != ""
      && FoundRoom(found.value.value, (before + added)[k].0)
  {
    forall k | |before| <= k < |before + added|
      ensures (before + added)[k].1 != "" && FoundRoom(found.value.value, (before + added)[k].0)
    {
      assert (before + added)[k] == added[k - |before|];
    }
  }

  /** The text of a summary call's answer, empty when the call raised or
      gave no summary. */
  function SummaryText(call: Result<Summary>): string
  {
    if call.Ok? && call.value.summary.Some? then call.value.summary.value else ""
  }

  /** When each of the closest rooms gets a non-empty summary, `search`
      records exactly those min(3, hits) rooms with their summaries, in
      ranking order. */
  lemma SearchRecordsClosest(rs: RocketChatState, hits: seq<RoomHits>, chunkSize: int,
                             distance: string -> int, summarize: RoomHits -> Result<Summary>)
    requires |hits| > 0 && RankAll(hits, chunkSize, distance).Some?
    requires forall x :: x in Closest(hits, chunkSize, distance) ==>
      summarize(x.item).Ok? && Truthy(summarize(x.item).value.summary)
    ensures var r := Search(rs, Ok(Some(hits)), chunkSize, distance, summarize);
      var top := Closest(hits, chunkSize, distance);
      && |r.results| == |rs.results| + Ranking.Min(TopRooms, |hits|)
      && forall i :: 0 <= i < |top| ==>
           r.results[|rs.results| + i] == (top[i].item.0, SummaryText(summarize(top[i].item)))
  {
    var top := Closest(hits, chunkSize, distance);
    var added := AllSummariesKept(hits, chunkSize, distance, summarize);
    assert Recorded(Ok(Some(hits)), chunkSize, distance, summarize) == added;
    var r := Search(rs, Ok(Some(hits)), chunkSize, distance, summarize);
    assert r.results == rs.results + added;
    assert |top| == Ranking.Min(TopRooms, |hits|) by {
      assert |RankAll(hits, chunkSize, distance).value| == |hits|;
    }
  }

  /** With every summary of the closest rooms present and non-empty, all of
      them are kept, in ranking order. */
  lemma AllSummariesKept(hits: seq<RoomHits>, chunkSize: int,
                         distance: string -> int, summarize: RoomHits -> Result<Summary>) returns (added: seq<(ChatRoom, string)>)
    requires RankAll(hits, chunkSize, distance).Some?
    requires forall x :: x in Closest(hits, chunkSize, distance) ==>
      summarize(x.item).Ok? && Truthy(summarize(x.item).value.summary)
    ensures SummarizeClosest(hits, chunkSize, distance, summarize) == Some(added)
    ensures var top := Closest(hits, chunkSize, distance);
      && |added| == |top|
      && forall i :: 0 <= i < |top| ==> added[i] == (top[i].item.0, SummaryText(summarize(top[i].item)))
  {
    var top := Closest(hits, chunkSize, distance);
    GatherSummaries(top, summarize);
    var calls := SummaryCalls(top, summarize);
    var sums := AllOk(calls).value;
    assert forall i :: 0 <= i < |top| ==> calls[i] == Ok(sums[i]) && top[i] in top;
    added := Candidates(top, sums);
    KeptAll(top, sums);
    forall i | 0 <= i < |added|
      ensures added[i] == (top[i].item.0, SummaryText(summarize(top[i].item)))
    {
      assert summarize(top[i].item) == calls[i] == Ok(sums[i]);
    }
  }

  /** With every summary present and non-empty, no candidate is dropped. */
  lemma KeptAll(top: seq<Scored<RoomHits>>, sums: seq<Summary>)
    requires |top| == |sums|
    requires forall i :: 0 <= i < |sums| ==> Truthy(sums[i].summary)
    ensures Kept(top, sums) == Candidates(top, sums)
  {
    FilterAll(Candidates(top, sums), HasText);
  }

  /** The rooms whose summaries are recorded are among the three best-ranked
      rooms, and no room left out was ranked closer. */
  lemma SearchKeepsClosest(hits: seq<RoomHits>, chunkSize: int,
                           distance: string -> int, summarize: RoomHits -> Result<Summary>)
    requires RankAll(hits, chunkSize, distance).Some?
    ensures var ranked := RankAll(hits, chunkSize, distance).value;
      var top := TopK(ranked, TopRooms);
      && |top| == Ranking.Min(TopRooms, |hits|)
      && Sorted(top)
      && (forall i, j :: 0 <= i < |top| <= j < |ranked| ==> top[i].score <= SortByScore(ranked)[j].score)
      && (forall p :: p in Recorded(Ok(Some(hits)), chunkSize, distance, summarize) ==>
            exists i :: 0 <= i < |top| && top[i].item.0 == p.0)
  {
    var ranked := RankAll(hits, chunkSize, distance).value;
    TopKClosest(ranked, TopRooms);
  }

  /** One pass through the sub-graph: build the pattern, search with it. It
      fails exactly when the keyword call raises or, while no room is
      selected yet, the room selection fails; otherwise the keyword list is
      recorded and the earlier results are kept. */
  function RocketCycle(rs: RocketChatState, catalog: seq<ChatRoom>, selection: Result<ChannelSelection>,
                       compile: string -> Result<string -> bool>, keywords: Result<RegexSearch>,
                       chatSearch: (string, string) -> seq<Message>, thread: string -> seq<Message>,
                       searchRaises: string -> bool, chunkSize: int, distance: string -> int,
                       summarize: RoomHits -> Result<Summary>): (r: Result<RocketChatState>)
    ensures r.Ok? <==> keywords.Ok? && (|rs.chatRooms| > 0 || SelectRooms(catalog, selection, compile).Ok?)
    ensures r.Ok? ==> r.value.searchPatterns == rs.searchPatterns + [keywords.value.keywords]
    ensures r.Ok? ==> |rs.results| <= |r.value.results| <= |rs.results| + TopRooms && r.value.results[..|rs.results|] == rs.results
  {
    match BuildSearchPattern(rs, catalog, selection, compile, keywords)
    case Err(e) => Err(e)
    case Ok(built) =>
      Ok(Search(built, RocketChatSearch(built, chatSearch, thread, searchRaises), chunkSize, distance, summarize))
  }

  /** A pass adds one keyword list and at most three results, keeps the
      results recorded before, and records a result only for a selected room
      that had hits for the new keywords. */
  lemma CycleGrowth(rs: RocketChatState, catalog: seq<ChatRoom>, selection: Result<ChannelSelection>,
                    compile: string -> Result<string -> bool>, keywords: Result<RegexSearch>,
                    chatSearch: (string, string) -> seq<Message>, thread: string -> seq<Message>,
                    searchRaises: string -> bool, chunkSize: int, distance: string -> int,
                    summarize: RoomHits -> Result<Summary>)
    ensures var r := RocketCycle(rs, catalog, selection, compile, keywords, chatSearch, thread, searchRaises, chunkSize, distance, summarize);
      r.Ok? ==>
      && keywords.Ok?
      && r.value.searchPatterns == rs.searchPatterns + [keywords.value.keywords]
      && |rs.results| <= |r.value.results| <= |rs.results| + TopRooms
      && r.value.results[..|rs.results|] == rs.results
      && forall k :: |rs.results| <= k < |r.value.results| ==> r.value.results[k].0 in r.value.chatRooms
  {
    var r := RocketCycle(rs, catalog, selection, compile, keywords, chatSearch, thread, searchRaises, chunkSize, distance, summarize);
    if r.Ok? {
      var built := BuildSearchPattern(rs, catalog, selection, compile, keywords).value;
      var found := RocketChatSearch(built, chatSearch, thread, searchRaises);
      forall k | |rs.results| <= k < |r.value.results|
        ensures r.value.results[k].0 in r.value.chatRooms
      {
        var h :| h in found.value.value && h.0 == r.value.results[k].0;
      }
    }
  }
}

=== FILE: rocket_tool.dfy ===
/** The chat search tool: the latest keyword list, without the terms searched
    before, becomes one case-insensitive alternation pattern that is searched
    in every selected room. The per-room search request and the thread
    request are oracles; so is whether the search as a whole raises. */
module RocketTool {
  import opened Wrappers
  import opened Seqs
  import opened Keywords
  import opened RocketClient
  import opened State

  /** The search pattern `/(t1|t2|...)/i`: a case-insensitive alternation
      of the terms, holding the terms, one `|` between each pair, and
      nothing else between its delimiters. */
  function SearchPattern(terms: seq<string>): (r: string)
    ensures |r| >= 5 && r[..2] == "/(" && r[|r| - 3..] == ")/i"
    ensures |terms| == 0 ==> r == "/()/i"
    ensures |terms| > 0 ==> |r| == 5 + TotalLength(terms) + (|terms| - 1)
  {
    var r := "/(" + Join("|", terms) + ")/i";
    if |terms| > 0 then
      JoinLength("|", terms);
      r
    else r
  }

  /** The pattern is delimited by `/(` and `)/i`, and every term appears in it. */
  lemma PatternMentionsTerm(terms: seq<string>, i: nat) returns (k: nat)
    requires i < |terms|
    ensures |SearchPattern(terms)| >= 5
    ensures SearchPattern(terms)[..2] == "/(" && SearchPattern(terms)[|SearchPattern(terms)| - 3..] == ")/i"
    ensures 2 <= k && k + |terms[i]| <= |SearchPattern(terms)| - 3
    ensures SearchPattern(terms)[k..k + |terms[i]|] == terms[i]
  {
    var j := Join("|", terms);
    var c := JoinPartOffset("|", terms, i);
    var p := SearchPattern(terms);
    assert p == "/(" + j + ")/i";
    assert p[2..2 + |j|] == j;
    k := c + 2;
    assert p[k..k + |terms[i]|] == p[2..2 + |j|][c..c + |terms[i]|];
  }

  /** `rocket_chat_search`: with no new term, or when the search raises,
      there is nothing (`None`); otherwise the selected rooms that have hits,
      in room order, each with its expanded hits. The lookup of the latest
      keyword list fails on an empty history. */
  function RocketChatSearch(rs: RocketChatState,
                            chatSearch: (string, string) -> seq<Message>,
                            thread: string -> seq<Message>,
                            searchRaises: string -> bool): (r: Result<Option<seq<RoomHits>>>)
    ensures r.Err? <==> |rs.searchPatterns| == 0
    ensures r.Ok? ==> (r.value.None? <==>
      var terms := NewTerms(rs.searchPatterns);
      |terms| == 0 || searchRaises(SearchPattern(terms)))
    ensures r.Ok? && r.value.Some? ==>
      var pattern := SearchPattern(NewTerms(rs.searchPatterns));
      && |r.value.value| <= |rs.chatRooms|
      && (forall x :: x in r.value.value ==>
            x.0 in rs.chatRooms && |x.1| > 0 && x.1 == Expand(chatSearch(x.0.roomId, pattern), {}, thread))
      && (forall i :: 0 <= i < |rs.chatRooms| && |Expand(chatSearch(rs.chatRooms[i].roomId, pattern), {}, thread)| > 0 ==>
            (rs.chatRooms[i], Expand(chatSearch(rs.chatRooms[i].roomId, pattern), {}, thread)) in r.value.value)
    ensures r.Ok? && r.value.Some? ==>
      r.value.value == SearchText(SearchPattern(NewTerms(rs.searchPatterns)), rs.chatRooms, chatSearch, thread)
  {
    if |rs.searchPatterns| == 0 then Err("IndexError: list index out of range")
    else
      var terms := NewTerms(rs.searchPatterns);
      if |terms| == 0 then Ok(None)
      else
        var pattern := SearchPattern(terms);
        if searchRaises(pattern) then Ok(None)
        else Ok(Some(SearchText(pattern, rs.chatRooms, chatSearch, thread)))
  }
}

=== FILE: seqs.dfy ===
/** Sequence vocabulary for the Python idioms the source relies on:
    list comprehensions with a condition (`Filter`), nested comprehensions
    (`Flatten`) and `str.join` (`Join`), with the facts the rest of the model
    needs about them. */
module Seqs {

  /** `[x for x in s if p(x)]`: keeps exactly the elements satisfying `p`. */
  function Filter<T(!new)>(s: seq<T>, p: T -> bool): (r: seq<T>)
    ensures |r| <= |s|
    ensures forall x :: x in r <==> x in s && p(x)
  {
    if |s| == 0 then []
    else if p(s[0]) then [s[0]] + Filter(s[1..], p)
    else Filter(s[1..], p)
  }

  /** `a` is obtained from `b` by deleting elements, keeping the order of the rest. */
  predicate IsSubsequence<T(==)>(a: seq<T>, b: seq<T>)
    decreases |b|
  {
    if |a| == 0 then true
    else if |b| == 0 then false
    else if a[0] == b[0] then IsSubsequence(a[1..], b[1..])
    else IsSubsequence(a, b[1..])
  }

  /** `[x for xs in ss for x in xs]`. */
  function Flatten<T(!new)>(ss: seq<seq<T>>): (r: seq<T>)
    ensures forall x :: x in r <==> exists i :: 0 <= i < |ss| && x in ss[i]
  {
    if |ss| == 0 then []
    else
      var rest := Flatten(ss[1..]);
      assert forall i :: 0 < i < |ss| ==> ss[i] == ss[1..][i - 1];
      ss[0] + rest
  }

  /** `[f(x) for x in s]`. */
  function Map<A, B>(s: seq<A>, f: A -> B): (r: seq<B>)
    ensures |r| == |s|
    ensures forall i :: 0 <= i < |s| ==> r[i] == f(s[i])
  {
    seq(|s|, i requires 0 <= i < |s| => f(s[i]))
  }

  /** Nothing in front leaves a list as it is. */
  lemma EmptyPrefix<T>(x: seq<T>)
    ensures [] + x == x
  {
  }

  /** Concatenation groups either way. */
  lemma AppendAssoc<T>(a: seq<T>, b: seq<T>, c: seq<T>)
    ensures a + (b + c) == a + b + c
  {
  }

  /** A list is its three slices at two cut points, put back together. */
  lemma SliceThree<T>(s: seq<T>, i: nat, j: nat)
    requires i <= j <= |s|
    ensures s == s[..i] + s[i..j] + s[j..]
  {
  }

  /** The image of every element is in the mapped list. */
  lemma MapHas<A, B>(s: seq<A>, f: A -> B)
    ensures forall x :: x in s ==> f(x) in Map(s, f)
  {
    forall x | x in s
      ensures f(x) in Map(s, f)
    {
      var i :| 0 <= i < |s| && s[i] == x;
      assert Map(s, f)[i] == f(x);
    }
  }

  /** Mapping works element by element, so it distributes over concatenation. */
  lemma MapAppend<A, B>(a: seq<A>, b: seq<A>, f: A -> B)
    ensures Map(a + b, f) == Map(a, f) + Map(b, f)
  {
    var all, both := Map(a + b, f), Map(a, f) + Map(b, f);
    forall i | 0 <= i < |all|
      ensures all[i] == both[i]
    {
      if i < |a| {
        assert (a + b)[i] == a[i];
      } else {
        assert (a + b)[i] == b[i - |a|];
      }
    }
  }

  /** `sep.join(parts)`; the empty list joins to the empty string. */
  function Join(sep: string, parts: seq<string>): string
  {
    if |parts| == 0 then ""
    else if |parts| == 1 then parts[0]
    else parts[0] + sep + Join(sep, parts[1..])
  }

  /** The summed length of all parts. */
  function TotalLength(parts: seq<string>): nat
  {
    if |parts| == 0 then 0 else |parts[0]| + TotalLength(parts[1..])
  }

  /** Filtering never reorders: the result is a subsequence of the input. */
  lemma {:induction false} FilterIsSubsequence<T(!new)>(s: seq<T>, p: T -> bool)
    ensures IsSubsequence(Filter(s, p), s)
  {
    if |s| > 0 {
      FilterIsSubsequence(s[1..], p);
      if p(s[0]) {
        assert Filter(s, p) == [s[0]] + Filter(s[1..], p);
        assert Filter(s, p)[1..] == Filter(s[1..], p);
      } else {
        SubsequenceDropHead(Filter(s, p), s);
      }
    }
  }

  /** Helper: a subsequence of the tail is a subsequence of the whole. */
  lemma SubsequenceDropHead<T>(a: seq<T>, b: seq<T>)
    requires |b| > 0
    requires IsSubsequence(a, b[1..])
    ensures IsSubsequence(a, b)
    decreases |b|, 0
  {
    if |a| > 0 && a[0] == b[0] {
      SubsequenceTail(a, b[1..]);
    }
  }

  /** Helper: dropping the first element of a subsequence keeps it one. */
  lemma SubsequenceTail<T>(a: seq<T>, c: seq<T>)
    requires |a| > 0
    requires IsSubsequence(a, c)
    ensures IsSubsequence(a[1..], c)
    decreases |c|, 1
  {
    if a[0] == c[0] {
      SubsequenceDropHead(a[1..], c);
    } else {
      SubsequenceTail(a, c[1..]);
      SubsequenceDropHead(a[1..], c);
    }
  }

  /** A subsequence is no longer than the sequence it is taken from, and all
      its elements occur there. */
  lemma {:induction false} SubsequenceBounds<T>(a: seq<T>, b: seq<T>)
    requires IsSubsequence(a, b)
    ensures |a| <= |b|
    ensures forall x :: x in a ==> x in b
    decreases |b|
  {
    if |a| > 0 {
      if a[0] == b[0] {
        SubsequenceBounds(a[1..], b[1..]);
        assert forall x :: x in a ==> x == a[0] || x in a[1..];
      } else {
        SubsequenceBounds(a, b[1..]);
      }
    }
  }

  /** Every element of `parts`, in order, is visible in the joined string,
      and the length adds up to the parts plus one separator between each pair. */
  lemma {:induction false} JoinLength(sep: string, parts: seq<string>)
    requires |parts| > 0
    ensures |Join(sep, parts)| == TotalLength(parts) + (|parts| - 1) * |sep|
  {
    if |parts| > 1 {
      JoinLength(sep, parts[1..]);
    }
  }

  /** Joining a longer list: the first part, one separator, then the rest. */
  lemma {:induction false} JoinAppend(sep: string, a: seq<string>, b: seq<string>)
    requires |a| > 0 && |b| > 0
    ensures Join(sep, a + b) == Join(sep, a) + sep + Join(sep, b)
  {
    if |a| == 1 {
      assert (a + b)[1..] == b;
    } else {
      assert (a + b)[1..] == a[1..] + b;
      JoinAppend(sep, a[1..], b);
    }
  }

  /** Every part occurs as a contiguous piece of the joined string, at the
      returned offset. */
  lemma {:induction false} JoinPartOffset(sep: string, parts: seq<string>, i: nat) returns (k: nat)
    requires i < |parts|
    ensures k + |parts[i]| <= |Join(sep, parts)|
    ensures Join(sep, parts)[k..k + |parts[i]|] == parts[i]
  {
    var j := Join(sep, parts);
    if i == 0 {
      k := 0;
      if |parts| > 1 {
        assert j == parts[0] + (sep + Join(sep, parts[1..]));
      }
      assert j[0..|parts[0]|] == parts[0];
    } else {
      var k' := JoinPartOffset(sep, parts[1..], i - 1);
      var rest := Join(sep, parts[1..]);
      k := |parts[0]| + |sep| + k';
      assert j == (parts[0] + sep) + rest;
      assert j[k..k + |parts[i]|] == rest[k'..k' + |parts[i]|];
    }
  }


  /** Filtering keeps every selected element as many times as it occurs. */
  lemma {:induction false} FilterMultiplicity<T(!new)>(s: seq<T>, p: T -> bool, x: T)
    ensures multiset(Filter(s, p))[x] == if p(x) then multiset(s)[x] else 0
  {
    if |s| > 0 {
      FilterMultiplicity(s[1..], p, x);
      assert s == [s[0]] + s[1..];
    }
  }

  /** Filtering distributes over concatenation. */
  lemma {:induction false} FilterConcat<T(!new)>(a: seq<T>, b: seq<T>, p: T -> bool)
    ensures Filter(a + b, p) == Filter(a, p) + Filter(b, p)
  {
    if |a| > 0 {
      var c := a + b;
      assert c[0] == a[0] && c[1..] == a[1..] + b;
      FilterConcat(a[1..], b, p);
      var rest := Filter(a[1..], p) + Filter(b, p);
      if p(a[0]) {
        assert Filter(c, p) == [a[0]] + rest;
        assert [a[0]] + rest == ([a[0]] + Filter(a[1..], p)) + Filter(b, p);
      } else {
        assert Filter(c, p) == rest;
      }
    } else {
      assert a + b == b;
    }
  }

  /** Python's `range(start, stop, step)` for a positive step. */
  function Range(start: int, stop: int, step: int): seq<int>
    requires step > 0
    decreases stop - start
  {
    if start < stop then [start] + Range(start + step, stop, step) else []
  }

  /** A range has ceiling((stop - start) / step) elements: the last one lies
      below `stop` and one more step would reach it; it is empty exactly
      when `stop <= start`. */
  lemma {:induction false} RangeCount(start: int, stop: int, step: int)
    requires step > 0
    ensures var c := |Range(start, stop, step)|;
      if stop <= start then c == 0
      else c > 0 && (c - 1) * step < stop - start <= c * step
    decreases stop - start
  {
    if start < stop {
      RangeCount(start + step, stop, step);
      var c' := |Range(start + step, stop, step)|;
      assert (c' + 1) * step == c' * step + step;
    }
  }

  /** The k-th element of a range is `start + k * step`, below `stop`. */
  lemma {:induction false} RangeValues(start: int, stop: int, step: int)
    requires step > 0
    ensures forall k :: 0 <= k < |Range(start, stop, step)| ==>
      Range(start, stop, step)[k] == start + k * step && Range(start, stop, step)[k] < stop
    decreases stop - start
  {
    if start < stop {
      RangeValues(start + step, stop, step);
      var r := Range(start, stop, step);
      forall k | 0 <= k < |r|
        ensures r[k] == start + k * step
      {
        if k > 0 {
          assert r[k] == Range(start + step, stop, step)[k - 1];
          assert start + step + (k - 1) * step == start + k * step;
        }
      }
    }
  }

  /** A filter that accepts every element keeps the sequence. */
  lemma {:induction false} FilterAll<T(!new)>(s: seq<T>, p: T -> bool)
    requires forall x :: x in s ==> p(x)
    ensures Filter(s, p) == s
  {
    if |s| > 0 {
      FilterAll(s[1..], p);
    }
  }

  /** A filter that rejects every element leaves nothing. */
  lemma {:induction false} FilterNone<T(!new)>(s: seq<T>, p: T -> bool)
    requires forall x :: x in s ==> !p(x)
    ensures Filter(s, p) == []
  {
    if |s| > 0 {
      FilterNone(s[1..], p);
    }
  }
}

=== FILE: state.dfy ===
/** The session state shared by the agent's graphs and the reducers that
    merge two copies of it, field by field. A Python list that may be None is
    modelled as a sequence, with None and the empty list identified (the
    reducers only test truthiness). A sub-state record that may be missing or
    an empty dict is modelled as an `Option`. */
module State {
  import opened Wrappers
  import opened Prompts
  import opened MainOutput
  import opened RocketClient
  import opened ConfluenceClient

  /** The chat source's state: rooms to search, one keyword list per search,
      and the (room, summary) pairs collected so far. */
  datatype RocketChatState = RocketChatState(
    chatRooms: seq<ChatRoom>,
    searchPatterns: seq<seq<string>>,
    results: seq<(ChatRoom, string)>)

  /** The wiki source's state: one keyword list per query and one page list
      per successful query. */
  datatype ConfluenceState = ConfluenceState(
    cqlQueries: seq<seq<string>>,
    confluencePages: seq<seq<Page>>)

  /** The main graph's state. `operations` holds the tool set chosen on each
      main-loop pass. */
  datatype GraphState = GraphState(
    iterations: int,
    initialCheckFailed: Option<string>,
    finalResponse: Option<Response>,
    operations: seq<set<Tool>>,
    rocket: RocketChatState,
    confluence: ConfluenceState)

  function RocketInitialize(): RocketChatState
  {
    RocketChatState([], [], [])
  }

  function ConfluenceInitialize(): ConfluenceState
  {
    ConfluenceState([], [])
  }

  /** The initial state: counter 0, nothing decided, no operations, empty
      sub-states. It is a two-sided identity of the merge for every state
      whose counter is not negative. */
  function Initialize(): (r: GraphState)
    ensures forall s: GraphState :: s.iterations >= 0 ==> MergeGraph(r, s) == s && MergeGraph(s, r) == s
  {
    var r := GraphState(0, None, None, [], RocketInitialize(), ConfluenceInitialize());
    forall s: GraphState | s.iterations >= 0
      ensures MergeGraph(r, s) == s && MergeGraph(s, r) == s
    {
      ListGreaterPrefix([], s.operations);
      assert [] + s.operations == s.operations;
    }
    r
  }

  // --------------------------------------------------------------- reducers

  function Max(a: int, b: int): int
  {
    if a > b then a else b
  }

  /** `list_reducer`: the longer list wins, ties go to `b`, and an empty side
      yields the other; both empty yields `a`. */
  function ListReducer<T>(a: seq<T>, b: seq<T>): (r: seq<T>)
    ensures r == a || r == b
    ensures |r| == Max(|a|, |b|)
    ensures |a| == 0 ==> r == b
    ensures |b| == 0 ==> r == a
    ensures |a| == |b| > 0 ==> r == b
  {
    if |a| == 0 && |b| == 0 then a
    else if |a| == 0 && |b| > 0 then b
    else if |a| > 0 && |b| == 0 then a
    else if |a| > |b| then a
    else b
  }

  /** Merging a list with itself changes nothing. */
  lemma ListReducerIdempotent<T>(x: seq<T>)
    ensures ListReducer(x, x) == x
  {
  }

  /** Merging is associative, so the order in which branch results are
      combined does not matter for the grouping. */
  lemma ListReducerAssociative<T>(a: seq<T>, b: seq<T>, c: seq<T>)
    ensures ListReducer(ListReducer(a, b), c) == ListReducer(a, ListReducer(b, c))
  {
  }

  /** `none_reducer`: a later present value overrides the earlier one. */
  function NoneReducer<T>(a: Option<T>, b: Option<T>): (r: Option<T>)
    ensures r.Some? <==> a.Some? || b.Some?
    ensures b.Some? ==> r == b
    ensures b.None? ==> r == a
  {
    if b.Some? then b else a
  }

  /** None is a two-sided identity, and merging is associative and idempotent. */
  lemma NoneReducerLaws<T>(a: Option<T>, b: Option<T>, c: Option<T>)
    ensures NoneReducer(a, None) == a && NoneReducer(None, a) == a
    ensures NoneReducer(a, a) == a
    ensures NoneReducer(NoneReducer(a, b), c) == NoneReducer(a, NoneReducer(b, c))
  {
  }

  /** `larger_reducer` on integers: the maximum. */
  function LargerInt(a: int, b: int): (r: int)
    ensures r >= a && r >= b
    ensures r == a || r == b
  {
    if a > b then a else b
  }

  /** On integers the reducer is idempotent, commutative and associative. */
  lemma LargerIntLaws(a: int, b: int, c: int)
    ensures LargerInt(a, a) == a
    ensures LargerInt(a, b) == LargerInt(b, a)
    ensures LargerInt(LargerInt(a, b), c) == LargerInt(a, LargerInt(b, c))
  {
  }

  /** Python's `a > b` on lists of sets: at the first position where the
      lists differ the sets are compared with `>` (proper superset); if one
      list is a prefix of the other, the longer one is greater. */
  predicate ListGreater(a: seq<set<Tool>>, b: seq<set<Tool>>)
  {
    if |a| == 0 then false
    else if |b| == 0 then true
    else if a[0] != b[0] then b[0] < a[0]
    else ListGreater(a[1..], b[1..])
  }

  /** `larger_reducer` on the `operations` lists. */
  function LargerOps(a: seq<set<Tool>>, b: seq<set<Tool>>): (r: seq<set<Tool>>)
    ensures r == a || r == b
  {
    if ListGreater(a, b) then a else b
  }

  /** When one history extends the other, the longer one wins. */
  lemma {:induction false} LargerOpsPrefix(a: seq<set<Tool>>, ext: seq<set<Tool>>)
    ensures LargerOps(a, a + ext) == a + ext
    ensures LargerOps(a + ext, a) == a + ext
  {
    ListGreaterPrefix(a, ext);
  }

  lemma {:induction false} ListGreaterPrefix(a: seq<set<Tool>>, ext: seq<set<Tool>>)
    ensures !ListGreater(a, a + ext)
    ensures ListGreater(a + ext, a) <==> |ext| > 0
  {
    if |a| > 0 {
      assert (a + ext)[0] == a[0];
      assert (a + ext)[1..] == a[1..] + ext;
      ListGreaterPrefix(a[1..], ext);
    } else {
      assert a + ext == ext;
    }
  }

  /** Merging an operations history with itself changes nothing. */
  lemma LargerOpsIdempotent(a: seq<set<Tool>>)
    ensures LargerOps(a, a) == a
  {
  }

  /** Unlike on integers, the reducer on operations is not commutative:
      two one-pass histories with unrelated tool sets each win when passed
      second. */
  lemma LargerOpsNotCommutative()
    ensures LargerOps([{Confluence}], [{RocketChat}]) == [{RocketChat}]
    ensures LargerOps([{RocketChat}], [{Confluence}]) == [{Confluence}]
  {
    assert {Confluence} != {RocketChat} by {
      assert Confluence in {Confluence};
    }
    assert !({Confluence} < {RocketChat}) by {
      assert Confluence !in {RocketChat};
    }
    assert !({RocketChat} < {Confluence}) by {
      assert RocketChat !in {Confluence};
    }
  }

  /** `rocket_reducer`: a missing (or empty) side yields the other; with both
      present every list is merged by `list_reducer`; with neither present
      the source fails on the lookup of a missing key. */
  function RocketReducer(a: Option<RocketChatState>, b: Option<RocketChatState>): (r: Result<RocketChatState>)
    ensures r.Ok? <==> a.Some? || b.Some?
    ensures a.Some? && b.None? ==> r == Ok(a.value)
    ensures a.None? && b.Some? ==> r == Ok(b.value)
    ensures a.Some? && b.Some? ==>
      && |r.value.chatRooms| == Max(|a.value.chatRooms|, |b.value.chatRooms|)
      && |r.value.searchPatterns| == Max(|a.value.searchPatterns|, |b.value.searchPatterns|)
      && |r.value.results| == Max(|a.value.results|, |b.value.results|)
    ensures a.Some? && b.Some? ==>
      && r.value.chatRooms == ListReducer(a.value.chatRooms, b.value.chatRooms)
      && r.value.searchPatterns == ListReducer(a.value.searchPatterns, b.value.searchPatterns)
      && r.value.results == ListReducer(a.value.results, b.value.results)
  {
    if a.Some? && b.None? then Ok(a.value)
    else if b.Some? && a.None? then Ok(b.value)
    else if a.None? then Err("TypeError: 'NoneType' object is not subscriptable")
    else Ok(RocketChatState(
      ListReducer(a.value.chatRooms, b.value.chatRooms),
      ListReducer(a.value.searchPatterns, b.value.searchPatterns),
      ListReducer(a.value.results, b.value.results)))
  }

  /** The initial chat state is a two-sided identity of the merge, and
      merging a state with itself changes nothing. */
  lemma RocketReducerLaws(s: RocketChatState)
    ensures RocketReducer(Some(RocketInitialize()), Some(s)) == Ok(s)
    ensures RocketReducer(Some(s), Some(RocketInitialize())) == Ok(s)
    ensures RocketReducer(Some(s), Some(s)) == Ok(s)
  {
  }

  /** `confluence_reducer`: as `rocket_reducer`, over the two lists of the
      wiki state. */
  function ConfluenceReducer(a: Option<ConfluenceState>, b: Option<ConfluenceState>): (r: Result<ConfluenceState>)
    ensures r.Ok? <==> a.Some? || b.Some?
    ensures a.Some? && b.None? ==> r == Ok(a.value)
    ensures a.None? && b.Some? ==> r == Ok(b.value)
    ensures a.Some? && b.Some? ==>
      && |r.value.cqlQueries| == Max(|a.value.cqlQueries|, |b.value.cqlQueries|)
      && |r.value.confluencePages| == Max(|a.value.confluencePages|, |b.value.confluencePages|)
    ensures a.Some? && b.Some? ==>
      && r.value.cqlQueries == ListReducer(a.value.cqlQueries, b.value.cqlQueries)
      && r.value.confluencePages == ListReducer(a.value.confluencePages, b.value.confluencePages)
  {
    if a.Some? && b.None? then Ok(a.value)
    else if b.Some? && a.None? then Ok(b.value)
    else if a.None? then Err("TypeError: 'NoneType' object is not subscriptable")
    else Ok(ConfluenceState(
      ListReducer(a.value.cqlQueries, b.value.cqlQueries),
      ListReducer(a.value.confluencePages, b.value.confluencePages)))
  }

  lemma ConfluenceReducerLaws(s: ConfluenceState)
    ensures ConfluenceReducer(Some(ConfluenceInitialize()), Some(s)) == Ok(s)
    ensures ConfluenceReducer(Some(s), Some(ConfluenceInitialize())) == Ok(s)
    ensures ConfluenceReducer(Some(s), Some(s)) == Ok(s)
  {
  }

  /** Every successful query stores one page list, so there are never more
      page lists than keyword lists. */
  predicate PagesBounded(cs: ConfluenceState)
  {
    |cs.confluencePages| <= |cs.cqlQueries|
  }

  /** Merging two wiki states that respect the bound respects it too. */
  lemma ConfluenceReducerKeepsBound(a: ConfluenceState, b: ConfluenceState)
    requires PagesBounded(a) && PagesBounded(b)
    ensures PagesBounded(ConfluenceReducer(Some(a), Some(b)).value)
  {
  }

  /** The merge of two graph states, one reducer per field: the counter is
      the larger one, a later decision or response overrides an earlier one,
      the history is one of the two, every list of the sub-states is the
      longer of the two, and the wiki bound survives. */
  function MergeGraph(a: GraphState, b: GraphState): (r: GraphState)
    ensures r.iterations == Max(a.iterations, b.iterations)
    ensures r.initialCheckFailed == (if b.initialCheckFailed.Some? then b.initialCheckFailed else a.initialCheckFailed)
    ensures r.finalResponse.Some? <==> a.finalResponse.Some? || b.finalResponse.Some?
    ensures r.finalResponse == (if b.finalResponse.Some? then b.finalResponse else a.finalResponse)
    ensures r.operations == a.operations || r.operations == b.operations
    ensures r.rocket.chatRooms in {a.rocket.chatRooms, b.rocket.chatRooms}
    ensures |r.rocket.chatRooms| == Max(|a.rocket.chatRooms|, |b.rocket.chatRooms|)
    ensures r.rocket.searchPatterns in {a.rocket.searchPatterns, b.rocket.searchPatterns}
    ensures |r.rocket.searchPatterns| == Max(|a.rocket.searchPatterns|, |b.rocket.searchPatterns|)
    ensures r.rocket.results in {a.rocket.results, b.rocket.results}
    ensures |r.rocket.results| == Max(|a.rocket.results|, |b.rocket.results|)
    ensures r.confluence.cqlQueries in {a.confluence.cqlQueries, b.confluence.cqlQueries}
    ensures |r.confluence.cqlQueries| == Max(|a.confluence.cqlQueries|, |b.confluence.cqlQueries|)
    ensures r.confluence.confluencePages in {a.confluence.confluencePages, b.confluence.confluencePages}
    ensures |r.confluence.confluencePages| == Max(|a.confluence.confluencePages|, |b.confluence.confluencePages|)
    ensures PagesBounded(a.confluence) && PagesBounded(b.confluence) ==> PagesBounded(r.confluence)
  {
    GraphState(
      LargerInt(a.iterations, b.iterations),
      NoneReducer(a.initialCheckFailed, b.initialCheckFailed),
      NoneReducer(a.finalResponse, b.finalResponse),
      LargerOps(a.operations, b.operations),
      RocketReducer(Some(a.rocket), Some(b.rocket)).value,
      ConfluenceReducer(Some(a.confluence), Some(b.confluence)).value)
  }

  /** Merging a state with itself changes nothing. */
  lemma MergeGraphIdempotent(s: GraphState)
    ensures MergeGraph(s, s) == s
  {
  }
}

=== FILE: wrappers.dfy ===
/** Failure-carrying datatypes shared by the whole model.
    `Option` stands for Python's `X | None`; `Result` stands for a call that
    either returns a value or raises (the error text names the exception). */
module Wrappers {

  datatype Option<+T> = None | Some(value: T)

  datatype Result<+T> = Ok(value: T) | Err(error: string)

  /** Python truthiness of an optional string: neither None nor "". */
  predicate Truthy(s: Option<string>)
  {
    s.Some? && s.value != ""
  }

  /** `await asyncio.gather(*calls)` read sequentially: the list of all values,
      or a failure as soon as one call raises. */
  function AllOk<T>(rs: seq<Result<T>>): (r: Result<seq<T>>)
    ensures r.Ok? <==> forall i :: 0 <= i < |rs| ==> rs[i].Ok?
    ensures r.Ok? ==> |r.value| == |rs| && forall i :: 0 <= i < |rs| ==> rs[i] == Ok(r.value[i])
  {
    if |rs| == 0 then Ok([])
    else match rs[0]
      case Err(e) => Err(e)
      case Ok(v) =>
        match AllOk(rs[1..])
        case Err(e) => Err(e)
        case Ok(vs) => Ok([v] + vs)
  }

  /** Every value present, collected in order; `None` as soon as one is missing. */
  function AllSome<T>(os: seq<Option<T>>): (r: Option<seq<T>>)
    ensures r.Some? <==> forall i :: 0 <= i < |os| ==> os[i].Some?
    ensures r.Some? ==> |r.value| == |os| && forall i :: 0 <= i < |os| ==> os[i] == Some(r.value[i])
  {
    if |os| == 0 then Some([])
    else match os[0]
      case None => None
      case Some(v) =>
        match AllSome(os[1..])
        case None => None
        case Some(vs) => Some([v] + vs)
  }

  /** `[x for x in xs if x]` over optional values: the present ones, in order. */
  function Somes<T(!new)>(os: seq<Option<T>>): (r: seq<T>)
    ensures |r| <= |os|
    ensures forall x :: x in r <==> Some(x) in os
  {
    if |os| == 0 then []
    else if os[0].Some? then [os[0].value] + Somes(os[1..])
    else Somes(os[1..])
  }

  /** With every value present, nothing is dropped. */
  lemma {:induction false} SomesAll<T(!new)>(os: seq<Option<T>>)
    requires forall i :: 0 <= i < |os| ==> os[i].Some?
    ensures |Somes(os)| == |os|
    ensures forall i :: 0 <= i < |os| ==> Somes(os)[i] == os[i].value
  {
    if |os| > 0 {
      assert forall i :: 1 <= i < |os| ==> os[1..][i - 1] == os[i];
      SomesAll(os[1..]);
    }
  }

  /** Dropping the missing values goes element by element, in order: the
      present values of two lists are those of the first followed by those
      of the second. */
  lemma {:induction false} SomesAppend<T(!new)>(a: seq<Option<T>>, b: seq<Option<T>>)
    ensures Somes(a + b) == Somes(a) + Somes(b)
  {
    if |a| > 0 {
      assert (a + b)[0] == a[0];
      assert (a + b)[1..] == a[1..] + b;
      SomesAppend(a[1..], b);
    } else {
      assert a + b == b;
    }
  }

  /** Gathering two lists of calls succeeds iff gathering each does, and the
      values come in call order. */
  lemma {:induction false} AllOkAppend<T>(a: seq<Result<T>>, b: seq<Result<T>>)
    ensures AllOk(a + b).Ok? <==> AllOk(a).Ok? && AllOk(b).Ok?
    ensures AllOk(a + b).Ok? ==> AllOk(a + b).value == AllOk(a).value + AllOk(b).value
  {
    if |a| > 0 {
      assert (a + b)[0] == a[0];
      assert (a + b)[1..] == a[1..] + b;
      AllOkAppend(a[1..], b);
    } else {
      assert a + b == b;
    }
  }
}
